=== FILE: README.md ===
# BRC-20 indexer core in Dafny

This project models the core of a BRC-20 token indexer for Bitcoin. The
indexer walks blocks and reads the witness data of each transaction's
first input. It pulls out JSON inscriptions whose `p` is `brc-20` and
dispatches them on their `op`:

- `deploy` creates a ticker.
- `mint` credits tokens up to the ticker's limit and maximum supply.
- `transfer` locks part of an owner's available balance in a transfer
  inscription.

Spending the output that holds a transfer inscription moves the locked
amount to the owner of the output the inscribed satoshi lands in.

There are two ledgers, and both are modelled:

- an in-memory one: `Brc20Index`, `Brc20Ticker` and `UserBalance`;
- a document-store one: the MongoDB collections of balances, balance
  entries, tickers, mints, invalid inscriptions and completed blocks. Here
  it is a `Store` value holding maps and sequences.

Amounts are Dafny `real`s. Foreign code is passed in as function
parameters. This covers `serde_json`, `f64` parsing, `String::from_utf8_lossy`,
the node's `getrawtransaction` and the input-value lookup. The node's
answers for successive block-walk rounds are a list of `Attempt`s.

Two steps of the block loop are wrong in the source (see "## Findings").
The in-memory index therefore takes a `Rules` switch in its `Env`:

- `AsWritten` runs the program as written. A spent inscription goes to
  the first output whose running value sum is `>=` the preceding value,
  and input 0 always goes to output 0. A transfer's ticker is looked up
  and registered under the tick exactly as inscribed.
- `Corrected` runs the evidently intended rules. A spent inscription goes
  to the output whose value range covers the inscribed satoshi. A
  transfer uses the lower-cased tick.

Every contract of the block loop holds for both settings. Where the two
differ, the contract says which rule is used.

Module layout, following the source files:

| module | file | source |
|---|---|---|
| `Base`, `Text` | base.dfy, text.dfy | `Result`/`Option`; the `str` operations the source uses (`find`, `rfind`, `split`, `to_lowercase`, `len`) |
| `Chain` | chain.dfy | transactions, outputs, outpoints, txids and their hex text form |
| `Witness` | witness.dfy | inscription extraction and witness reading (src/brc20_index.rs, src/main.rs) |
| `Amounts` | amounts.dfy | `convert_to_float` (src/brc20_index/utils.rs), `u8` parsing |
| `Brc20Txs`, `TransferTxs`, `UserBalances`, `Deploys`, `Tickers`, `Transfers` | brc20_tx.dfy … transfers.dfy | the in-memory records of src/brc20_index/ |
| `Assoc` | assoc.dfy | hash maps whose iteration order the code observes, as association lists |
| `Store`, `Mints` | store.dfy, mint.dfy | src/brc20_index/mongo.rs and the store-backed mint of src/brc20_index/mint.rs |
| `Vouts` | vout.dfy | which output receives a spent transfer inscription |
| `Indexer`, `Scanner` | index.dfy, scan.dfy | `Brc20Index`, `process_active_transfer`, the block loops |

The central invariants:

- For every balance document, available + transferable == overall. This
  holds for the incremental updates and for the rebuild fold.
- Every balance document equals the fold of its entry log (`Store.Synced`).
- A mint never takes a ticker's total past its maximum supply.
- In memory, each ticker's overall balances add up to its minted amount,
  across whole block walks (`Indexer.Balanced`).

## Model

| member | source | states |
|---|---|---|
| Text.Find | src/brc20_index.rs:379-385 | `str::find`: None iff the pattern does not occur, otherwise the first position where it matches |
| Text.FindChar | src/brc20_index.rs:388-389 | `find('{')`: the first occurrence of the character, None iff absent |
| Text.RFindChar | src/brc20_index.rs:390 | `rfind('}')`: the last occurrence of the character, None iff absent |
| Text.Split | src/brc20_index/utils.rs:5 | `split('.')` yields one more part than there are dots, and no part contains a dot |
| Text.JoinSplit | src/brc20_index/utils.rs:5 | joining the parts of `split` with the separator gives back the original string |
| Text.CountZero | src/brc20_index/utils.rs:6-7 | the dot count is zero exactly when the string has no dot |
| Text.SplitAtOnlySeparator | src/brc20_index/utils.rs:15-17 | with exactly one dot, the two parts are the text before and after it |
| Text.ToLower | src/brc20_index/deploy.rs:66 | lower-casing keeps the length and maps each character independently |
| Text.ToLowerIdempotent | src/brc20_index/brc20_ticker.rs:154-156 | lower-casing twice is lower-casing once |
| Text.Utf8LenBounds | src/brc20_index/utils.rs:17 | a string's UTF-8 byte length (what `len()` counts) lies between its character count and four times it, and equals the count for ASCII |
| Chain.DecodeHex | src/main.rs:16 | every byte is the value of its two hex digits |
| Chain.EncodeHex | src/main.rs:59 | hex text is twice as long as its bytes and decodes back to them digit pair by digit pair |
| Chain.Reverse | src/main.rs:16 | reverses a sequence element by element (txids display byte-reversed) |
| Chain.ParseTxid | src/main.rs:16 | a txid parses iff it is 64 hex digits, and the bytes are the reversed pairs |
| Chain.FormatTxid | src/main.rs:59 | a txid's text form is 64 hex digits |
| Chain.ParseFormatTxid | src/main.rs:59 | a formatted txid parses back to the same txid |
| Witness.Field | src/main.rs:113 | a non-null field lookup comes from an object holding that key |
| Witness.MimeEnd | src/brc20_index.rs:379-386 | None iff neither `text/plain` nor `application/json` occurs; `text/plain` wins when both do; the index is just past the first match |
| Witness.SpanFrom | src/brc20_index.rs:388-392 | the span runs from the first `{` at or after the marker to the last `}` after it, and is None iff either is missing |
| Witness.JsonCandidate | src/brc20_index.rs:388-392 | a candidate exists iff the marker and both braces do, starts with `{` and ends with `}` |
| Witness.ExtractAndProcessWitnessData | src/brc20_index.rs:377-414 | Some iff the candidate parses and its `p` is `brc-20`; no marker means None |
| Witness.ExtractAndProcessWitnessValue | src/main.rs:92-125 | the same for untyped JSON values: Some only when the parsed value's `p` field is the string `brc-20` |
| Witness.DecodeItems | src/brc20_index.rs:367-370 | each witness item is decoded lossily, one string per item, in order |
| Witness.GetWitnessDataFromRawTx | src/brc20_index.rs:357-374 | errors iff the transaction does not decode; otherwise exactly the first input's witness items in order, and none without inputs |
| Witness.GetWitnessDataForTxid | src/main.rs:11-38 | an unparseable txid gives "Invalid transaction ID", a failed fetch passes its error on, otherwise the first input's witnesses |
| Witness.FormattedTxidAlwaysParses | src/main.rs:58-59 | a txid's own text form never hits the invalid-id error |
| Amounts.ConvertToFloat | src/brc20_index/utils.rs:4-29 | more than one dot is malformed; too many fractional bytes is rejected before parsing; Ok iff at most one dot, the fraction fits and the text parses, with the parsed value |
| Amounts.ParseU8 | src/brc20_index/deploy.rs:121 | Some iff after an optional `+` there is a non-empty digit string of value at most 255, and then that value |
| Amounts.DigitsValueLeadingZero | src/brc20_index/deploy.rs:121 | a leading zero does not change a digit string's value |
| Amounts.ParseU8LeadingZero | src/brc20_index/deploy.rs:121 | leading zeros are accepted and ignored ("007" is 7, "0256" still overflows) |
| Amounts.ParseU8OfDecimal | src/brc20_index/deploy.rs:121 | every decimal numeral up to 255, with or without `+`, parses to its value |
| Amounts.ParseU8Overflow | src/brc20_index/deploy.rs:121 | a numeral above 255 does not parse |
| Amounts.DigitsValueOfDecimal | src/brc20_index/deploy.rs:121 | the value of a number's decimal numeral is the number |
| Brc20Txs.NewBrc20Tx | src/brc20_index/brc20_tx.rs:22-46 | fails iff the block time is missing; otherwise records txid, `vout[0].n`, height, owner and inputs |
| Brc20Txs.GetOutpoint | src/brc20_index/brc20_tx.rs:49-54 | the outpoint is (txid, vout) |
| Brc20Txs.NewInvalidTxMap | src/brc20_index/invalid_brc20.rs:40-44 | a new map holds no record |
| Brc20Txs.AddInvalidTx | src/brc20_index/brc20_tx.rs:138-141 | the record is found under its txid, other keys keep theirs, and the map grows only for a new txid |
| Brc20Txs.AddInvalidTxLastWriteWins | src/brc20_index/invalid_brc20.rs:62-65 | a second record under the same txid replaces the first |
| Assoc.Get | src/brc20_index/user_balance.rs:39-41 | a lookup finds the key's entry, None iff no entry has the key |
| Assoc.Put | src/brc20_index/user_balance.rs:32-37 | an insert under a new key adds the entry after all existing ones |
| Assoc.PutGet | src/brc20_index/user_balance.rs:32-37 | after an insert the key maps to the new value and all others as before |
| Assoc.PutKeys | src/brc20_index/user_balance.rs:32-37 | an insert adds exactly its key and keeps keys unique |
| Assoc.Remove | src/brc20_index/user_balance.rs:43-45 | removing a key that is not present changes nothing |
| Assoc.RemoveGet | src/brc20_index/user_balance.rs:43-45 | after a removal the key is absent and all others map as before |
| Assoc.RemoveKeys | src/brc20_index/user_balance.rs:43-45 | a removal takes exactly its key out and keeps keys unique |
| Assoc.SumValuesPut | src/brc20_index/user_balance.rs:25-37 | an insert adds the new value's amount and takes away the replaced one's |
| Assoc.SumValuesRemove | src/brc20_index/user_balance.rs:25-45 | a removal takes away the removed value's amount |
| Assoc.SumValuesNonNegative | src/brc20_index/user_balance.rs:25-30 | a sum of non-negative values is non-negative |
| TransferTxs.AmountOrZero | src/brc20_index/transfer.rs:33-38 | the parsed `amt`, or 0 when it is missing or unparseable |
| TransferTxs.NewTransferTx | src/brc20_index/transfer.rs:32-47 | the transfer starts with that amount, invalid, unspent and without receiver |
| TransferTxs.SetTransferTx | src/brc20_index/transfer.rs:64-67 | records the spending transaction and changes nothing else |
| TransferTxs.SetValidity | src/brc20_index/transfer.rs:133-136 | changes the validity flag only |
| TransferTxs.SetReceiver | src/brc20_index/transfer.rs:143-146 | records the receiver only |
| TransferTxs.GetInscriptionOutpoint | src/brc20_index/transfer.rs:70-72 | the outpoint of the inscribing transaction |
| TransferTxs.SettersKeepOutpoint | src/brc20_index/transfer.rs:64-146 | no setter moves the outpoint a transfer is keyed by |
| UserBalances.Transferable | src/brc20_index/user_balance.rs:25-30 | the locked amounts: 0 with no active inscription, and non-negative when every locked amount is |
| UserBalances.TotalFromMints | src/brc20_index/user_balance.rs:61-64 | 0 with no mints, one more mint adds exactly its amount, and it is the overall balance of an address that neither sent nor received |
| UserBalances.Overall | src/brc20_index/user_balance.rs:66-69 | received plus minted, less sent; only mints count when nothing was sent or received |
| UserBalances.Available | src/brc20_index/user_balance.rs:72-74 | overall less transferable; the whole overall balance when nothing is locked |
| UserBalances.InscribeKeepsAvailableNonNegative | src/brc20_index/user_balance.rs:32-37 | locking at a fresh outpoint leaves available non-negative iff the amount was at most what was available, and keeps available plus transferable |
| UserBalances.NewUserBalance | src/brc20_index/user_balance.rs:16-23 | a new balance is empty and every balance of it is 0 |
| UserBalances.AddTransferInscription | src/brc20_index/user_balance.rs:32-37 | overall unchanged; a fresh outpoint moves the amount from available to transferable; an existing one is replaced |
| UserBalances.IsActiveInscription | src/brc20_index/user_balance.rs:39-41 | true iff an inscription is held at the outpoint |
| UserBalances.RemoveInscription | src/brc20_index/user_balance.rs:43-45 | returns the entry held, after which none is; absent means nothing changes; transferable drops by the amount |
| UserBalances.AddMintTx | src/brc20_index/user_balance.rs:47-49 | raises overall and available by the minted amount, leaves transferable |
| UserBalances.AddTransferSend | src/brc20_index/user_balance.rs:100-102 | lowers overall by the amount |
| UserBalances.AddTransferReceive | src/brc20_index/user_balance.rs:104-106 | raises overall by the amount |
| UserBalances.InscribeThenSpend | src/brc20_index/user_balance.rs:32-106 | inscribing then spending a transfer lowers overall by its amount and restores transferable |
| Deploys.NewDeploy | src/brc20_index/deploy.rs:19-29 | a new deploy has max 0, limit 0, decimals 18 and is invalid |
| Deploys.ValidateTickerSymbol | src/brc20_index/deploy.rs:105-117 | rejected iff the lower-cased symbol is taken or the tick is not 4 characters, with the matching reason |
| Deploys.ValidateDecimalsField | src/brc20_index/deploy.rs:119-134 | absent `dec` keeps 18; present must parse as `u8` and be at most 18, and is then stored |
| Deploys.ValidateMaxField | src/brc20_index/deploy.rs:136-150 | missing is an error; Ok iff the value converts and is positive |
| Deploys.ValidateLimitField | src/brc20_index/deploy.rs:152-166 | absent means max; present must convert and be at most max |
| Deploys.ReasonOf | src/brc20_index/deploy.rs:68-94 | a failed check contributes exactly its message |
| Deploys.ValidateDeployScript | src/brc20_index/deploy.rs:61-103 | valid iff no check gave a reason; all four run; a failed max leaves 0 behind; an invalid deploy records the reasons joined by "; " |
| Deploys.ValidDeployBounds | src/brc20_index/deploy.rs:61-103 | a valid deploy has a positive max, a limit at most the max, at most 18 decimals, a max written within those decimals, a 4-character tick and a lower-cased symbol not yet deployed |
| Deploys.FailedMaxLeavesZero | src/brc20_index/deploy.rs:80-89 | a failed max check leaves max 0 and checks the limit against 0 |
| Deploys.AbsentDecimalsKeepDefault | src/brc20_index/deploy.rs:119-121 | without `dec` the decimals stay 18 |
| Deploys.InvalidDeployRecordsEveryReason | src/brc20_index/deploy.rs:96-100 | an invalid deploy's record holds every reason |
| Tickers.NewTicker | src/brc20_index/brc20_ticker.rs:24-41 | copies tick, limit, max and decimals; minted 0, no mints, transfers or balances |
| Tickers.GetTicker | src/brc20_index/brc20_ticker.rs:154-156 | the tick with upper-case ASCII letters lowered, nothing else changed |
| Tickers.GetTickerIgnoresCase | src/brc20_index/brc20_ticker.rs:154-156 | ticks that differ only in case give the same key, which is already lower case |
| Tickers.GetTotalMintedFromMintTxs | src/brc20_index/brc20_ticker.rs:142-144 | the sum of the mint amounts: 0 with no mint, and one more mint adds its amount |
| Tickers.HasActiveTransferInscription | src/brc20_index/brc20_ticker.rs:43-49 | true iff some balance holds the outpoint |
| Tickers.FirstHolder | src/brc20_index/brc20_ticker.rs:56-58 | the first balance, in iteration order, holding the outpoint |
| Tickers.GetAndRemoveActiveTransferInscription | src/brc20_index/brc20_ticker.rs:52-59 | None iff nobody holds the outpoint; otherwise the holder's entry is removed and returned |
| Tickers.UpdateTransferSends | src/brc20_index/brc20_ticker.rs:61-79 | the sender's balance (fresh if absent) records the send; others untouched |
| Tickers.UpdateTransferReceives | src/brc20_index/brc20_ticker.rs:81-99 | the receiver's balance (fresh if absent) records the receive; others untouched |
| Tickers.AddMint | src/brc20_index/brc20_ticker.rs:101-122 | appends the mint to the ticker and the owner's balance; `total_minted` unchanged; the mint-list sum grows by the amount |
| Tickers.AddMintKeepsLedger | src/brc20_index/brc20_ticker.rs:101-122 | after a mint, overall balances still sum to the mint total |
| Tickers.TransferKeepsLedger | src/brc20_index.rs:155-163 | a receive followed by the matching send keeps the sum |
| Tickers.RemoveKeepsLedger | src/brc20_index/brc20_ticker.rs:52-59 | removing an active inscription keeps the sum |
| Transfers.InscribeUnder | src/brc20_index/transfer.rs:86-126 | unknown ticker: "Ticker not found"; no balance for the owner: "User balance not found"; available below the amount: recorded invalid with nothing else changed; otherwise valid and stored under its outpoint in the owner's balance, other tickers untouched |
| Transfers.HandleInscribeTransferAmountAsWritten | src/brc20_index/transfer.rs:92-94 | as written: the ticker is looked up by the tick verbatim; an absent verbatim tick is "Ticker not found" |
| Transfers.HandleInscribeTransferAmount | src/brc20_index/transfer.rs:86-126 | corrected: looked up by the lower-cased tick; an absent one is "Ticker not found"; acceptance needs the ticker; no ticker is added or removed |
| Transfers.UpperCaseTickRejectedAsWritten | src/brc20_index/transfer.rs:92-94 | a transfer of "ORDI" against ticker "ordi" is rejected as written and accepted by the corrected lookup |
| Transfers.AcceptedTransferLocksAmount | src/brc20_index/transfer.rs:103-110 | an accepted transfer at a fresh outpoint moves its amount from available to transferable |
| Store.UpdateReceiverBalance | src/brc20_index/mongo.rs:313-379 | an existing doc gains the amount in overall and available; otherwise a doc (amt, 0, amt) is created; consistency kept |
| Store.UpdateSenderBalance | src/brc20_index/mongo.rs:59-111 | overall and transferable lose the amount; no doc means no change |
| Store.UpdateTransferInscriberBalance | src/brc20_index/mongo.rs:113-152 | the amount moves from available to transferable, overall kept; no doc means no change |
| Store.UpdateTickerTotalMinted | src/brc20_index/mongo.rs:246-284 | the ticker's total grows by the amount; unknown ticker means no change |
| Store.UpdateTickerTotalMintedKeepsKeyed | src/brc20_index/mongo.rs:246-284 | adding to a total keeps every ticker document filed under its own tick |
| Store.InsertUserBalanceEntry | src/brc20_index/mongo.rs:286-311 | appends exactly one entry |
| Store.StoreCompletedBlock | src/brc20_index/mongo.rs:381-396 | appends the height |
| Store.GetLastCompletedBlockHeight | src/brc20_index/mongo.rs:398-424 | None iff no block is stored, otherwise the maximum stored height |
| Store.DeleteFromCollection | src/brc20_index/mongo.rs:426-442 | what is kept lies below the start height and came from the input; every document below it is kept |
| Store.DeleteFromCollectionCounts | src/brc20_index/mongo.rs:426-442 | each document below the start height is kept as many times as it occurs, and every other one is dropped |
| Store.DeleteFromCollectionAppend | src/brc20_index/mongo.rs:426-442 | deletion works document by document in order: the kept part of a concatenation is the kept parts one after the other |
| Store.DeleteFromCollectionSingle | src/brc20_index/mongo.rs:434-437 | one document is kept iff its height is below the start height |
| Store.DeleteFromCollectionIdempotent | src/brc20_index/mongo.rs:426-442 | deleting from a later height after an earlier one changes nothing |
| Store.ResetTickersTotalMinted | src/brc20_index/mongo.rs:456-470 | every ticker's total becomes 0; every ticker document stays filed under its own tick |
| Store.CalculateAndUpdateTotalMinted | src/brc20_index/mongo.rs:472-508 | every ticker's total becomes the sum of the mints with exactly its tick; when every document is filed under its own tick, that is the sum for its key |
| Store.MintedForAppend | src/brc20_index/mongo.rs:485-500 | one more mint adds its amount to its own tick's sum only |
| Store.ApplyEntry | src/brc20_index/mongo.rs:539-550 | receive, send and inscription entries move available, transferable and overall as the fold does, keeping them consistent |
| Store.RebuildConsistent | src/brc20_index/mongo.rs:530-551 | every rebuilt doc is consistent |
| Store.RebuildUserBalances | src/brc20_index/mongo.rs:510-579 | the loop yields the fold; a key has a doc iff some entry has it |
| Store.ReceiveAgreesWithRebuild | src/brc20_index/mongo.rs:313-379 | a receive update plus its entry keeps the docs equal to the rebuild |
| Store.SendAgreesWithRebuild | src/brc20_index/mongo.rs:59-111 | the same for a send |
| Store.InscriptionAgreesWithRebuild | src/brc20_index/mongo.rs:113-152 | the same for a transfer inscription |
| Mints.NewMint | src/brc20_index/mint.rs:40-56 | a new mint has amount 0 and is invalid |
| Mints.RequestedAmount | src/brc20_index/mint.rs:97-100 | missing `amt` is 0, otherwise the converted amount |
| Mints.MintVerdict | src/brc20_index/mint.rs:66-128 | unknown ticker refused; accepted iff the amount converts, is within the limit and the total is below max, and then the amount is the request clamped to the rest of the supply; a refusal carries the conversion error, the limit or the max-supply reason |
| Mints.ValidateMint | src/brc20_index/mint.rs:66-151 | sets validity and amount from the verdict; a refusal is recorded invalid |
| Mints.ToMintDoc | src/brc20_index/mint.rs:24-37 | the stored mint keeps its recipient, validity, txid and height |
| Mints.StoredMintCountsForItsTick | src/brc20_index/mint.rs:24-37 | recalculating totals over the stored mints counts a stored mint's amount for its own tick and for no other |
| Mints.ValidateAndInsertMint | src/brc20_index/mint.rs:154-178 | valid iff accepted; a valid mint is stored with the clamped amount; every other field is the new mint's |
| Mints.UpdateBalancesAndTicker | src/brc20_index/mint.rs:180-215 | a valid mint logs a receive entry, credits the receiver and raises the ticker total; invalid changes nothing |
| Mints.HandleMintOperation | src/brc20_index/mint.rs:217-249 | returns whether the mint was valid; an invalid one only records an invalid entry; a valid one is stored, logged as a receive, credited to the owner's balance document and added to the ticker's total |
| Mints.CreditKeepsSynced | src/brc20_index/mint.rs:180-215 | crediting a mint keeps docs equal to the rebuild and consistent |
| Mints.CreditWithinSupply | src/brc20_index/mint.rs:103-120 | a credit within the remaining supply keeps every total at or below max |
| Mints.HandleMintKeepsSound | src/brc20_index/mint.rs:217-249 | handling a mint keeps the store synced, consistent and within supply |
| Mints.HandleMintKeepsTickersKeyed | src/brc20_index/mint.rs:217-249 | handling a mint keeps every ticker document filed under its own tick |
| Mints.LowerCaseMintKeepsTotals | src/brc20_index/mongo.rs:472-508 | with a lower-case tick, the stored totals stay what recalculation gives |
| Mints.UpperCaseMintMissedByRecalculation | src/brc20_index/mongo.rs:485-500 | an upper-case mint is credited to the lower-case ticker but recalculation does not count it |
| Mints.NegativeMintAccepted | src/brc20_index/mint.rs:97-120 | the amount "-5" is accepted as a mint of -5 |
| Vouts.ValueBeforeMonotone | src/brc20_index.rs:134-141 | the running value sum never decreases |
| Vouts.FirstReaching | src/brc20_index.rs:134-143 | the first output whose running sum reaches the target |
| Vouts.ProperVoutAsWritten | src/brc20_index.rs:127-146 | input 0 gives 0; otherwise the first running sum ≥ the preceding value, else the last output |
| Vouts.ProperVout | src/brc20_index.rs:127-146 | corrected: the output whose value range covers the preceding value, else the last; errors iff no outputs |
| Vouts.ProperVoutIsTheCoveringOutput | src/brc20_index.rs:127-146 | the chosen output is i iff i's range covers the preceding value |
| Vouts.AsWrittenAgreesOffBoundaries | src/brc20_index.rs:134-143 | the two rules agree when no running sum equals the preceding value |
| Vouts.AsWrittenMissesTheCoveringOutput | src/brc20_index.rs:127-146 | inputs on a boundary or a zero-value first output pick the wrong output |
| Vouts.FirstInputKeepsOutputZero | src/brc20_index.rs:127-128 | for input 0 with a non-empty first output, both rules give 0 |
| Indexer.NewIndex | src/brc20_index.rs:71-77 | no tickers, invalid records or active transfers |
| Indexer.GetActiveTransferInscriptionTicker | src/brc20_index.rs:177-179 | the registered tick, None iff not registered |
| Indexer.UpdateActiveTransferInscription | src/brc20_index.rs:182-184 | registers the tick for the outpoint only |
| Indexer.RemoveActiveTransferBalance | src/brc20_index.rs:172-174 | unregisters the outpoint only |
| Indexer.RemoveUndoesUpdate | src/brc20_index.rs:172-184 | registering then unregisters a fresh outpoint restores the index |
| Indexer.GetTickerMut | src/brc20_index.rs:187-189 | the ticker stored under the name, None iff absent |
| Indexer.GetOwnerOfVout | src/brc20_index.rs:437-463 | errors for no outputs, an index past the end, or no address; otherwise the output's address |
| Indexer.GetOwnerOfVout0 | src/brc20_index.rs:416-435 | the owner of output 0 |
| Indexer.PrecedingValue | src/brc20_index.rs:127-133 | input 0 needs no lookup; otherwise fails iff the input-value lookup does, and is the sum of the values of the inputs before it |
| Indexer.VoutFor | src/brc20_index.rs:127-146 | as written, input 0 gives output 0 and a later input the `>=` rule; corrected, the covering output; fails iff the value lookup fails or a rule needs an output and there is none |
| Indexer.VoutRulesAgreeOffBoundaries | src/brc20_index.rs:127-146 | for every input but the first, both settings pick the same output unless the preceding value ends on an output boundary |
| Indexer.Settle | src/brc20_index.rs:155-163 | credits the receiver and debits the inscriber by the amount; when the receiver is the inscriber (a transfer sent back to its owner) the receive and the send cancel, so that balance exists and its overall is unchanged; every other balance is untouched |
| Indexer.SettleEffect | src/brc20_index.rs:155-163 | a receive followed by a send: other addresses are untouched; distinct receiver and inscriber gain and lose the amount; a self-send leaves the overall balance unchanged |
| Indexer.SettleKeepsLedger | src/brc20_index.rs:155-163 | settling keeps the ticker's ledger balanced |
| Indexer.Spent | src/brc20_index.rs:150-153 | sets receiver and spending transaction, keeping the amount and outpoint |
| Indexer.CompleteSpend | src/brc20_index.rs:127-165 | fails iff the vout or owner lookup does; otherwise settles the transfer in its ticker and unregisters the outpoint |
| Indexer.SpendInput | src/brc20_index.rs:86-166 | an untracked outpoint, unknown ticker or unheld inscription is skipped unchanged |
| Indexer.SpendInputsFrom | src/brc20_index.rs:86-166 | keeps invalid records and ticker keys; unspent registrations stay |
| Indexer.ProcessActiveTransfer | src/brc20_index.rs:79-169 | an undecodable transaction fails; otherwise only spent registrations go |
| Indexer.ApplyDeploy | src/brc20_index.rs:235-257 | a valid deploy adds a ticker under its fresh lower-cased symbol, never replacing one |
| Indexer.ApplyTransfer | src/brc20_index.rs:282-298 | checks the amount and registers the outpoint, valid or not; as written both use the tick verbatim, corrected the lower-cased tick |
| Indexer.AsU32 | src/brc20_index.rs:232 | the height cast to `u32` |
| Indexer.ProcessInscription | src/brc20_index.rs:226-320 | fails iff the owner or block time is missing; dispatches deploy, mint and transfer; ignores other ops |
| Indexer.ProcessWitness | src/brc20_index.rs:219-325 | an inscription is processed, anything else may spend a transfer |
| Indexer.ProcessWitnessesFrom | src/brc20_index.rs:219-325 | the witness items in order: a failing item ends the walk with its error, otherwise the next item runs on its result |
| Indexer.ProcessTx | src/brc20_index.rs:212-326 | an undecodable transaction fails; no inputs means no change |
| Indexer.ProcessBlockFrom | src/brc20_index.rs:212-327 | transactions run in order: a failed fetch or a failed `ProcessTx` ends the block with that error (the source's `?`); otherwise the next transaction runs on the updated index |
| Indexer.NewTickerBalanced | src/brc20_index/brc20_ticker.rs:24-41 | a new ticker's (empty) balances sum to its (empty) mints |
| Indexer.InscribeKeepsBalanced | src/brc20_index/transfer.rs:86-126 | inscribing a transfer keeps every ticker balanced |
| Indexer.SpendInputKeepsBalanced | src/brc20_index.rs:86-166 | spending a transfer keeps every ticker balanced, under either rule |
| Indexer.CompleteSpendKeepsBalanced | src/brc20_index.rs:148-165 | settling a taken inscription keeps every ticker balanced, whichever output receives it |
| Indexer.SpendInputsFromKeepsBalanced | src/brc20_index.rs:86-166 | all the inputs of a transaction keep every ticker balanced |
| Indexer.ApplyDeployKeepsBalanced | src/brc20_index.rs:235-257 | a deploy keeps every ticker balanced |
| Indexer.ProcessInscriptionKeepsBalanced | src/brc20_index.rs:226-320 | each inscription keeps every ticker balanced, given a balancing mint rule |
| Indexer.ProcessWitnessKeepsBalanced | src/brc20_index.rs:219-325 | each witness item keeps every ticker balanced |
| Indexer.ProcessWitnessesFromKeepsBalanced | src/brc20_index.rs:219-325 | all witness items of a transaction keep every ticker balanced |
| Indexer.ProcessBlockFromKeepsBalanced | src/brc20_index.rs:212-327 | each block keeps every ticker balanced |
| Scanner.Walk | src/brc20_index.rs:199-348 | uses at most as many rounds as attempts, at least one when there is any |
| Scanner.ScanBlocks | src/brc20_index.rs:199-348 | the loop ends exactly as the recursive walk does |
| Scanner.WalkHeight | src/brc20_index.rs:199-348 | the height rises by one per fetched block and not for failed rounds |
| Scanner.WalkStopsAfterLastBlock | src/brc20_index.rs:345-347 | from at most 800000, the walk never passes 800001 and stops there when rounds remain |
| Scanner.WalkBeyondLastBlockRunsOnce | src/brc20_index.rs:345-347 | started past 800000, one round still runs |
| Scanner.IndexWalkKeepsBalanced | src/brc20_index.rs:192-355 | every ticker stays balanced across the walk |
| Scanner.IndexBrc20 | src/brc20_index.rs:192-355 | walks from an empty index, ending balanced and at most at 800001 |
| Scanner.FoundValues | src/main.rs:60-66 | collects only brc-20 values, at most one per witness item |
| Scanner.FoundValuesCovers | src/main.rs:60-66 | every brc-20 value carried by a witness item is collected |
| Scanner.LogBlockFrom | src/main.rs:57-67 | appends only brc-20 values to what was found before |
| Scanner.LogWalkOnlyBrc20 | src/main.rs:40-90 | every value collected by the walk is a brc-20 value |
| Scanner.IterateTransactions | src/main.rs:40-90 | the loop equals the walk and collects only brc-20 values |
| Scanner.RunFromStart | src/main.rs:127-148 | the scan starts at 779832 and ends at most at 800001 |

## Left out

- Floating point: amounts are exact reals, so `f64` rounding, NaN and infinities are not modelled. `f64` parsing is a parameter.
- `decimal_places` (src/brc20_index/deploy.rs:170-177) formats a float as text. It is a parameter.
- JSON decoding (`serde_json`) is a parameter. So is the lossy UTF-8 decode.
- The node's RPC calls are inputs: block hash, block, raw transaction and `utils::transaction_inputs_to_values`. The last one is called at src/brc20_index.rs:132 but defined nowhere in the repository; src/brc20_index/utils.rs:72 holds only a commented-out `transaction_inputs_to_addresses_values`.
- The 60-second sleeps, logging, `println!`, `Display` impls, `write_tickers_to_file` and `dump_to_file` are I/O only.
- Address derivation from a script is opaque. Both of its failures in `get_owner_of_vout` become one "no address" error.
- The in-memory mint validation called at src/brc20_index.rs:262 (three arguments) matches no definition in the repository; src/brc20_index/mint.rs:66 defines only the Mongo-backed `validate_mint(mongo_client)`, modelled as `Mints.ValidateMint`. In `Indexer.ProcessInscription` the in-memory one is a parameter. `Indexer.MintKeepsBalanced` assumes it credits what it records.
- Mints.ToMintDoc: the stored mint keeps only the txid of its transaction, where `to_document` stores the whole transaction document, and it has no `created_at` field, because the model has no clock (src/brc20_index/mint.rs:31, 34).
- The Mongo plumbing is out of scope: client set-up, async, BSON type checks, `get_double` defaults, active-transfer (de)serialisation and drops.
- `rebuild_user_balances` re-inserts its documents without clearing them first. The model returns the rebuilt map only.
- Hash-map iteration order is unspecified in Rust. The model fixes it as association-list order.
- `to_lowercase` is modelled for ASCII letters only.
- Panics are modelled as errors where the model reaches them: the `try_into().unwrap()` on decimals, and the `output.len() - 1` underflow of the as-written proper vout on a transaction without outputs (src/brc20_index.rs:143). The latter becomes `Err(NoOutputs)`.
- Brc20Txs.NewBrc20Tx: requires a non-empty `vout`, so the unguarded `vout[0]` (src/brc20_index/brc20_tx.rs:28) is excluded rather than modelled. Its only caller has already found the owner of output 0, which fails without outputs.
- An error inside a block ends the whole run in the source, through `?`. In the model the partial state of that run is discarded.
- The `u64` sum of input values cannot overflow in the model.
- Version skew between files (constructor arities, two `InvalidBrc20Tx` definitions) is resolved to one record (txid, inscription, reason).
- Store.CalculateAndUpdateTotalMinted: matches mint ticks exactly, as the source does. An upper-case mint is missed by recalculation (`Mints.UpperCaseMintMissedByRecalculation`). This is kept as written.
- Mints.MintVerdict: negative amounts are accepted as the source accepts them (`Mints.NegativeMintAccepted`). No corrected rule is modelled.
- Store.SendAgreesWithRebuild: requires an existing document, because a send without one changes nothing in the source while its entry still enters the log.

## Findings

| source | as written | input that shows it | evidently intended | confidence | as-written member | corrected member |
|---|---|---|---|---|---|---|
| src/brc20_index.rs:127-146 | the receiving output is the first whose running value sum is `>=` the preceding inputs' value; input 0 always gives output 0 | outputs [1000, 500], preceding value 1000: picks output 0, but sat 1000 lies in output 1; outputs [0, 546] for input 0 picks the empty output 0 | the output whose value range covers the inscribed satoshi, i.e. first running sum `>` the preceding value | not executed | Vouts.ProperVoutAsWritten, Vouts.AsWrittenMissesTheCoveringOutput | Vouts.ProperVout, Vouts.ProperVoutIsTheCoveringOutput, Indexer.VoutFor |
| src/brc20_index/transfer.rs:92-94 | the transfer looks its ticker up by the tick verbatim, and the block loop registers the verbatim tick (src/brc20_index.rs:292-298), while tickers are keyed by the lower-cased symbol | a transfer of "ORDI" against ticker "ordi" with enough balance is rejected with "Ticker not found" | look up and register by the lower-cased tick, as deploy and mint do | not executed | Transfers.HandleInscribeTransferAmountAsWritten, Transfers.UpperCaseTickRejectedAsWritten | Transfers.HandleInscribeTransferAmount, Indexer.ApplyTransfer |

=== FILE: amounts.dfy ===
/**
  Amount strings of BRC-20 inscriptions (src/brc20_index/utils.rs) and the
  `u8` parse of the `dec` field (src/brc20_index/deploy.rs). Amounts are
  exact reals: the `f64` parse is foreign code and is passed in, so its
  rounding, exponent syntax, infinities and NaN stay outside the model.
 */
module Amounts {
  import opened Base
  import opened Text

  /**
    The two pieces of Rust's float handling the indexer uses:
    `str::parse::<f64>` and the number of digits after the point in a
    float's printed form (`decimal_places` in src/brc20_index/deploy.rs).
   */
  datatype NumberSyntax = NumberSyntax(parseF64: string -> Option<real>, decimalPlaces: real -> nat)

  const MalformedInscription: string := "Malformed inscription"
  const TooManyDecimalDigits: string := "There are too many digits to the right of the decimal"

  /** The text after the first '.' of `s`. */
  function FractionPart(s: string): string
    requires '.' in s
  {
    s[FindChar(s, '.').value + 1..]
  }

  /** The fractional part is too long: its UTF-8 byte length exceeds `decimals`. */
  predicate FractionTooLong(s: string, decimals: nat) {
    Count(s, '.') == 1 && (CountZero(s, '.'); Utf8Len(FractionPart(s)) > decimals)
  }

  /**
    `convert_to_float`: at most one '.'; with one, the fractional part may
    not be longer (in bytes) than `decimals`; the whole string must then
    parse as a number. The length check comes before the parse.
   */
  function ConvertToFloat(s: string, decimals: nat, parseF64: string -> Option<real>): (r: Result<real>)
    ensures Count(s, '.') > 1 ==> r == Err(MalformedInscription)
    ensures FractionTooLong(s, decimals) ==> r == Err(TooManyDecimalDigits)
    ensures r.Ok? <==> Count(s, '.') <= 1 && !FractionTooLong(s, decimals) && parseF64(s).Some?
    ensures r.Ok? ==> parseF64(s) == Some(r.value)
    ensures r.Err? && r.error != TooManyDecimalDigits ==> r.error == MalformedInscription
  {
    var parts := Split(s, '.');
    if |parts| == 1 then
      match parseF64(s)
      case Some(v) => Ok(v)
      case None => Err(MalformedInscription)
    else if |parts| == 2 then
      CountZero(s, '.');
      SplitAtOnlySeparator(s, '.', FindChar(s, '.').value);
      if Utf8Len(parts[1]) > decimals then Err(TooManyDecimalDigits)
      else
        match parseF64(s)
        case Some(v) => Ok(v)
        case None => Err(MalformedInscription)
    else Err(MalformedInscription)
  }

  predicate IsDigit(c: char) {
    '0' <= c <= '9'
  }

  predicate AllDigits(s: string) {
    forall i :: 0 <= i < |s| ==> IsDigit(s[i])
  }

  /** The value of a string of decimal digits. */
  function DigitsValue(ds: string): nat
    requires AllDigits(ds)
    decreases |ds|
  {
    if |ds| == 0 then 0
    else DigitsValue(ds[..|ds| - 1]) * 10 + (ds[|ds| - 1] as int - '0' as int)
  }

  /** The digits `str::parse` reads: the text after one optional leading '+'. */
  function UnsignedDigits(s: string): string {
    if |s| > 0 && s[0] == '+' then s[1..] else s
  }

  /**
    `str::parse::<u8>`: an optional leading '+', then one or more decimal
    digits whose value is at most 255. A '-' sign, an empty digit string,
    any other character and overflow are errors.
   */
  function ParseU8(s: string): (r: Option<nat>)
    ensures r.Some? ==> r.value <= 255 && |s| > 0
    ensures r.Some? ==> AllDigits(UnsignedDigits(s)) && r.value == DigitsValue(UnsignedDigits(s))
    ensures (exists i :: 0 <= i < |UnsignedDigits(s)| && !IsDigit(UnsignedDigits(s)[i])) ==> r.None?
    ensures r.Some? <==>
      |UnsignedDigits(s)| > 0 && AllDigits(UnsignedDigits(s)) && DigitsValue(UnsignedDigits(s)) <= 255
  {
    var ds := UnsignedDigits(s);
    if |ds| == 0 || !AllDigits(ds) then None
    else if DigitsValue(ds) > 255 then None
    else Some(DigitsValue(ds))
  }

  /** The decimal text of `n`, without sign or leading zeros. */
  function NatToDecimal(n: nat): (s: string)
    ensures |s| > 0 && AllDigits(s)
    decreases n
  {
    var d := [('0' as int + n % 10) as char];
    if n < 10 then d else NatToDecimal(n / 10) + d
  }

  lemma {:induction false} DigitsValueOfDecimal(n: nat)
    ensures DigitsValue(NatToDecimal(n)) == n
    decreases n
  {
    var s := NatToDecimal(n);
    if n >= 10 {
      DigitsValueOfDecimal(n / 10);
      assert s[..|s| - 1] == NatToDecimal(n / 10);
    }
  }

  /** Every `u8` written in decimal, with or without a leading '+', parses back to itself. */
  lemma ParseU8OfDecimal(n: nat)
    requires n <= 255
    ensures ParseU8(NatToDecimal(n)) == Some(n)
    ensures ParseU8("+" + NatToDecimal(n)) == Some(n)
  {
    DigitsValueOfDecimal(n);
    assert UnsignedDigits("+" + NatToDecimal(n)) == NatToDecimal(n);
  }

  /** A leading zero does not change the value of a digit string. */
  lemma {:induction false} DigitsValueLeadingZero(ds: string)
    requires AllDigits(ds)
    ensures AllDigits("0" + ds) && DigitsValue("0" + ds) == DigitsValue(ds)
    decreases |ds|
  {
    if |ds| > 0 {
      var init := ds[..|ds| - 1];
      DigitsValueLeadingZero(init);
      assert ("0" + ds)[..|"0" + ds| - 1] == "0" + init;
    }
  }

  /** Leading zeros are accepted and ignored: "007" reads as 7, and "0256" still overflows. */
  lemma ParseU8LeadingZero(ds: string)
    requires |ds| > 0 && AllDigits(ds)
    ensures ParseU8("0" + ds) == ParseU8(ds)
  {
    DigitsValueLeadingZero(ds);
  }

  /** Values above 255 overflow and are rejected. */
  lemma ParseU8Overflow(n: nat)
    requires n > 255
    ensures ParseU8(NatToDecimal(n)) == None
  {
    DigitsValueOfDecimal(n);
  }
}

=== FILE: assoc.dfy ===
/**
  Hash maps whose iteration order the indexer observes (summing a
  balance's transfer inscriptions, searching a ticker's balances for an
  outpoint). They are association lists with unique keys; the list order
  stands for the map's iteration order, which Rust leaves unspecified.
 */
module Assoc {
  import opened Base

  type Entries<K, V> = seq<(K, V)>

  ghost predicate HasKey<K, V>(e: Entries<K, V>, k: K) {
    exists i :: 0 <= i < |e| && e[i].0 == k
  }

  /** Every key occurs at most once, as in a hash map. */
  ghost predicate UniqueKeys<K, V>(e: Entries<K, V>) {
    forall i, j :: 0 <= i < j < |e| ==> e[i].0 != e[j].0
  }

  /** `HashMap::get`. */
  function Get<K(==), V>(e: Entries<K, V>, k: K): (r: Option<V>)
    ensures r.None? <==> !HasKey(e, k)
    ensures r.Some? ==> exists i :: 0 <= i < |e| && e[i] == (k, r.value)
    ensures UniqueKeys(e) ==> forall i :: 0 <= i < |e| && e[i].0 == k ==> r == Some(e[i].1)
    decreases |e|
  {
    if |e| == 0 then None
    else if e[0].0 == k then Some(e[0].1)
    else
      var r := Get(e[1..], k);
      assert forall i :: 0 < i < |e| ==> e[i] == e[1..][i - 1];
      r
  }

  /** Prepending an entry whose key is absent keeps the keys unique. */
  lemma ConsUnique<K, V>(x: (K, V), s: Entries<K, V>)
    ensures UniqueKeys(s) && !HasKey(s, x.0) ==> UniqueKeys([x] + s)
  {
    var r := [x] + s;
    forall i, j | 0 <= i < j < |r| && UniqueKeys(s) && !HasKey(s, x.0) ensures r[i].0 != r[j].0 {
      if i > 0 {
        assert r[i] == s[i - 1] && r[j] == s[j - 1];
      } else {
        assert r[j] == s[j - 1];
      }
    }
  }

  lemma HasKeyCons<K, V>(x: (K, V), s: Entries<K, V>, k: K)
    ensures HasKey([x] + s, k) <==> x.0 == k || HasKey(s, k)
  {
    var r := [x] + s;
    if HasKey(s, k) {
      var i :| 0 <= i < |s| && s[i].0 == k;
      assert r[i + 1] == s[i];
    }
    if HasKey(r, k) && x.0 != k {
      var i :| 0 <= i < |r| && r[i].0 == k;
      assert r[0] == x;
      assert i > 0 && s[i - 1] == r[i];
      assert HasKey(s, k);
    }
  }

  lemma GetCons<K, V>(x: (K, V), s: Entries<K, V>, k: K)
    ensures Get([x] + s, k) == if x.0 == k then Some(x.1) else Get(s, k)
  {
    assert ([x] + s)[1..] == s;
  }

  /** `HashMap::insert`: replaces the value of an existing key in place, otherwise appends. */
  function Put<K(==), V>(e: Entries<K, V>, k: K, v: V): (r: Entries<K, V>)
    ensures !HasKey(e, k) ==> r == e + [(k, v)]
    decreases |e|
  {
    if |e| == 0 then [(k, v)]
    else if e[0].0 == k then [(k, v)] + e[1..]
    else
      assert e == [e[0]] + e[1..];
      HasKeyCons(e[0], e[1..], k);
      [e[0]] + Put(e[1..], k, v)
  }

  /** After `Put`, the key maps to the new value and every other key to what it mapped to before. */
  lemma {:induction false} PutGet<K, V>(e: Entries<K, V>, k: K, v: V, k': K)
    ensures Get(Put(e, k, v), k') == if k' == k then Some(v) else Get(e, k')
    decreases |e|
  {
    if |e| == 0 {
    } else if e[0].0 == k {
      GetCons((k, v), e[1..], k');
      GetCons(e[0], e[1..], k');
      assert e == [e[0]] + e[1..];
    } else {
      PutGet(e[1..], k, v, k');
      GetCons(e[0], Put(e[1..], k, v), k');
      GetCons(e[0], e[1..], k');
      assert e == [e[0]] + e[1..];
    }
  }

  lemma PutGetAll<K, V>(e: Entries<K, V>, k: K, v: V)
    ensures Get(Put(e, k, v), k) == Some(v)
    ensures forall k' :: k' != k ==> Get(Put(e, k, v), k') == Get(e, k')
  {
    PutGet(e, k, v, k);
    forall k' | k' != k ensures Get(Put(e, k, v), k') == Get(e, k') {
      PutGet(e, k, v, k');
    }
  }

  /** `Put` adds exactly its key to the key set and keeps keys unique. */
  lemma {:induction false} PutKeys<K, V>(e: Entries<K, V>, k: K, v: V)
    ensures forall k' :: HasKey(Put(e, k, v), k') <==> HasKey(e, k') || k' == k
    ensures UniqueKeys(e) ==> UniqueKeys(Put(e, k, v))
    decreases |e|
  {
    assert e == [] || e == [e[0]] + e[1..];
    if |e| == 0 {
      assert forall k' :: HasKey([(k, v)], k') <==> k' == k by {
        forall k' ensures HasKey([(k, v)], k') <==> k' == k { HasKeyCons((k, v), [], k'); }
      }
    } else if e[0].0 == k {
      forall k' ensures HasKey(Put(e, k, v), k') <==> HasKey(e, k') || k' == k {
        HasKeyCons((k, v), e[1..], k');
        HasKeyCons(e[0], e[1..], k');
      }
      ConsUnique((k, v), e[1..]);
      assert UniqueKeys(e) ==> UniqueKeys(e[1..]) && !HasKey(e[1..], k) by {
        forall k' ensures HasKey(e, k') <==> e[0].0 == k' || HasKey(e[1..], k') { HasKeyCons(e[0], e[1..], k'); }
      }
    } else {
      var rest := Put(e[1..], k, v);
      PutKeys(e[1..], k, v);
      forall k' ensures HasKey(Put(e, k, v), k') <==> HasKey(e, k') || k' == k {
        HasKeyCons(e[0], rest, k');
        HasKeyCons(e[0], e[1..], k');
      }
      if UniqueKeys(e) {
        assert UniqueKeys(e[1..]);
        HasKeyCons(e[0], rest, e[0].0);
        ConsUnique(e[0], rest);
      }
    }
  }

  /** `HashMap::remove`: drops the entry of `k`. */
  function Remove<K(==), V>(e: Entries<K, V>, k: K): (r: Entries<K, V>)
    ensures !HasKey(e, k) ==> r == e
    decreases |e|
  {
    if |e| == 0 then e
    else
      assert e == [e[0]] + e[1..];
      HasKeyCons(e[0], e[1..], k);
      var rest := Remove(e[1..], k);
      if e[0].0 == k then rest else [e[0]] + rest
  }

  /** After `Remove`, the key is absent and every other key maps to what it mapped to before. */
  lemma {:induction false} RemoveGet<K, V>(e: Entries<K, V>, k: K, k': K)
    ensures Get(Remove(e, k), k') == if k' == k then None else Get(e, k')
    decreases |e|
  {
    if |e| > 0 {
      RemoveGet(e[1..], k, k');
      GetCons(e[0], e[1..], k');
      assert e == [e[0]] + e[1..];
      if e[0].0 != k {
        GetCons(e[0], Remove(e[1..], k), k');
      }
    }
  }

  lemma RemoveGetAll<K, V>(e: Entries<K, V>, k: K)
    ensures Get(Remove(e, k), k) == None
    ensures forall k' :: k' != k ==> Get(Remove(e, k), k') == Get(e, k')
  {
    RemoveGet(e, k, k);
    forall k' | k' != k ensures Get(Remove(e, k), k') == Get(e, k') {
      RemoveGet(e, k, k');
    }
  }

  /** `Remove` takes exactly its key out of the key set and keeps keys unique. */
  lemma {:induction false} RemoveKeys<K, V>(e: Entries<K, V>, k: K)
    ensures forall k' :: HasKey(Remove(e, k), k') <==> HasKey(e, k') && k' != k
    ensures UniqueKeys(e) ==> UniqueKeys(Remove(e, k))
    decreases |e|
  {
    if |e| > 0 {
      var rest := Remove(e[1..], k);
      RemoveKeys(e[1..], k);
      assert e == [e[0]] + e[1..];
      forall k' ensures HasKey(e, k') <==> e[0].0 == k' || HasKey(e[1..], k') { HasKeyCons(e[0], e[1..], k'); }
      if e[0].0 != k {
        forall k' ensures HasKey(Remove(e, k), k') <==> e[0].0 == k' || HasKey(rest, k') { HasKeyCons(e[0], rest, k'); }
        if UniqueKeys(e) {
          ConsUnique(e[0], rest);
        }
      }
    }
  }

  /** The sum of `f` over the values. */
  function SumValues<K, V>(e: Entries<K, V>, f: V -> real): real
    decreases |e|
  {
    if |e| == 0 then 0.0 else f(e[0].1) + SumValues(e[1..], f)
  }

  /** A sum of non-negative values is non-negative. */
  lemma {:induction false} SumValuesNonNegative<K, V>(e: Entries<K, V>, f: V -> real)
    ensures (forall i :: 0 <= i < |e| ==> f(e[i].1) >= 0.0) ==> SumValues(e, f) >= 0.0
    decreases |e|
  {
    if |e| > 0 {
      assert forall i :: 0 <= i < |e| - 1 ==> e[1..][i] == e[i + 1];
      SumValuesNonNegative(e[1..], f);
    }
  }

  lemma {:induction false} SumValuesAppend<K, V>(e: Entries<K, V>, k: K, v: V, f: V -> real)
    ensures SumValues(e + [(k, v)], f) == SumValues(e, f) + f(v)
    decreases |e|
  {
    if |e| > 0 {
      assert (e + [(k, v)])[1..] == e[1..] + [(k, v)];
      SumValuesAppend(e[1..], k, v, f);
    }
  }

  /** Putting a value under a key adds its measure and takes away the measure of the value it replaces. */
  lemma {:induction false} SumValuesPut<K, V>(e: Entries<K, V>, k: K, v: V, f: V -> real)
    ensures UniqueKeys(e) ==>
      SumValues(Put(e, k, v), f) == SumValues(e, f) + f(v) - (match Get(e, k) case Some(prev) => f(prev) case None => 0.0)
    decreases |e|
  {
    if |e| == 0 || !UniqueKeys(e) {
    } else if e[0].0 == k {
    } else {
      assert UniqueKeys(e[1..]);
      assert Get(e, k) == Get(e[1..], k);
      SumValuesPut(e[1..], k, v, f);
    }
  }

  /** Removing a key takes away the measure of its value. */
  lemma {:induction false} SumValuesRemove<K, V>(e: Entries<K, V>, k: K, f: V -> real)
    ensures UniqueKeys(e) ==>
      SumValues(Remove(e, k), f) == SumValues(e, f) - (match Get(e, k) case Some(prev) => f(prev) case None => 0.0)
    decreases |e|
  {
    if |e| > 0 && UniqueKeys(e) {
      assert UniqueKeys(e[1..]);
      SumValuesRemove(e[1..], k, f);
      if e[0].0 == k {
        assert !HasKey(e[1..], k);
      } else {
        assert Get(e, k) == Get(e[1..], k);
      }
    }
  }
}

=== FILE: base.dfy ===
/** Failure-carrying wrappers shared by every module of the indexer model. */
module Base {

  /** Rust's `Option<T>`. */
  datatype Option<+T> = None | Some(value: T)

  /** Rust's `Result<T, E>` with the error rendered as its message text. */
  datatype Result<+T> = Ok(value: T) | Err(error: string)

  /** A byte, as it appears in witness items, transaction ids and hex strings. */
  type byte = x: int | 0 <= x < 256
}

=== FILE: brc20_tx.dfy ===
/**
  The record of a transaction carrying a BRC-20 inscription, and the map of
  rejected inscriptions (src/brc20_index/brc20_tx.rs and
  src/brc20_index/invalid_brc20.rs, which define the same invalid-record
  map twice; it is defined once here).
 */
module Brc20Txs {
  import opened Base
  import opened Chain
  import opened Witness

  /**
    A transaction holding an inscription. Its owner owns the first satoshi
    of output 0; `vout` is that output's index as the node reports it.
   */
  datatype Brc20Tx = Brc20Tx(
    txId: Txid,
    vout: nat,
    blocktime: nat,
    blockheight: nat,
    owner: Address,
    inputs: seq<TxIn>)

  const BlocktimeNotFound: string := "Blocktime not found in raw transaction result"

  /**
    `Brc20Tx::new`: fails when the node gave no block time; otherwise records
    the txid, the index of the first output, the block height, the owner and
    the inputs. The source reads `vout[0]` unguarded, so callers must pass a
    transaction with at least one output.
   */
  function NewBrc20Tx(raw: RawTxInfo, owner: Address, blockheight: nat): (r: Result<Brc20Tx>)
    requires |raw.vout| > 0
    ensures r.Err? <==> raw.blocktime.None?
    ensures r.Err? ==> r.error == BlocktimeNotFound
    ensures r.Ok? ==>
      && r.value.txId == raw.txid
      && r.value.vout == raw.vout[0].n
      && r.value.blocktime == raw.blocktime.value
      && r.value.blockheight == blockheight
      && r.value.owner == owner
      && r.value.inputs == raw.vin
  {
    match raw.blocktime
    case None => Err(BlocktimeNotFound)
    case Some(t) => Ok(Brc20Tx(raw.txid, raw.vout[0].n, t, blockheight, owner, raw.vin))
  }

  /** `get_outpoint`: the inscribed output, which is where the inscription can later be spent from. */
  function GetOutpoint(tx: Brc20Tx): (op: OutPoint)
    ensures op.txid == tx.txId && op.vout == tx.vout
  {
    OutPoint(tx.txId, tx.vout)
  }

  /** A rejected inscription with the reason for the rejection. */
  datatype InvalidTx = InvalidTx(txId: Txid, inscription: Inscription, reason: string)

  /** The rejected inscriptions, keyed by transaction id. */
  datatype InvalidTxMap = InvalidTxMap(entries: map<Txid, InvalidTx>)

  /** `InvalidBrc20TxMap::new`. */
  function NewInvalidTxMap(): (m: InvalidTxMap)
    ensures forall id :: id !in m.entries
  {
    InvalidTxMap(map[])
  }

  /**
    `add_invalid_tx`: keys the record by its txid. A later record for the
    same txid replaces the earlier one; every other key keeps its record.
   */
  function AddInvalidTx(m: InvalidTxMap, tx: InvalidTx): (r: InvalidTxMap)
    ensures tx.txId in r.entries && r.entries[tx.txId] == tx
    ensures forall id :: id != tx.txId ==> (id in r.entries <==> id in m.entries)
    ensures forall id :: id != tx.txId && id in m.entries ==> r.entries[id] == m.entries[id]
    ensures |r.entries| == if tx.txId in m.entries then |m.entries| else |m.entries| + 1
  {
    InvalidTxMap(m.entries[tx.txId := tx])
  }

  /** Adding two records with the same txid keeps only the second. */
  lemma AddInvalidTxLastWriteWins(m: InvalidTxMap, first: InvalidTx, second: InvalidTx)
    requires first.txId == second.txId
    ensures AddInvalidTx(AddInvalidTx(m, first), second) == AddInvalidTx(m, second)
  {
  }
}

=== FILE: chain.dfy ===
/**
  The Bitcoin data the indexer reads from the node: transaction ids,
  outpoints, decoded transactions and the node's `getrawtransaction`
  answer. Address derivation from output scripts is a foreign library and
  appears only as its result (`VoutInfo.address`).
 */
module Chain {
  import opened Base

  /** A Bitcoin address; derived from a script by library code this model does not include. */
  type Address = string

  /** A transaction id: 32 bytes in internal (hash) order. */
  type Txid = s: seq<byte> | |s| == 32 witness seq(32, _ => 0)

  /** A reference to output `vout` of transaction `txid`. */
  datatype OutPoint = OutPoint(txid: Txid, vout: nat)

  /** A transaction input: the output it spends and its witness stack. */
  datatype TxIn = TxIn(previousOutput: OutPoint, witnessItems: seq<seq<byte>>)

  /** A transaction output; `value` is in satoshis. */
  datatype TxOut = TxOut(value: nat)

  /** A decoded transaction. */
  datatype Transaction = Transaction(input: seq<TxIn>, output: seq<TxOut>)

  /** One entry of the node's `vout` array: its index `n` and the address its script decodes to, if any. */
  datatype VoutInfo = VoutInfo(n: nat, address: Option<Address>)

  /**
    The node's `getrawtransaction` answer. `transaction` is the result of
    decoding the raw hex (None when it does not decode); `blocktime` is
    absent for unconfirmed transactions.
   */
  datatype RawTxInfo = RawTxInfo(
    txid: Txid,
    transaction: Option<Transaction>,
    vin: seq<TxIn>,
    vout: seq<VoutInfo>,
    blocktime: Option<nat>)

  /** The error of a raw transaction whose hex does not decode. */
  const DecodeFailed: string := "Failed to decode transaction"

  predicate IsHexDigit(c: char) {
    '0' <= c <= '9' || 'a' <= c <= 'f' || 'A' <= c <= 'F'
  }

  function HexValue(c: char): (v: nat)
    requires IsHexDigit(c)
    ensures v < 16
  {
    if '0' <= c <= '9' then c as int - '0' as int
    else if 'a' <= c <= 'f' then c as int - 'a' as int + 10
    else c as int - 'A' as int + 10
  }

  /** The lower-case hex digit for `n`. */
  function HexChar(n: nat): (c: char)
    requires n < 16
    ensures IsHexDigit(c) && HexValue(c) == n
  {
    if n < 10 then ('0' as int + n) as char else ('a' as int + n - 10) as char
  }

  predicate IsHexText(s: string) {
    forall i :: 0 <= i < |s| ==> IsHexDigit(s[i])
  }

  function DecodeHex(s: string): (r: seq<byte>)
    requires |s| % 2 == 0 && IsHexText(s)
    ensures |r| == |s| / 2
    ensures forall i :: 0 <= i < |r| ==> r[i] == HexValue(s[2 * i]) * 16 + HexValue(s[2 * i + 1])
    decreases |s|
  {
    if |s| == 0 then []
    else
      assert IsHexText(s[2..]) by {
        forall i | 0 <= i < |s[2..]| ensures IsHexDigit(s[2..][i]) {
          assert s[2..][i] == s[i + 2];
        }
      }
      [HexValue(s[0]) * 16 + HexValue(s[1])] + DecodeHex(s[2..])
  }

  function EncodeHex(b: seq<byte>): (s: string)
    ensures |s| == 2 * |b| && IsHexText(s)
    ensures forall i :: 0 <= i < |b| ==> HexValue(s[2 * i]) * 16 + HexValue(s[2 * i + 1]) == b[i]
    decreases |b|
  {
    if |b| == 0 then ""
    else
      var rest := EncodeHex(b[1..]);
      var s := [HexChar(b[0] / 16), HexChar(b[0] % 16)] + rest;
      assert forall i :: 1 <= i < |b| ==> s[2 * i] == rest[2 * (i - 1)] && s[2 * i + 1] == rest[2 * (i - 1) + 1];
      s
  }

  function Reverse<T>(s: seq<T>): (r: seq<T>)
    ensures |r| == |s|
    ensures forall i :: 0 <= i < |s| ==> r[i] == s[|s| - 1 - i]
  {
    seq(|s|, i requires 0 <= i < |s| => s[|s| - 1 - i])
  }

  /**
    `Txid::from_str`: exactly 64 hex digits (either case), displayed in
    reverse byte order, as Bitcoin shows hashes.
   */
  function ParseTxid(s: string): (r: Option<Txid>)
    ensures r.Some? <==> |s| == 64 && IsHexText(s)
    ensures r.Some? ==> forall i :: 0 <= i < 32 ==>
      r.value[i] == HexValue(s[62 - 2 * i]) * 16 + HexValue(s[63 - 2 * i])
  {
    if |s| == 64 && IsHexText(s) then Some(Reverse(DecodeHex(s))) else None
  }

  /** `Txid::to_string`: 64 lower-case hex digits of the reversed bytes. */
  function FormatTxid(t: Txid): (s: string)
    ensures |s| == 64 && IsHexText(s)
  {
    EncodeHex(Reverse(t))
  }

  /** Formatting a txid and parsing the text back gives the same txid. */
  lemma ParseFormatTxid(t: Txid)
    ensures ParseTxid(FormatTxid(t)) == Some(t)
  {
    var s := FormatTxid(t);
    var r := ParseTxid(s);
    assert r.Some?;
    forall i | 0 <= i < 32 ensures r.value[i] == t[i] {
      assert HexValue(s[2 * (31 - i)]) * 16 + HexValue(s[2 * (31 - i) + 1]) == Reverse(t)[31 - i];
    }
    assert r.value == t;
  }
}

=== FILE: deploy.dfy ===
/**
  Validation of a deploy inscription (src/brc20_index/deploy.rs). Four
  checks always run — ticker symbol, `dec`, `max`, `lim` — and every failing
  check contributes its reason; the deploy is valid when none failed.
 */
module Deploys {
  import opened Base
  import opened Text
  import opened Witness
  import opened Amounts
  import opened Brc20Txs

  datatype DeployTx = DeployTx(
    maxSupply: real,
    limit: real,
    decimals: nat,
    tx: Brc20Tx,
    script: Inscription,
    isValid: bool)

  /** The decimals a token gets when the deploy does not name any, and the most it may name. */
  const DefaultDecimals: nat := 18
  const MaxDecimals: nat := 18
  /** The length, in characters, every ticker symbol must have. */
  const TickerLength: nat := 4

  const TickerExists: string := "Ticker symbol already exists"
  const TickerWrongLength: string := "Ticker symbol must be 4 characters long"
  const DecimalsNotUnsigned: string := "Decimals field must be a valid unsigned integer"
  const DecimalsTooLarge: string := "Decimals must be 18 or less"
  const MaxOutOfRange: string :=
    "Max supply must be greater than 0 and the number of decimal places must not exceed the decimal value."
  const MaxNotNumber: string := "Max field must be a valid number."
  const MaxMissing: string := "Max field is missing."
  const LimitOutOfRange: string :=
    "Limit must be less than or equal to max supply and the number of decimal places must not exceed the decimal value."
  const LimitNotNumber: string := "Limit field must be a valid number."
  const ReasonSeparator: string := "; "

  /** `Brc20DeployTx::new`: max supply and limit 0, 18 decimals, not (yet) valid. */
  function NewDeploy(tx: Brc20Tx, script: Inscription): (d: DeployTx)
    ensures d.maxSupply == 0.0 && d.limit == 0.0 && d.decimals == DefaultDecimals && !d.isValid
    ensures d.tx == tx && d.script == script
  {
    DeployTx(0.0, 0.0, DefaultDecimals, tx, script, false)
  }

  /**
    `validate_ticker_symbol`: `symbol` (the lower-cased tick) must not be a
    deployed ticker, and the tick as inscribed must have four characters.
   */
  function ValidateTickerSymbol<T>(d: DeployTx, symbol: string, tickers: map<string, T>): (r: Result<()>)
    ensures r.Ok? <==> symbol !in tickers && |d.script.tick| == TickerLength
    ensures symbol in tickers ==> r == Err(TickerExists)
    ensures symbol !in tickers && |d.script.tick| != TickerLength ==> r == Err(TickerWrongLength)
  {
    if symbol in tickers then Err(TickerExists)
    else if |d.script.tick| != TickerLength then Err(TickerWrongLength)
    else Ok(())
  }

  /**
    `validate_decimals_field`: an absent `dec` keeps the decimals; a present
    one must parse as a `u8` of at most 18 and then replaces them. A failing
    check leaves the deploy as it was.
   */
  function ValidateDecimalsField(d: DeployTx): (r: Result<DeployTx>)
    ensures d.script.dec.None? ==> r == Ok(d)
    ensures d.script.dec.Some? ==>
      (r.Ok? <==> ParseU8(d.script.dec.value).Some? && ParseU8(d.script.dec.value).value <= MaxDecimals)
    ensures r.Ok? && d.script.dec.Some? ==> r.value == d.(decimals := ParseU8(d.script.dec.value).value)
    ensures r.Ok? && d.script.dec.Some? ==> r.value.decimals <= MaxDecimals
    ensures d.script.dec.Some? && ParseU8(d.script.dec.value).None? ==> r == Err(DecimalsNotUnsigned)
    ensures r.Err? && r.error != DecimalsNotUnsigned ==> r.error == DecimalsTooLarge
  {
    match d.script.dec
    case None => Ok(d)
    case Some(s) =>
      match ParseU8(s)
      case None => Err(DecimalsNotUnsigned)
      case Some(v) => if v > MaxDecimals then Err(DecimalsTooLarge) else Ok(d.(decimals := v))
  }

  /**
    `validate_max_field`: `max` must be present, convert with the deploy's
    decimals, be positive, and print with no more decimal places than the
    decimals allow.
   */
  function ValidateMaxField(d: DeployTx, syn: NumberSyntax): (r: Result<real>)
    ensures d.script.max.None? ==> r == Err(MaxMissing)
    ensures r.Ok? <==>
      && d.script.max.Some?
      && ConvertToFloat(d.script.max.value, d.decimals, syn.parseF64).Ok?
      && ConvertToFloat(d.script.max.value, d.decimals, syn.parseF64).value > 0.0
      && syn.decimalPlaces(ConvertToFloat(d.script.max.value, d.decimals, syn.parseF64).value) <= d.decimals
    ensures r.Ok? ==> syn.parseF64(d.script.max.value) == Some(r.value) && r.value > 0.0
    ensures d.script.max.Some? && ConvertToFloat(d.script.max.value, d.decimals, syn.parseF64).Err? ==>
      r == Err(MaxNotNumber)
    ensures r.Err? ==> r.error in {MaxMissing, MaxNotNumber, MaxOutOfRange}
  {
    match d.script.max
    case None => Err(MaxMissing)
    case Some(s) =>
      match ConvertToFloat(s, d.decimals, syn.parseF64)
      case Err(_) => Err(MaxNotNumber)
      case Ok(m) => if m > 0.0 && syn.decimalPlaces(m) <= d.decimals then Ok(m) else Err(MaxOutOfRange)
  }

  /**
    `validate_limit_field`: an absent `lim` makes the limit equal to `max`;
    a present one must convert, be at most `max`, and print with no more
    decimal places than the decimals allow.
   */
  function ValidateLimitField(d: DeployTx, max: real, syn: NumberSyntax): (r: Result<real>)
    ensures d.script.lim.None? ==> r == Ok(max)
    ensures d.script.lim.Some? ==> (r.Ok? <==>
      && ConvertToFloat(d.script.lim.value, d.decimals, syn.parseF64).Ok?
      && ConvertToFloat(d.script.lim.value, d.decimals, syn.parseF64).value <= max
      && syn.decimalPlaces(ConvertToFloat(d.script.lim.value, d.decimals, syn.parseF64).value) <= d.decimals)
    ensures r.Ok? ==> r.value <= max
    ensures r.Ok? && d.script.lim.Some? ==> syn.parseF64(d.script.lim.value) == Some(r.value)
    ensures d.script.lim.Some? && ConvertToFloat(d.script.lim.value, d.decimals, syn.parseF64).Err? ==>
      r == Err(LimitNotNumber)
    ensures r.Err? ==> r.error in {LimitNotNumber, LimitOutOfRange}
  {
    match d.script.lim
    case None => Ok(max)
    case Some(s) =>
      match ConvertToFloat(s, d.decimals, syn.parseF64)
      case Err(_) => Err(LimitNotNumber)
      case Ok(l) => if l <= max && syn.decimalPlaces(l) <= d.decimals then Ok(l) else Err(LimitOutOfRange)
  }

  /** The reason a check contributes: its error, or nothing when it passed. */
  function ReasonOf<X>(r: Result<X>): (reasons: seq<string>)
    ensures |reasons| <= 1
    ensures reasons == [] <==> r.Ok?
    ensures r.Err? ==> reasons == [r.error]
  {
    if r.Err? then [r.error] else []
  }

  /** The deploy after the decimals check: updated when the check passed, unchanged otherwise. */
  function AfterDecimals(d: DeployTx): DeployTx {
    var r := ValidateDecimalsField(d);
    if r.Ok? then r.value else d
  }

  /** The max supply after the max check: the checked value, or the previous one when the check failed. */
  function MaxAfterCheck(d: DeployTx, syn: NumberSyntax): real {
    var r := ValidateMaxField(AfterDecimals(d), syn);
    if r.Ok? then r.value else d.maxSupply
  }

  /** The failure reasons of the four checks, in the order they run. */
  function DeployReasons<T>(d: DeployTx, tickers: map<string, T>, syn: NumberSyntax): (reasons: seq<string>)
    ensures |reasons| <= 4
  {
    var dd := AfterDecimals(d);
    ReasonOf(ValidateTickerSymbol(d, ToLower(d.script.tick), tickers))
      + ReasonOf(ValidateDecimalsField(d))
      + ReasonOf(ValidateMaxField(dd, syn))
      + ReasonOf(ValidateLimitField(dd, MaxAfterCheck(d, syn), syn))
  }

  /**
    `validate_deploy_script`: runs all four checks on the lower-cased tick;
    each passing check applies its value (decimals, max supply, limit), and
    the limit is checked against the max supply as it stands after the max
    check. The deploy is valid exactly when no check failed. An invalid
    deploy records one invalid entry, whose reason is the reasons joined by
    "; "; a valid deploy leaves the invalid map untouched.
   */
  function ValidateDeployScript<T>(d: DeployTx, invalid: InvalidTxMap, tickers: map<string, T>, syn: NumberSyntax)
    : (r: (DeployTx, InvalidTxMap))
    ensures r.0.isValid <==>
      && ValidateTickerSymbol(d, ToLower(d.script.tick), tickers).Ok?
      && ValidateDecimalsField(d).Ok?
      && ValidateMaxField(AfterDecimals(d), syn).Ok?
      && ValidateLimitField(AfterDecimals(d), MaxAfterCheck(d, syn), syn).Ok?
    ensures r.0.isValid <==> DeployReasons(d, tickers, syn) == []
    ensures r.0.decimals == AfterDecimals(d).decimals
    ensures r.0.maxSupply == MaxAfterCheck(d, syn)
    ensures ValidateMaxField(AfterDecimals(d), syn).Err? ==> r.0.maxSupply == d.maxSupply
    ensures ValidateLimitField(AfterDecimals(d), r.0.maxSupply, syn).Ok? ==>
      r.0.limit == ValidateLimitField(AfterDecimals(d), r.0.maxSupply, syn).value
    ensures ValidateLimitField(AfterDecimals(d), r.0.maxSupply, syn).Err? ==> r.0.limit == d.limit
    ensures r.0.tx == d.tx && r.0.script == d.script
    ensures r.0.isValid ==> r.1 == invalid
    ensures !r.0.isValid ==>
      r.1 == AddInvalidTx(invalid, InvalidTx(d.tx.txId, d.script, Join(DeployReasons(d, tickers, syn), ReasonSeparator)))
  {
    var dd := AfterDecimals(d);
    var mx := MaxAfterCheck(d, syn);
    var lim := ValidateLimitField(dd, mx, syn);
    var reasons := DeployReasons(d, tickers, syn);
    var checked := dd.(maxSupply := mx, limit := if lim.Ok? then lim.value else d.limit, isValid := reasons == []);
    if checked.isValid then (checked, invalid)
    else (checked, AddInvalidTx(invalid, InvalidTx(d.tx.txId, d.script, Join(reasons, ReasonSeparator))))
  }

  /**
    A deploy that passes keeps the token's bounds consistent: a positive
    max supply, a limit no larger than it, at most 18 decimals, and a max
    supply printed within those decimals.
   */
  lemma ValidDeployBounds<T>(tx: Brc20Tx, script: Inscription, invalid: InvalidTxMap, tickers: map<string, T>, syn: NumberSyntax)
    ensures var r := ValidateDeployScript(NewDeploy(tx, script), invalid, tickers, syn).0;
      r.isValid ==>
        && r.maxSupply > 0.0
        && r.limit <= r.maxSupply
        && r.decimals <= MaxDecimals
        && syn.decimalPlaces(r.maxSupply) <= r.decimals
        && ToLower(script.tick) !in tickers
        && |script.tick| == TickerLength
  {
  }

  /**
    When the max check of a fresh deploy fails, the max supply stays 0 and
    the limit is checked against 0: an absent `lim` then gives a limit of
    0, and a present one must be at most 0.
   */
  lemma FailedMaxLeavesZero<T>(tx: Brc20Tx, script: Inscription, invalid: InvalidTxMap, tickers: map<string, T>, syn: NumberSyntax)
    requires ValidateMaxField(AfterDecimals(NewDeploy(tx, script)), syn).Err?
    ensures var r := ValidateDeployScript(NewDeploy(tx, script), invalid, tickers, syn).0;
      && r.maxSupply == 0.0
      && !r.isValid
      && (script.lim.None? ==> r.limit == 0.0)
      && (ValidateLimitField(AfterDecimals(NewDeploy(tx, script)), r.maxSupply, syn).Ok? ==> r.limit <= 0.0)
  {
  }

  /** An absent `dec` keeps the default 18 decimals of a fresh deploy. */
  lemma AbsentDecimalsKeepDefault<T>(tx: Brc20Tx, script: Inscription, invalid: InvalidTxMap, tickers: map<string, T>, syn: NumberSyntax)
    requires script.dec.None?
    ensures ValidateDeployScript(NewDeploy(tx, script), invalid, tickers, syn).0.decimals == DefaultDecimals
  {
  }

  /** Each failing check contributes its reason: the invalid entry's reason lists exactly the failures, in order. */
  lemma InvalidDeployRecordsEveryReason<T>(d: DeployTx, invalid: InvalidTxMap, tickers: map<string, T>, syn: NumberSyntax)
    requires !ValidateDeployScript(d, invalid, tickers, syn).0.isValid
    ensures var m := ValidateDeployScript(d, invalid, tickers, syn).1;
      && d.tx.txId in m.entries
      && m.entries[d.tx.txId].reason == Join(DeployReasons(d, tickers, syn), ReasonSeparator)
      && |DeployReasons(d, tickers, syn)| >= 1
      && (ToLower(d.script.tick) in tickers ==> DeployReasons(d, tickers, syn)[0] == TickerExists)
      && (d.script.max.None? ==> MaxMissing in DeployReasons(d, tickers, syn))
  {
    var reasons := DeployReasons(d, tickers, syn);
    if d.script.max.None? {
      var dd := AfterDecimals(d);
      var p := ReasonOf(ValidateTickerSymbol(d, ToLower(d.script.tick), tickers)) + ReasonOf(ValidateDecimalsField(d));
      assert reasons[|p|] == MaxMissing;
    }
  }
}

=== FILE: index.dfy ===
/**
  The in-memory index (src/brc20_index.rs): the deployed tickers keyed by
  lower-cased symbol, the rejected inscriptions, and the tick of every
  active transfer inscription keyed by the outpoint it sits on; and the
  processing of one block's transactions.
 */
module Indexer {
  import opened Base
  import opened Text
  import opened Chain
  import opened Witness
  import opened Amounts
  import opened Assoc
  import opened Brc20Txs
  import opened TransferTxs
  import opened UserBalances
  import opened Deploys
  import opened Tickers
  import opened Transfers
  import opened Vouts

  datatype Brc20Index = Brc20Index(
    tickers: map<string, Ticker>,
    invalid: InvalidTxMap,
    active: map<OutPoint, string>)

  /**
    Which reading of the two disputed steps the index follows: the program
    `AsWritten` (the `>=` proper vout that sends input 0 to output 0, and
    the transfer ticker looked up and registered under the tick verbatim),
    or the `Corrected` one (the output covering the inscribed satoshi, and
    the lower-cased tick).
   */
  datatype Rules = AsWritten | Corrected

  /**
    What the index calls but this model does not contain, passed in as
    functions: the inscription JSON decoder, Rust's float handling, the
    lossy UTF-8 decoder, the node lookup of the values of a list of
    inputs, and the in-memory mint validation (which may update the
    tickers and the invalid map).
   */
  datatype Env = Env(
    rules: Rules,
    parseInscription: string -> Option<Inscription>,
    syn: NumberSyntax,
    lossy: seq<byte> -> string,
    inputValues: seq<TxIn> -> Result<seq<nat>>,
    mint: (map<string, Ticker>, InvalidTxMap, Brc20Tx, Inscription) -> (map<string, Ticker>, InvalidTxMap))

  /** `Brc20Index::new`: no tickers, no invalid inscriptions, no active transfers. */
  function NewIndex(): (ix: Brc20Index)
    ensures ix.tickers == map[] && ix.invalid == NewInvalidTxMap() && ix.active == map[]
  {
    Brc20Index(map[], NewInvalidTxMap(), map[])
  }

  /** `get_active_transfer_inscription_ticker`: the tick registered for `op`, if any. */
  function GetActiveTransferInscriptionTicker(ix: Brc20Index, op: OutPoint): (r: Option<string>)
    ensures r.Some? <==> op in ix.active
    ensures r.Some? ==> r.value == ix.active[op]
  {
    if op in ix.active then Some(ix.active[op]) else None
  }

  /** `update_active_transfer_inscription`: registers `tick` for `op`; every other outpoint keeps its registration. */
  function UpdateActiveTransferInscription(ix: Brc20Index, op: OutPoint, tick: string): (r: Brc20Index)
    ensures GetActiveTransferInscriptionTicker(r, op) == Some(tick)
    ensures forall o :: o != op ==> GetActiveTransferInscriptionTicker(r, o) == GetActiveTransferInscriptionTicker(ix, o)
    ensures r == ix.(active := r.active)
  {
    ix.(active := ix.active[op := tick])
  }

  /** `remove_active_transfer_balance`: forgets `op`; every other outpoint keeps its registration. */
  function RemoveActiveTransferBalance(ix: Brc20Index, op: OutPoint): (r: Brc20Index)
    ensures GetActiveTransferInscriptionTicker(r, op) == None
    ensures forall o :: o != op ==> GetActiveTransferInscriptionTicker(r, o) == GetActiveTransferInscriptionTicker(ix, o)
    ensures r == ix.(active := r.active)
  {
    ix.(active := ix.active - {op})
  }

  /** Registering a fresh outpoint and removing it again leaves the index as it was. */
  lemma RemoveUndoesUpdate(ix: Brc20Index, op: OutPoint, tick: string)
    requires op !in ix.active
    ensures RemoveActiveTransferBalance(UpdateActiveTransferInscription(ix, op, tick), op) == ix
  {
    assert ix.active[op := tick] - {op} == ix.active;
  }

  /** `get_ticker_mut`: the ticker filed under exactly `name`. */
  function GetTickerMut(ix: Brc20Index, name: string): (r: Option<Ticker>)
    ensures r.Some? <==> name in ix.tickers
    ensures r.Some? ==> r.value == ix.tickers[name]
  {
    if name in ix.tickers then Some(ix.tickers[name]) else None
  }

  const NoVoutAtIndex: string := "Transaction doesn't have vout at given index"
  const NoAddress: string := "Couldn't derive address from scriptPubKey"

  /**
    `get_owner_of_vout`: the address output `i` pays to. Fails on a
    transaction without outputs, on an index past the outputs, and on a
    script no address derives from.
   */
  function GetOwnerOfVout(raw: RawTxInfo, i: nat): (r: Result<Address>)
    ensures r.Ok? <==> i < |raw.vout| && raw.vout[i].address.Some?
    ensures r.Ok? ==> r.value == raw.vout[i].address.value
    ensures |raw.vout| == 0 ==> r == Err(NoOutputs)
    ensures 0 < |raw.vout| <= i ==> r == Err(NoVoutAtIndex)
    ensures i < |raw.vout| && raw.vout[i].address.None? ==> r == Err(NoAddress)
  {
    if |raw.vout| == 0 then Err(NoOutputs)
    else if |raw.vout| <= i then Err(NoVoutAtIndex)
    else
      match raw.vout[i].address
      case None => Err(NoAddress)
      case Some(a) => Ok(a)
  }

  /** `get_owner_of_vout_0`: the owner of an inscription, the address of output 0. */
  function GetOwnerOfVout0(raw: RawTxInfo): (r: Result<Address>)
    ensures r == GetOwnerOfVout(raw, 0)
    ensures r.Ok? ==> |raw.vout| > 0
  {
    if |raw.vout| == 0 then Err(NoOutputs)
    else
      match raw.vout[0].address
      case None => Err(NoAddress)
      case Some(a) => Ok(a)
  }

  function SumNats(vs: seq<nat>): nat {
    if |vs| == 0 then 0 else vs[0] + SumNats(vs[1..])
  }

  /**
    The value of the inputs before input `k`: 0 for the first input, with
    no lookup; otherwise the sum of the values the node reports.
   */
  function PrecedingValue(tx: Transaction, k: nat, inputValues: seq<TxIn> -> Result<seq<nat>>): (r: Result<nat>)
    requires k <= |tx.input|
    ensures k == 0 ==> r == Ok(0)
    ensures k > 0 ==> (r.Err? <==> inputValues(tx.input[..k]).Err?)
    ensures k > 0 && r.Ok? ==> r.value == SumNats(inputValues(tx.input[..k]).value)
  {
    if k == 0 then Ok(0)
    else
      match inputValues(tx.input[..k])
      case Err(e) => Err(e)
      case Ok(vs) => Ok(SumNats(vs))
  }

  /**
    The output the inscription spent by input `k` moves to, under `rules`:
    as written, input 0 goes to output 0 with no lookup and a later input
    to the first output whose running sum reaches the preceding value;
    corrected, to the output whose value range covers it.
   */
  function VoutFor(tx: Transaction, k: nat, rules: Rules, inputValues: seq<TxIn> -> Result<seq<nat>>): (r: Result<nat>)
    requires k <= |tx.input|
    ensures rules == AsWritten && k == 0 ==> r == Ok(0)
    ensures r.Err? <==> PrecedingValue(tx, k, inputValues).Err? || ((k > 0 || rules == Corrected) && |tx.output| == 0)
    ensures r.Ok? && rules == AsWritten ==>
      r == ProperVoutAsWritten(tx.output, k, PrecedingValue(tx, k, inputValues).value)
    ensures r.Ok? && rules == Corrected ==> r == ProperVout(tx.output, PrecedingValue(tx, k, inputValues).value)
  {
    match PrecedingValue(tx, k, inputValues)
    case Err(e) => Err(e)
    case Ok(s) =>
      if rules == AsWritten then ProperVoutAsWritten(tx.output, k, s)
      else
        assert rules == Corrected;
        ProperVout(tx.output, s)
  }

  /**
    The two readings send a spent inscription to the same output for every
    input but the first, unless the preceding value ends exactly at an
    output boundary.
   */
  lemma VoutRulesAgreeOffBoundaries(tx: Transaction, k: nat, inputValues: seq<TxIn> -> Result<seq<nat>>)
    requires 0 < k <= |tx.input|
    requires PrecedingValue(tx, k, inputValues).Ok?
    requires forall j :: 0 <= j < |tx.output| ==> RunningSum(tx.output, j) != PrecedingValue(tx, k, inputValues).value
    ensures VoutFor(tx, k, AsWritten, inputValues) == VoutFor(tx, k, Corrected, inputValues)
  {
    AsWrittenAgreesOffBoundaries(tx.output, k, PrecedingValue(tx, k, inputValues).value);
  }

  /** Input `k` spends an active transfer inscription the index can act on. */
  predicate Spends(ix: Brc20Index, tx: Transaction, k: nat)
    requires k < |tx.input|
  {
    var op := tx.input[k].previousOutput;
    op in ix.active && ix.active[op] in ix.tickers && HasActiveTransferInscription(ix.tickers[ix.active[op]], op)
  }

  /** The transfer as it is recorded once spent: with its receiver and its spending transaction. */
  function Spent(transfer: TransferTx, receiver: Address, raw: RawTxInfo): (r: TransferTx)
    ensures r.receiver == Some(receiver) && r.transferTx == Some(raw)
    ensures r.inscriptionTx == transfer.inscriptionTx && r.amount == transfer.amount && r.script == transfer.script
  {
    SetTransferTx(SetReceiver(transfer, receiver), raw)
  }

  /** The ticker after a spent transfer is credited to the receiver and then debited from the inscriber. */
  function Settle(t: Ticker, receiver: Address, moved: TransferTx): (r: Ticker)
    ensures var sender := moved.inscriptionTx.owner;
      forall a :: a != receiver && a != sender ==> Get(r.balances, a) == Get(t.balances, a)
    ensures var sender := moved.inscriptionTx.owner;
      receiver != sender ==>
        && Get(r.balances, receiver).Some? && Get(r.balances, sender).Some?
        && Overall(Get(r.balances, receiver).value) == Overall(BalanceOrNew(t, receiver)) + moved.amount
        && Overall(Get(r.balances, sender).value) == Overall(BalanceOrNew(t, sender)) - moved.amount
    ensures receiver == moved.inscriptionTx.owner ==>
      Get(r.balances, receiver).Some? && Overall(Get(r.balances, receiver).value) == Overall(BalanceOrNew(t, receiver))
  {
    SettleEffect(t, receiver, moved);
    UpdateTransferSends(UpdateTransferReceives(t, receiver, moved), moved.inscriptionTx.owner, moved)
  }

  /** The balance changes of a receive followed by a send, told apart by whether the two addresses differ. */
  lemma SettleEffect(t: Ticker, receiver: Address, moved: TransferTx)
    ensures var sender := moved.inscriptionTx.owner;
      var r := UpdateTransferSends(UpdateTransferReceives(t, receiver, moved), sender, moved);
      && (forall a :: a != receiver && a != sender ==> Get(r.balances, a) == Get(t.balances, a))
      && (receiver != sender ==>
        && Get(r.balances, receiver).Some? && Get(r.balances, sender).Some?
        && Overall(Get(r.balances, receiver).value) == Overall(BalanceOrNew(t, receiver)) + moved.amount
        && Overall(Get(r.balances, sender).value) == Overall(BalanceOrNew(t, sender)) - moved.amount)
      && (receiver == sender ==>
        Get(r.balances, receiver).Some? && Overall(Get(r.balances, receiver).value) == Overall(BalanceOrNew(t, receiver)))
  {
    var sender := moved.inscriptionTx.owner;
    var t1 := UpdateTransferReceives(t, receiver, moved);
    if receiver == sender {
      assert Overall(BalanceOrNew(t1, sender)) == Overall(BalanceOrNew(t, sender)) + moved.amount;
    } else {
      assert BalanceOrNew(t1, sender) == BalanceOrNew(t, sender);
    }
  }

  /** Settling a transfer moves tokens between two balances and keeps the ticker's ledger balanced. */
  lemma SettleKeepsLedger(t: Ticker, receiver: Address, moved: TransferTx)
    requires Ledger(t)
    ensures Ledger(Settle(t, receiver, moved))
  {
    TransferKeepsLedger(t, moved.inscriptionTx.owner, receiver, moved);
  }

  /**
    The part of one input's processing after the inscription was taken
    from its holder (`t1` is the ticker without it): find the receiver,
    settle the transfer and forget the outpoint.
   */
  function CompleteSpend(
    ix: Brc20Index, raw: RawTxInfo, tx: Transaction, k: nat, name: string, t1: Ticker, transfer: TransferTx,
    rules: Rules, inputValues: seq<TxIn> -> Result<seq<nat>>)
    : (r: Result<Brc20Index>)
    requires k < |tx.input| && name in ix.tickers
    ensures r.Err? <==> VoutFor(tx, k, rules, inputValues).Err? || GetOwnerOfVout(raw, VoutFor(tx, k, rules, inputValues).value).Err?
    ensures r.Ok? ==>
      && r.value.active == ix.active - {tx.input[k].previousOutput}
      && r.value.invalid == ix.invalid
      && r.value.tickers.Keys == ix.tickers.Keys
      && (forall n :: n in ix.tickers && n != name ==> r.value.tickers[n] == ix.tickers[n])
    ensures r.Ok? ==>
      var receiver := GetOwnerOfVout(raw, VoutFor(tx, k, rules, inputValues).value).value;
      && r.value.tickers == ix.tickers[name := Settle(t1, receiver, Spent(transfer, receiver, raw))]
      && r.value.active == ix.active - {tx.input[k].previousOutput}
      && r.value.invalid == ix.invalid
  {
    match VoutFor(tx, k, rules, inputValues)
    case Err(e) => Err(e)
    case Ok(v) =>
      match GetOwnerOfVout(raw, v)
      case Err(e) => Err(e)
      case Ok(receiver) =>
        var moved := Spent(transfer, receiver, raw);
        var tickers := ix.tickers[name := Settle(t1, receiver, moved)];
        assert tickers.Keys == ix.tickers.Keys;
        Ok(RemoveActiveTransferBalance(ix.(tickers := tickers), tx.input[k].previousOutput))
  }

  /**
    One input of `process_active_transfer`. An input that does not spend
    a registered outpoint, whose ticker is unknown, or whose inscription
    no balance holds, changes nothing. Otherwise the inscription is taken
    from its holder, the receiver is the owner of the output its first
    satoshi moves to, the transfer is recorded with receiver and spending
    transaction, credited to the receiver, debited from the inscriber,
    and the outpoint is forgotten.
   */
  function SpendInput(ix: Brc20Index, raw: RawTxInfo, tx: Transaction, k: nat, rules: Rules, inputValues: seq<TxIn> -> Result<seq<nat>>)
    : (r: Result<Brc20Index>)
    requires k < |tx.input|
    ensures !Spends(ix, tx, k) ==> r == Ok(ix)
    ensures Spends(ix, tx, k) ==>
      (r.Err? <==> VoutFor(tx, k, rules, inputValues).Err? || GetOwnerOfVout(raw, VoutFor(tx, k, rules, inputValues).value).Err?)
    ensures Spends(ix, tx, k) && r.Ok? ==>
      var op := tx.input[k].previousOutput;
      && r.value.active == ix.active - {op}
      && r.value.invalid == ix.invalid
      && r.value.tickers.Keys == ix.tickers.Keys
      && (forall name :: name in ix.tickers && name != ix.active[op] ==> r.value.tickers[name] == ix.tickers[name])
  {
    var op := tx.input[k].previousOutput;
    match GetActiveTransferInscriptionTicker(ix, op)
    case None => Ok(ix)
    case Some(name) =>
      match GetTickerMut(ix, name)
      case None => Ok(ix)
      case Some(t) =>
        if !HasActiveTransferInscription(t, op) then Ok(ix)
        else
          var (t1, got) := GetAndRemoveActiveTransferInscription(t, op);
          match got
          case None => Ok(ix)
          case Some(transfer) => CompleteSpend(ix, raw, tx, k, name, t1, transfer, rules, inputValues)
  }

  /** The inputs from `k` on, in order; the first error ends the walk. */
  function SpendInputsFrom(ix: Brc20Index, raw: RawTxInfo, tx: Transaction, k: nat, rules: Rules, inputValues: seq<TxIn> -> Result<seq<nat>>)
    : (r: Result<Brc20Index>)
    requires k <= |tx.input|
    ensures r.Ok? ==> r.value.invalid == ix.invalid && r.value.tickers.Keys == ix.tickers.Keys
    ensures r.Ok? ==> r.value.active.Keys <= ix.active.Keys
    ensures r.Ok? ==> forall op :: op in ix.active && (forall j :: k <= j < |tx.input| ==> tx.input[j].previousOutput != op) ==>
      op in r.value.active && r.value.active[op] == ix.active[op]
    decreases |tx.input| - k
  {
    if k == |tx.input| then Ok(ix)
    else
      match SpendInput(ix, raw, tx, k, rules, inputValues)
      case Err(e) => Err(e)
      case Ok(ix1) => SpendInputsFrom(ix1, raw, tx, k + 1, rules, inputValues)
  }

  /**
    `process_active_transfer`: every input of the transaction that spends
    an active transfer inscription completes that transfer. Only
    registrations of spent outpoints are dropped; the invalid map and the
    set of tickers do not change.
   */
  function ProcessActiveTransfer(ix: Brc20Index, raw: RawTxInfo, rules: Rules, inputValues: seq<TxIn> -> Result<seq<nat>>)
    : (r: Result<Brc20Index>)
    ensures raw.transaction.None? ==> r == Err(DecodeFailed)
    ensures r.Ok? ==> r.value.invalid == ix.invalid && r.value.tickers.Keys == ix.tickers.Keys
    ensures r.Ok? ==> r.value.active.Keys <= ix.active.Keys
    ensures r.Ok? ==> forall op :: op in ix.active && (forall j :: 0 <= j < |raw.transaction.value.input| ==> raw.transaction.value.input[j].previousOutput != op) ==>
      op in r.value.active && r.value.active[op] == ix.active[op]
  {
    match raw.transaction
    case None => Err(DecodeFailed)
    case Some(tx) => SpendInputsFrom(ix, raw, tx, 0, rules, inputValues)
  }

  /**
    The deploy branch of `index_brc20`: a valid deploy files a new ticker
    under its lower-cased symbol, which was not yet taken, so no deployed
    ticker is ever replaced; the invalid map is the one validation left.
   */
  function ApplyDeploy(ix: Brc20Index, tx: Brc20Tx, ins: Inscription, syn: NumberSyntax): (r: Brc20Index)
    ensures var (d, inv) := ValidateDeployScript(NewDeploy(tx, ins), ix.invalid, ix.tickers, syn);
      && r.invalid == inv && r.active == ix.active
      && (!d.isValid ==> r.tickers == ix.tickers)
      && (d.isValid ==> ToLower(ins.tick) !in ix.tickers && r.tickers == ix.tickers[ToLower(ins.tick) := NewTicker(d)])
    ensures forall name :: name in ix.tickers ==> name in r.tickers && r.tickers[name] == ix.tickers[name]
  {
    var (d, inv) := ValidateDeployScript(NewDeploy(tx, ins), ix.invalid, ix.tickers, syn);
    ValidDeployBounds(tx, ins, ix.invalid, ix.tickers, syn);
    if d.isValid then
      var t := NewTicker(d);
      ix.(tickers := ix.tickers[GetTicker(t) := t], invalid := inv)
    else ix.(invalid := inv)
  }

  /** The key a transfer's tick is looked up and registered under: verbatim as written, lower-cased when corrected. */
  function TransferKey(rules: Rules, tick: string): string {
    if rules == AsWritten then tick else ToLower(tick)
  }

  /**
    The transfer branch of `index_brc20`: the inscription is checked
    against its owner's available balance, and its outpoint is registered
    under the tick whether or not the check passed. As written, both use
    the tick verbatim, so an upper-case tick never finds its ticker and its
    registration is skipped when spent; corrected, both use the lower-cased
    tick.
   */
  function ApplyTransfer(ix: Brc20Index, tx: Brc20Tx, ins: Inscription, rules: Rules, parseF64: string -> Option<real>)
    : (r: Brc20Index)
    ensures var res := InscribeUnder(NewTransferTx(tx, ins, parseF64), TransferKey(rules, ins.tick), ix.tickers, ix.invalid, parseF64);
      r.tickers == res.tickers && r.invalid == res.invalid
    ensures rules == AsWritten ==>
      var res := HandleInscribeTransferAmountAsWritten(NewTransferTx(tx, ins, parseF64), ix.tickers, ix.invalid, parseF64);
      r.tickers == res.tickers && r.invalid == res.invalid
    ensures rules == Corrected ==>
      var res := HandleInscribeTransferAmount(NewTransferTx(tx, ins, parseF64), ix.tickers, ix.invalid, parseF64);
      r.tickers == res.tickers && r.invalid == res.invalid
    ensures r.tickers.Keys == ix.tickers.Keys
    ensures GetActiveTransferInscriptionTicker(r, GetOutpoint(tx)) == Some(TransferKey(rules, ins.tick))
    ensures forall o :: o != GetOutpoint(tx) ==> GetActiveTransferInscriptionTicker(r, o) == GetActiveTransferInscriptionTicker(ix, o)
  {
    var t := NewTransferTx(tx, ins, parseF64);
    var res := InscribeUnder(t, TransferKey(rules, ins.tick), ix.tickers, ix.invalid, parseF64);
    UpdateActiveTransferInscription(ix.(tickers := res.tickers, invalid := res.invalid), GetInscriptionOutpoint(res.transfer), TransferKey(rules, ins.tick))
  }

  const Deploy: string := "deploy"
  const Mint: string := "mint"
  const Transfer: string := "transfer"

  /** A block height as the `u32` the source casts it to. */
  function AsU32(height: nat): (h: nat)
    ensures h < 0x1_0000_0000
    ensures height < 0x1_0000_0000 ==> h == height
  {
    height % 0x1_0000_0000
  }

  /**
    An inscription found in a transaction: its owner is the address of
    output 0; it is dispatched on its `op`, and any other `op` is ignored.
   */
  function ProcessInscription(ix: Brc20Index, raw: RawTxInfo, ins: Inscription, height: nat, env: Env): (r: Result<Brc20Index>)
    ensures r.Err? <==> GetOwnerOfVout0(raw).Err? || raw.blocktime.None?
    ensures r.Ok? && ins.op != Deploy && ins.op != Mint && ins.op != Transfer ==> r.value == ix
    ensures r.Ok? && ins.op == Deploy ==>
      r.value == ApplyDeploy(ix, NewBrc20Tx(raw, GetOwnerOfVout0(raw).value, AsU32(height)).value, ins, env.syn)
    ensures r.Ok? && ins.op == Transfer ==>
      r.value == ApplyTransfer(ix, NewBrc20Tx(raw, GetOwnerOfVout0(raw).value, AsU32(height)).value, ins, env.rules, env.syn.parseF64)
    ensures r.Ok? && ins.op == Mint ==> r.value.active == ix.active
  {
    match GetOwnerOfVout0(raw)
    case Err(e) => Err(e)
    case Ok(owner) =>
      match NewBrc20Tx(raw, owner, AsU32(height))
      case Err(e) => Err(e)
      case Ok(tx) =>
        if ins.op == Deploy then Ok(ApplyDeploy(ix, tx, ins, env.syn))
        else if ins.op == Mint then
          var (tickers, invalid) := env.mint(ix.tickers, ix.invalid, tx, ins);
          Ok(ix.(tickers := tickers, invalid := invalid))
        else if ins.op == Transfer then Ok(ApplyTransfer(ix, tx, ins, env.rules, env.syn.parseF64))
        else Ok(ix)
  }

  /** One witness item: an inscription is processed; anything else may be the spend of a transfer inscription. */
  function ProcessWitness(ix: Brc20Index, raw: RawTxInfo, w: string, height: nat, env: Env): (r: Result<Brc20Index>)
    ensures ExtractAndProcessWitnessData(w, env.parseInscription).Some? ==>
      r == ProcessInscription(ix, raw, ExtractAndProcessWitnessData(w, env.parseInscription).value, height, env)
    ensures ExtractAndProcessWitnessData(w, env.parseInscription).None? ==>
      r == ProcessActiveTransfer(ix, raw, env.rules, env.inputValues)
  {
    match ExtractAndProcessWitnessData(w, env.parseInscription)
    case Some(ins) => ProcessInscription(ix, raw, ins, height, env)
    case None => ProcessActiveTransfer(ix, raw, env.rules, env.inputValues)
  }

  /** The witness items from `i` on, in order; the first error ends the walk. */
  function ProcessWitnessesFrom(ix: Brc20Index, raw: RawTxInfo, ws: seq<string>, i: nat, height: nat, env: Env)
    : (r: Result<Brc20Index>)
    requires i <= |ws|
    ensures i == |ws| ==> r == Ok(ix)
    ensures i < |ws| && ProcessWitness(ix, raw, ws[i], height, env).Err? ==> r == ProcessWitness(ix, raw, ws[i], height, env)
    ensures i < |ws| && ProcessWitness(ix, raw, ws[i], height, env).Ok? ==>
      r == ProcessWitnessesFrom(ProcessWitness(ix, raw, ws[i], height, env).value, raw, ws, i + 1, height, env)
    decreases |ws| - i
  {
    if i == |ws| then Ok(ix)
    else
      match ProcessWitness(ix, raw, ws[i], height, env)
      case Err(e) => Err(e)
      case Ok(ix1) => ProcessWitnessesFrom(ix1, raw, ws, i + 1, height, env)
  }

  /** One transaction of a block: each witness item of its first input, in order. */
  function ProcessTx(ix: Brc20Index, raw: RawTxInfo, height: nat, env: Env): (r: Result<Brc20Index>)
    ensures raw.transaction.None? ==> r.Err?
    ensures raw.transaction.Some? && |raw.transaction.value.input| == 0 ==> r == Ok(ix)
  {
    match GetWitnessDataFromRawTx(raw, env.lossy)
    case Err(e) => Err(e)
    case Ok(ws) => ProcessWitnessesFrom(ix, raw, ws, 0, height, env)
  }

  /**
    The body of `index_brc20` for one fetched block: each transaction, in
    order, fetched with `fetch` (the node's `getrawtransaction`); the first
    error ends the run.
   */
  function ProcessBlockFrom(ix: Brc20Index, txids: seq<Txid>, i: nat, height: nat, fetch: Txid -> Result<RawTxInfo>, env: Env)
    : (r: Result<Brc20Index>)
    requires i <= |txids|
    ensures i == |txids| ==> r == Ok(ix)
    ensures i < |txids| && fetch(txids[i]).Err? ==> r == Err(fetch(txids[i]).error)
    ensures i < |txids| && fetch(txids[i]).Ok? && ProcessTx(ix, fetch(txids[i]).value, height, env).Err? ==>
      r == Err(ProcessTx(ix, fetch(txids[i]).value, height, env).error)
    ensures i < |txids| && fetch(txids[i]).Ok? && ProcessTx(ix, fetch(txids[i]).value, height, env).Ok? ==>
      r == ProcessBlockFrom(ProcessTx(ix, fetch(txids[i]).value, height, env).value, txids, i + 1, height, fetch, env)
    decreases |txids| - i
  {
    if i == |txids| then Ok(ix)
    else
      match fetch(txids[i])
      case Err(e) => Err(e)
      case Ok(raw) =>
        match ProcessTx(ix, raw, height, env)
        case Err(e) => Err(e)
        case Ok(ix1) => ProcessBlockFrom(ix1, txids, i + 1, height, fetch, env)
  }

  /** Every ticker's ledger balances: overall balances add up to the minted amount. */
  ghost predicate BalancedTickers(tickers: map<string, Ticker>) {
    forall name :: name in tickers ==> Ledger(tickers[name])
  }

  ghost predicate Balanced(ix: Brc20Index) {
    BalancedTickers(ix.tickers)
  }

  /** The mint validation passed in credits what it mints: it keeps every ticker's ledger balanced. */
  ghost predicate MintKeepsBalanced(env: Env) {
    forall tickers, invalid, tx, ins :: BalancedTickers(tickers) ==> BalancedTickers(env.mint(tickers, invalid, tx, ins).0)
  }

  /** A fresh ticker has no balances and no mints. */
  lemma NewTickerBalanced(d: DeployTx)
    ensures Ledger(NewTicker(d))
  {
  }

  /** Locking part of an owner's balance in a transfer inscription keeps the ticker's ledger balanced. */
  lemma InscribeKeepsBalanced(tx: Brc20Tx, ins: Inscription, ix: Brc20Index, key: string, parseF64: string -> Option<real>)
    requires Balanced(ix)
    ensures BalancedTickers(InscribeUnder(NewTransferTx(tx, ins, parseF64), key, ix.tickers, ix.invalid, parseF64).tickers)
  {
    var t := NewTransferTx(tx, ins, parseF64);
    var owner := t.inscriptionTx.owner;
    if key in ix.tickers && Get(ix.tickers[key].balances, owner).Some? {
      var ticker := ix.tickers[key];
      var b := Get(ticker.balances, owner).value;
      SetBalanceTotal(ticker, owner, AddTransferInscription(b, SetValidity(t, true)));
      var r := InscribeUnder(t, key, ix.tickers, ix.invalid, parseF64);
      if Available(b) >= AmountOrZero(t.script.amt, parseF64) {
        assert Ledger(r.tickers[key]);
        forall n | n in r.tickers
          ensures Ledger(r.tickers[n])
        {
          if n != key {
            assert r.tickers[n] == ix.tickers[n];
          }
        }
      }
    }
  }

  /** Completing a transfer keeps every ledger balanced. */
  lemma SpendInputKeepsBalanced(ix: Brc20Index, raw: RawTxInfo, tx: Transaction, k: nat, rules: Rules, inputValues: seq<TxIn> -> Result<seq<nat>>)
    requires k < |tx.input| && Balanced(ix)
    ensures var r := SpendInput(ix, raw, tx, k, rules, inputValues);
      r.Ok? ==> Balanced(r.value)
  {
    var r := SpendInput(ix, raw, tx, k, rules, inputValues);
    if Spends(ix, tx, k) && r.Ok? {
      var op := tx.input[k].previousOutput;
      var name := ix.active[op];
      var t := ix.tickers[name];
      var (t1, got) := GetAndRemoveActiveTransferInscription(t, op);
      RemoveKeepsLedger(t, op);
      CompleteSpendKeepsBalanced(ix, raw, tx, k, name, t1, got.value, rules, inputValues);
      assert r == CompleteSpend(ix, raw, tx, k, name, t1, got.value, rules, inputValues);
    }
  }

  lemma CompleteSpendKeepsBalanced(
    ix: Brc20Index, raw: RawTxInfo, tx: Transaction, k: nat, name: string, t1: Ticker, transfer: TransferTx,
    rules: Rules, inputValues: seq<TxIn> -> Result<seq<nat>>)
    requires k < |tx.input| && name in ix.tickers && Balanced(ix) && Ledger(t1)
    ensures var r := CompleteSpend(ix, raw, tx, k, name, t1, transfer, rules, inputValues);
      r.Ok? ==> Balanced(r.value)
  {
    var r := CompleteSpend(ix, raw, tx, k, name, t1, transfer, rules, inputValues);
    if r.Ok? {
      var receiver := GetOwnerOfVout(raw, VoutFor(tx, k, rules, inputValues).value).value;
      var settled := Settle(t1, receiver, Spent(transfer, receiver, raw));
      SettleKeepsLedger(t1, receiver, Spent(transfer, receiver, raw));
      assert r.value.tickers == ix.tickers[name := settled];
      forall n | n in r.value.tickers
        ensures Ledger(r.value.tickers[n])
      {
        if n != name {
          assert r.value.tickers[n] == ix.tickers[n];
        }
      }
    }
  }

  lemma {:induction false} SpendInputsFromKeepsBalanced(
    ix: Brc20Index, raw: RawTxInfo, tx: Transaction, k: nat, rules: Rules, inputValues: seq<TxIn> -> Result<seq<nat>>)
    requires k <= |tx.input| && Balanced(ix)
    ensures var r := SpendInputsFrom(ix, raw, tx, k, rules, inputValues);
      r.Ok? ==> Balanced(r.value)
    decreases |tx.input| - k
  {
    if k < |tx.input| {
      SpendInputKeepsBalanced(ix, raw, tx, k, rules, inputValues);
      var r := SpendInput(ix, raw, tx, k, rules, inputValues);
      if r.Ok? {
        SpendInputsFromKeepsBalanced(r.value, raw, tx, k + 1, rules, inputValues);
      }
    }
  }

  /** A deploy adds a ticker with nothing minted and no balances, which is balanced. */
  lemma ApplyDeployKeepsBalanced(ix: Brc20Index, tx: Brc20Tx, ins: Inscription, syn: NumberSyntax)
    requires Balanced(ix)
    ensures Balanced(ApplyDeploy(ix, tx, ins, syn))
  {
    var (d, inv) := ValidateDeployScript(NewDeploy(tx, ins), ix.invalid, ix.tickers, syn);
    NewTickerBalanced(d);
  }

  /** Handling an inscription keeps every ledger balanced. */
  lemma ProcessInscriptionKeepsBalanced(ix: Brc20Index, raw: RawTxInfo, ins: Inscription, height: nat, env: Env)
    requires Balanced(ix) && MintKeepsBalanced(env)
    ensures var r := ProcessInscription(ix, raw, ins, height, env);
      r.Ok? ==> Balanced(r.value)
  {
    var owner := GetOwnerOfVout0(raw);
    if owner.Ok? && raw.blocktime.Some? {
      var tx := NewBrc20Tx(raw, owner.value, AsU32(height)).value;
      if ins.op == Deploy {
        ApplyDeployKeepsBalanced(ix, tx, ins, env.syn);
      } else if ins.op == Mint {
        assert BalancedTickers(env.mint(ix.tickers, ix.invalid, tx, ins).0);
      } else if ins.op == Transfer {
        InscribeKeepsBalanced(tx, ins, ix, TransferKey(env.rules, ins.tick), env.syn.parseF64);
      }
    }
  }

  /** Handling one witness item keeps every ledger balanced. */
  lemma ProcessWitnessKeepsBalanced(ix: Brc20Index, raw: RawTxInfo, w: string, height: nat, env: Env)
    requires Balanced(ix) && MintKeepsBalanced(env)
    ensures var r := ProcessWitness(ix, raw, w, height, env);
      r.Ok? ==> Balanced(r.value)
  {
    match ExtractAndProcessWitnessData(w, env.parseInscription)
    case None =>
      if raw.transaction.Some? {
        SpendInputsFromKeepsBalanced(ix, raw, raw.transaction.value, 0, env.rules, env.inputValues);
      }
    case Some(ins) =>
      ProcessInscriptionKeepsBalanced(ix, raw, ins, height, env);
  }

  lemma {:induction false} ProcessWitnessesFromKeepsBalanced(
    ix: Brc20Index, raw: RawTxInfo, ws: seq<string>, i: nat, height: nat, env: Env)
    requires i <= |ws| && Balanced(ix) && MintKeepsBalanced(env)
    ensures var r := ProcessWitnessesFrom(ix, raw, ws, i, height, env);
      r.Ok? ==> Balanced(r.value)
    decreases |ws| - i
  {
    if i < |ws| {
      ProcessWitnessKeepsBalanced(ix, raw, ws[i], height, env);
      var r := ProcessWitness(ix, raw, ws[i], height, env);
      if r.Ok? {
        ProcessWitnessesFromKeepsBalanced(r.value, raw, ws, i + 1, height, env);
      }
    }
  }

  /**
    Processing a block never creates or destroys tokens: when every
    ticker's overall balances add up to its minted amount before, they
    still do after, provided the mint validation credits what it mints.
   */
  lemma {:induction false} ProcessBlockFromKeepsBalanced(
    ix: Brc20Index, txids: seq<Txid>, i: nat, height: nat, fetch: Txid -> Result<RawTxInfo>, env: Env)
    requires i <= |txids| && Balanced(ix) && MintKeepsBalanced(env)
    ensures var r := ProcessBlockFrom(ix, txids, i, height, fetch, env);
      r.Ok? ==> Balanced(r.value)
    decreases |txids| - i
  {
    if i < |txids| && fetch(txids[i]).Ok? {
      var raw := fetch(txids[i]).value;
      var ws := GetWitnessDataFromRawTx(raw, env.lossy);
      if ws.Ok? {
        ProcessWitnessesFromKeepsBalanced(ix, raw, ws.value, 0, height, env);
        var r := ProcessTx(ix, raw, height, env);
        if r.Ok? {
          ProcessBlockFromKeepsBalanced(r.value, txids, i + 1, height, fetch, env);
        }
      }
    }
  }
}

=== FILE: mint.dfy ===
/**
  Mint inscriptions against the document store (src/brc20_index/mint.rs):
  the mint is checked against its ticker's limit and remaining supply,
  recorded when valid, and credited to the receiver.
 */
module Mints {
  import opened Base
  import opened Text
  import opened Chain
  import opened Witness
  import opened Amounts
  import opened Store

  const TickerSymbolMissing: string := "Ticker symbol does not exist"
  const ExceedsLimit: string := "Mint amount exceeds limit"
  const AtMaxSupply: string := "Total minted is already at max supply"
  /** The stored decimals do not fit a `u8`; the source panics on the conversion. */
  const DecimalsNotU8: string := "decimals do not fit in u8"

  datatype Brc20Mint = Brc20Mint(
    amt: real,
    blockHeight: nat,
    txHeight: nat,
    to: Address,
    tx: RawTxInfo,
    inscription: Inscription,
    isValid: bool)

  /** `Brc20Mint::new`: nothing minted yet and not valid. */
  function NewMint(tx: RawTxInfo, inscription: Inscription, blockHeight: nat, txHeight: nat, to: Address): (m: Brc20Mint)
    ensures m.amt == 0.0 && !m.isValid
    ensures m.tx == tx && m.inscription == inscription && m.to == to
    ensures m.blockHeight == blockHeight && m.txHeight == txHeight
  {
    Brc20Mint(0.0, blockHeight, txHeight, to, tx, inscription, false)
  }

  /** What the check decides: mint `amount`, or refuse for `reason`. */
  datatype Verdict = Accept(amount: real) | Refuse(reason: string)

  /** The stored decimals as the `u8` the conversion yields when it succeeds. */
  function U8Decimals(d: int): (r: nat)
    ensures 0 <= d < 256 ==> r == d
  {
    if 0 <= d < 256 then d else 0
  }

  /** The amount the inscription asks for: 0 without `amt`, otherwise `amt` read with the ticker's decimals. */
  function RequestedAmount(amt: Option<string>, decimals: nat, parseF64: string -> Option<real>): (r: Result<real>)
    ensures amt.None? ==> r == Ok(0.0)
    ensures amt.Some? ==> r == ConvertToFloat(amt.value, decimals, parseF64)
  {
    match amt
    case None => Ok(0.0)
    case Some(a) => ConvertToFloat(a, decimals, parseF64)
  }

  /**
    The checks of `validate_mint`, against the ticker document filed
    under the lower-cased tick. A requested amount above the limit, or a
    ticker already at its max supply, is refused; a request that would
    pass the max supply is cut down to what remains. An amount that does
    not convert is refused with the conversion's message. Err stands for
    the panic on decimals outside the range of `u8`.
   */
  function MintVerdict(ins: Inscription, tickers: map<string, TickerDoc>, parseF64: string -> Option<real>)
    : (r: Result<Verdict>)
    ensures ToLower(ins.tick) !in tickers ==> r == Ok(Refuse(TickerSymbolMissing))
    ensures r.Err? <==> ToLower(ins.tick) in tickers && ins.amt.Some? && !(0 <= tickers[ToLower(ins.tick)].decimals < 256)
    ensures r.Ok? && r.value.Accept? ==>
      var d := tickers[ToLower(ins.tick)];
      var req := RequestedAmount(ins.amt, U8Decimals(d.decimals), parseF64);
      && d.totalMinted < d.maxSupply
      && req.Ok? && req.value <= d.limit
      && r.value.amount == (if d.totalMinted + req.value > d.maxSupply then d.maxSupply - d.totalMinted else req.value)
      && r.value.amount <= d.limit
      && d.totalMinted + r.value.amount <= d.maxSupply
    ensures r.Ok? && ToLower(ins.tick) in tickers ==>
      var d := tickers[ToLower(ins.tick)];
      var req := RequestedAmount(ins.amt, U8Decimals(d.decimals), parseF64);
      req.Ok? && req.value <= d.limit && d.totalMinted < d.maxSupply ==> r.value.Accept?
    ensures r.Ok? && r.value.Refuse? && ToLower(ins.tick) in tickers ==>
      var d := tickers[ToLower(ins.tick)];
      var req := RequestedAmount(ins.amt, U8Decimals(d.decimals), parseF64);
      || (req.Err? && r.value.reason == req.error)
      || (req.Ok? && req.value > d.limit && r.value.reason == ExceedsLimit)
      || (req.Ok? && req.value <= d.limit && d.totalMinted >= d.maxSupply && r.value.reason == AtMaxSupply)
  {
    var key := ToLower(ins.tick);
    if key !in tickers then Ok(Refuse(TickerSymbolMissing))
    else
      var d := tickers[key];
      if ins.amt.Some? && !(0 <= d.decimals < 256) then Err(DecimalsNotU8)
      else
        match RequestedAmount(ins.amt, U8Decimals(d.decimals), parseF64)
        case Err(e) => Ok(Refuse(e))
        case Ok(a) =>
          if a > d.limit then Ok(Refuse(ExceedsLimit))
          else if d.totalMinted >= d.maxSupply then Ok(Refuse(AtMaxSupply))
          else if d.totalMinted + a > d.maxSupply then Ok(Accept(d.maxSupply - d.totalMinted))
          else Ok(Accept(a))
  }

  /**
    `validate_mint`: an accepted mint becomes valid with the accepted
    amount; a refused one keeps its amount and validity and, unless it was
    already valid, is recorded among the invalid inscriptions with the
    reason and its block height.
   */
  function ValidateMint(m: Brc20Mint, s: Store, parseF64: string -> Option<real>): (r: Result<(Brc20Mint, Store)>)
    ensures r.Err? <==> MintVerdict(m.inscription, s.tickers, parseF64).Err?
    ensures r.Ok? ==> r.value.0 == m.(isValid := r.value.0.isValid, amt := r.value.0.amt)
    ensures r.Ok? ==> r.value.1 == s.(invalids := r.value.1.invalids)
    ensures r.Ok? && MintVerdict(m.inscription, s.tickers, parseF64).value.Accept? ==>
      && r.value.0.isValid
      && r.value.0.amt == MintVerdict(m.inscription, s.tickers, parseF64).value.amount
      && r.value.1 == s
    ensures r.Ok? && MintVerdict(m.inscription, s.tickers, parseF64).value.Refuse? ==>
      && r.value.0 == m
      && (m.isValid ==> r.value.1 == s)
      && (!m.isValid ==>
           r.value.1.invalids == s.invalids + [InvalidDoc(m.tx.txid, m.inscription, MintVerdict(m.inscription, s.tickers, parseF64).value.reason, m.blockHeight)])
  {
    match MintVerdict(m.inscription, s.tickers, parseF64)
    case Err(e) => Err(e)
    case Ok(Accept(x)) => Ok((m.(isValid := true, amt := x), s))
    case Ok(Refuse(reason)) =>
      if m.isValid then Ok((m, s))
      else Ok((m, s.(invalids := s.invalids + [InvalidDoc(m.tx.txid, m.inscription, reason, m.blockHeight)])))
  }

  /** `Brc20Mint::to_document`: the stored form of a mint. */
  function ToMintDoc(m: Brc20Mint): (r: MintDoc)
    ensures r.to == m.to && r.isValid == m.isValid && r.txId == m.tx.txid && r.blockHeight == m.blockHeight
  {
    MintDoc(m.amt, m.blockHeight, m.txHeight, m.to, m.tx.txid, m.inscription, m.isValid)
  }

  /** Recalculating the totals over the stored mints counts a stored mint's amount for its own tick and for no other. */
  lemma {:induction false} StoredMintCountsForItsTick(mints: seq<MintDoc>, m: Brc20Mint, tick: string)
    ensures MintedFor(mints + [ToMintDoc(m)], tick) == MintedFor(mints, tick) + (if m.inscription.tick == tick then m.amt else 0.0)
  {
    MintedForAppend(mints, ToMintDoc(m), tick);
  }

  /** `validate_and_insert_mint`: validates a new mint and stores it when valid. */
  function ValidateAndInsertMint(
    s: Store, blockHeight: nat, txHeight: nat, owner: Address, ins: Inscription, raw: RawTxInfo,
    parseF64: string -> Option<real>)
    : (r: Result<(Brc20Mint, Store)>)
    ensures r.Err? <==> MintVerdict(ins, s.tickers, parseF64).Err?
    ensures r.Ok? ==>
      r.value.0 == NewMint(raw, ins, blockHeight, txHeight, owner).(isValid := r.value.0.isValid, amt := r.value.0.amt)
    ensures r.Ok? ==> (r.value.0.isValid <==> MintVerdict(ins, s.tickers, parseF64).value.Accept?)
    ensures r.Ok? && r.value.0.isValid ==>
      && r.value.1 == s.(mints := s.mints + [ToMintDoc(r.value.0)])
      && r.value.0.amt == MintVerdict(ins, s.tickers, parseF64).value.amount
    ensures r.Ok? && !r.value.0.isValid ==>
      && r.value.0.amt == 0.0
      && r.value.1 == s.(invalids := s.invalids + [InvalidDoc(raw.txid, ins, MintVerdict(ins, s.tickers, parseF64).value.reason, blockHeight)])
  {
    match ValidateMint(NewMint(raw, ins, blockHeight, txHeight, owner), s, parseF64)
    case Err(e) => Err(e)
    case Ok((m, s1)) =>
      if m.isValid then Ok((m, s1.(mints := s1.mints + [ToMintDoc(m)])))
      else Ok((m, s1))
  }

  /**
    `update_balances_and_ticker`: a valid mint is entered in the ledger as
    a receipt of its receiver, credited to the receiver's balance document
    and added to its ticker's total, all under the lower-cased tick. An
    invalid mint changes nothing.
   */
  function UpdateBalancesAndTicker(s: Store, m: Brc20Mint): (r: Store)
    ensures !m.isValid ==> r == s
    ensures m.isValid ==> var tick := ToLower(m.inscription.tick);
      && r.entries == s.entries + [BalanceEntry(m.to, tick, m.blockHeight, m.amt, Receive)]
      && r.balances == UpdateReceiverBalance(s, m.to, m.amt, tick).balances
      && r.tickers == UpdateTickerTotalMinted(s, tick, m.amt).tickers
      && r.mints == s.mints && r.invalids == s.invalids && r.blocksCompleted == s.blocksCompleted
  {
    if !m.isValid then s
    else
      var tick := ToLower(m.inscription.tick);
      var s1 := InsertUserBalanceEntry(s, m.to, m.amt, tick, m.blockHeight, Receive);
      var s2 := UpdateReceiverBalance(s1, m.to, m.amt, tick);
      UpdateTickerTotalMinted(s2, tick, m.amt)
  }

  /** `handle_mint_operation`: validates, stores and credits a mint; reports whether it was valid. */
  function HandleMintOperation(
    s: Store, blockHeight: nat, txHeight: nat, owner: Address, ins: Inscription, raw: RawTxInfo,
    parseF64: string -> Option<real>)
    : (r: Result<(bool, Store)>)
    ensures r.Err? <==> MintVerdict(ins, s.tickers, parseF64).Err?
    ensures r.Ok? ==> (r.value.0 <==> MintVerdict(ins, s.tickers, parseF64).value.Accept?)
    ensures r.Ok? && !r.value.0 ==>
      r.value.1 == s.(invalids := s.invalids + [InvalidDoc(raw.txid, ins, MintVerdict(ins, s.tickers, parseF64).value.reason, blockHeight)])
    ensures r.Ok? && r.value.0 ==>
      var m := NewMint(raw, ins, blockHeight, txHeight, owner).(isValid := true, amt := MintVerdict(ins, s.tickers, parseF64).value.amount);
      r.value.1 == UpdateBalancesAndTicker(s.(mints := s.mints + [ToMintDoc(m)]), m)
    ensures r.Ok? && r.value.0 ==>
      var tick := ToLower(ins.tick);
      var amount := MintVerdict(ins, s.tickers, parseF64).value.amount;
      var k := BalanceKey(owner, tick);
      && r.value.1.invalids == s.invalids
      && r.value.1.mints == s.mints + [ToMintDoc(NewMint(raw, ins, blockHeight, txHeight, owner).(isValid := true, amt := amount))]
      && r.value.1.entries == s.entries + [BalanceEntry(owner, tick, blockHeight, amount, Receive)]
      && tick in r.value.1.tickers
      && r.value.1.tickers[tick].totalMinted == s.tickers[tick].totalMinted + amount
      && k in r.value.1.balances
      && r.value.1.balances[k].overall == (if k in s.balances then s.balances[k].overall else 0.0) + amount
      && r.value.1.balances[k].available == (if k in s.balances then s.balances[k].available else 0.0) + amount
  {
    match ValidateAndInsertMint(s, blockHeight, txHeight, owner, ins, raw, parseF64)
    case Err(e) => Err(e)
    case Ok((m, s1)) =>
      if m.isValid then Ok((true, UpdateBalancesAndTicker(s1, m)))
      else Ok((false, s1))
  }

  /** No ticker has minted more than its max supply. */
  ghost predicate WithinSupply(tickers: map<string, TickerDoc>) {
    forall k :: k in tickers ==> tickers[k].totalMinted <= tickers[k].maxSupply
  }

  /** The state a sequence of mints keeps: ledger and documents agree, documents are consistent, supply is respected. */
  ghost predicate Sound(s: Store) {
    Synced(s) && Consistent(s.balances) && WithinSupply(s.tickers)
  }

  /** Crediting a valid mint keeps the ledger and the documents in step. */
  lemma CreditKeepsSynced(s: Store, m: Brc20Mint)
    requires Synced(s) && Consistent(s.balances)
    ensures Synced(UpdateBalancesAndTicker(s, m)) && Consistent(UpdateBalancesAndTicker(s, m).balances)
  {
    if m.isValid {
      ReceiveAgreesWithRebuild(s, m.to, m.amt, ToLower(m.inscription.tick), m.blockHeight);
    }
  }

  /** Crediting a mint that fits under its ticker's max supply keeps every ticker within its supply. */
  lemma CreditWithinSupply(s: Store, m: Brc20Mint)
    requires WithinSupply(s.tickers)
    requires var key := ToLower(m.inscription.tick);
      key in s.tickers ==> s.tickers[key].totalMinted + m.amt <= s.tickers[key].maxSupply
    ensures WithinSupply(UpdateBalancesAndTicker(s, m).tickers)
  {
  }

  /** Handling a mint keeps the ledger and the balance documents in step and never mints past the max supply. */
  lemma HandleMintKeepsSound(
    s: Store, blockHeight: nat, txHeight: nat, owner: Address, ins: Inscription, raw: RawTxInfo,
    parseF64: string -> Option<real>)
    requires Sound(s)
    ensures var r := HandleMintOperation(s, blockHeight, txHeight, owner, ins, raw, parseF64);
      r.Ok? ==> Sound(r.value.1)
  {
    var r := ValidateAndInsertMint(s, blockHeight, txHeight, owner, ins, raw, parseF64);
    if r.Ok? && r.value.0.isValid {
      var (m, s1) := r.value;
      assert s1.tickers == s.tickers && s1.balances == s.balances && s1.entries == s.entries;
      assert m.inscription == ins;
      CreditKeepsSynced(s1, m);
      CreditWithinSupply(s1, m);
    }
  }

  /** Handling a mint only adds to a ticker's total, so every ticker document stays filed under its own tick. */
  lemma HandleMintKeepsTickersKeyed(
    s: Store, blockHeight: nat, txHeight: nat, owner: Address, ins: Inscription, raw: RawTxInfo,
    parseF64: string -> Option<real>)
    requires TickersKeyed(s.tickers)
    ensures var r := HandleMintOperation(s, blockHeight, txHeight, owner, ins, raw, parseF64);
      r.Ok? ==> TickersKeyed(r.value.1.tickers)
  {
    var r := ValidateAndInsertMint(s, blockHeight, txHeight, owner, ins, raw, parseF64);
    if r.Ok? && r.value.0.isValid {
      var (m, s1) := r.value;
      UpdateTickerTotalMintedKeepsKeyed(s1, ToLower(m.inscription.tick), m.amt);
    }
  }

  /** Every ticker document is filed under its own tick, and its total is the sum of the stored mints of that tick. */
  ghost predicate TotalsMatchMints(s: Store) {
    && TickersKeyed(s.tickers)
    && (forall k :: k in s.tickers ==> s.tickers[k].totalMinted == MintedFor(s.mints, k))
  }

  /**
    For a mint whose tick is already lower case, the running total the
    mint keeps is the total `calculate_and_update_total_minted` recomputes
    from the stored mints.
   */
  lemma LowerCaseMintKeepsTotals(
    s: Store, blockHeight: nat, txHeight: nat, owner: Address, ins: Inscription, raw: RawTxInfo,
    parseF64: string -> Option<real>)
    requires TotalsMatchMints(s)
    requires ToLower(ins.tick) == ins.tick
    ensures var r := HandleMintOperation(s, blockHeight, txHeight, owner, ins, raw, parseF64);
      r.Ok? ==> TotalsMatchMints(r.value.1) && CalculateAndUpdateTotalMinted(r.value.1) == r.value.1
  {
    var r := ValidateAndInsertMint(s, blockHeight, txHeight, owner, ins, raw, parseF64);
    if r.Ok? && r.value.0.isValid {
      var (m, s1) := r.value;
      var md := ToMintDoc(m);
      forall k | k in s.tickers
        ensures MintedFor(s1.mints, k) == MintedFor(s.mints, k) + (if k == ins.tick then m.amt else 0.0)
      {
        MintedForAppend(s.mints, md, k);
      }
      var s2 := UpdateBalancesAndTicker(s1, m);
      assert TotalsMatchMints(s2);
      assert CalculateAndUpdateTotalMinted(s2).tickers == s2.tickers;
    }
    if r.Ok? && !r.value.0.isValid {
      assert CalculateAndUpdateTotalMinted(r.value.1).tickers == r.value.1.tickers;
    }
  }

  /**
    A mint inscribed with an upper-case tick is credited to the lower-cased
    ticker, but the recalculation compares ticks exactly and does not count
    it.
   */
  lemma UpperCaseMintMissedByRecalculation(s: Store, m: Brc20Mint)
    requires m.isValid && m.amt != 0.0 && m.inscription.tick == "ORDI"
    requires "ordi" in s.tickers && s.tickers["ordi"].tick == "ordi"
    ensures var s1 := UpdateBalancesAndTicker(s.(mints := s.mints + [ToMintDoc(m)]), m);
      && s1.tickers["ordi"].totalMinted == s.tickers["ordi"].totalMinted + m.amt
      && MintedFor(s1.mints, "ordi") == MintedFor(s.mints, "ordi")
  {
    assert ToLower("ORDI") == "ordi";
    assert "ORDI" != "ordi" by { assert "ORDI"[0] != "ordi"[0]; }
    MintedForAppend(s.mints, ToMintDoc(m), "ordi");
  }

  /**
    Nothing rejects a negative amount: a mint of "-5" against a ticker
    with room left is accepted for -5 when the float parse reads it so.
   */
  lemma NegativeMintAccepted(ins: Inscription, tickers: map<string, TickerDoc>, parseF64: string -> Option<real>)
    requires ins.amt == Some("-5") && parseF64("-5") == Some(-5.0)
    requires ToLower(ins.tick) in tickers
    requires var d := tickers[ToLower(ins.tick)];
      0 <= d.decimals < 256 && d.limit >= 0.0 && d.totalMinted < d.maxSupply
    ensures MintVerdict(ins, tickers, parseF64) == Ok(Accept(-5.0))
  {
    var d := tickers[ToLower(ins.tick)];
    CountZero("-5", '.');
    assert Split("-5", '.') == ["-5"] by { SplitWithoutSeparator("-5", '.'); }
  }
}

=== FILE: scan.dfy ===
/**
  The block walk of `index_brc20` (src/brc20_index.rs) and of
  `iterate_transactions` (src/main.rs). From the start height, each round
  asks the node for the block hash and then the block; a failure of
  either leaves the height as it is for the next round (after a pause),
  a fetched block is processed and the height advances. After every round
  the walk stops once the height has passed 800000. The node's answers
  for successive rounds are given as a list, so a walk ends when the list
  does.
 */
module Scanner {
  import opened Base
  import opened Chain
  import opened Witness
  import opened Indexer

  /** The height `main` starts the scan at, the first block with BRC-20 inscriptions. */
  const StartBlockHeight: nat := 779832
  /** The last height the walk processes. */
  const LastBlockHeight: nat := 800000

  /** One round's node calls: the hash lookup failed, the block fetch failed, or the block's transaction ids. */
  datatype Attempt = HashFailed | BlockFailed | Fetched(txids: seq<Txid>)

  /** How a walk ended: its result, the height it reached and the number of rounds it used. */
  datatype Outcome<S> = Outcome(result: Result<S>, height: nat, rounds: nat)

  /** The rounds of `attempts` that fetched a block. */
  function Fetches(attempts: seq<Attempt>): nat {
    if |attempts| == 0 then 0 else (if attempts[0].Fetched? then 1 else 0) + Fetches(attempts[1..])
  }

  /**
    The walk as a recursion over the rounds: `step` processes a fetched
    block at the current height; its error ends the walk at once.
   */
  function Walk<S>(s: S, height: nat, attempts: seq<Attempt>, step: (S, seq<Txid>, nat) -> Result<S>): (o: Outcome<S>)
    ensures o.rounds <= |attempts|
    ensures |attempts| > 0 ==> o.rounds >= 1
    decreases |attempts|
  {
    if |attempts| == 0 then Outcome(Ok(s), height, 0)
    else
      var next := if attempts[0].Fetched? then step(s, attempts[0].txids, height) else Ok(s);
      var h := if attempts[0].Fetched? then height + 1 else height;
      if next.Err? then Outcome(Err(next.error), height, 1)
      else if h > LastBlockHeight then Outcome(next, h, 1)
      else
        var o := Walk(next.value, h, attempts[1..], step);
        Outcome(o.result, o.height, o.rounds + 1)
  }

  /**
    The loop of `index_brc20` and `iterate_transactions`, round by round,
    from `init` at height `start`. It ends as the recursive walk does.
   */
  method ScanBlocks<S>(init: S, start: nat, attempts: seq<Attempt>, step: (S, seq<Txid>, nat) -> Result<S>)
    returns (o: Outcome<S>)
    ensures o == Walk(init, start, attempts, step)
  {
    var s := init;
    var height: nat := start;
    var used := 0;
    while used < |attempts|
      invariant 0 <= used <= |attempts|
      invariant var w := Walk(s, height, attempts[used..], step);
        Walk(init, start, attempts, step) == Outcome(w.result, w.height, w.rounds + used)
      decreases |attempts| - used
    {
      var rest := attempts[used..];
      assert rest[0] == attempts[used] && rest[1..] == attempts[used + 1..];
      var next := Ok(s);
      var h: nat := height;
      if attempts[used].Fetched? {
        next := step(s, attempts[used].txids, height);
        h := height + 1;
      }
      if next.Err? {
        return Outcome(Err(next.error), height, used + 1);
      }
      used := used + 1;
      s := next.value;
      height := h;
      if height > LastBlockHeight {
        return Outcome(Ok(s), height, used);
      }
    }
    assert attempts[used..] == [];
    return Outcome(Ok(s), height, used);
  }

  /** A walk that ends without error has advanced the height by one per fetched block of the rounds it used. */
  lemma {:induction false} WalkHeight<S>(s: S, height: nat, attempts: seq<Attempt>, step: (S, seq<Txid>, nat) -> Result<S>)
    ensures var o := Walk(s, height, attempts, step);
      o.result.Ok? ==> o.height == height + Fetches(attempts[..o.rounds])
    decreases |attempts|
  {
    var o := Walk(s, height, attempts, step);
    if |attempts| > 0 && o.result.Ok? {
      var next := if attempts[0].Fetched? then step(s, attempts[0].txids, height) else Ok(s);
      var h := if attempts[0].Fetched? then height + 1 else height;
      assert attempts[..o.rounds][0] == attempts[0];
      if h <= LastBlockHeight {
        WalkHeight(next.value, h, attempts[1..], step);
        assert attempts[..o.rounds][1..] == attempts[1..][..o.rounds - 1];
      } else {
        assert attempts[..1][1..] == [];
      }
    }
  }

  /**
    From a height at or below 800000, a walk that ends without error
    never goes past 800001, and when it ends before its rounds run out it
    stopped exactly there: block 800000 is the last one processed.
   */
  lemma {:induction false} WalkStopsAfterLastBlock<S>(s: S, height: nat, attempts: seq<Attempt>, step: (S, seq<Txid>, nat) -> Result<S>)
    requires height <= LastBlockHeight
    ensures var o := Walk(s, height, attempts, step);
      && (o.result.Ok? ==> o.height <= LastBlockHeight + 1)
      && (o.result.Ok? && o.rounds < |attempts| ==> o.height == LastBlockHeight + 1)
    decreases |attempts|
  {
    if |attempts| > 0 {
      var next := if attempts[0].Fetched? then step(s, attempts[0].txids, height) else Ok(s);
      var h := if attempts[0].Fetched? then height + 1 else height;
      if next.Ok? && h <= LastBlockHeight {
        WalkStopsAfterLastBlock(next.value, h, attempts[1..], step);
      }
    }
  }

  /** Started beyond 800000, the walk still runs one round, as the loop tests the height only at the end of a round. */
  lemma WalkBeyondLastBlockRunsOnce<S>(s: S, height: nat, attempts: seq<Attempt>, step: (S, seq<Txid>, nat) -> Result<S>)
    requires height > LastBlockHeight && |attempts| > 0
    ensures Walk(s, height, attempts, step).rounds == 1
  {
  }

  /** The per-block step of `index_brc20`. */
  function IndexStep(fetch: Txid -> Result<RawTxInfo>, env: Env): (Brc20Index, seq<Txid>, nat) -> Result<Brc20Index> {
    (ix: Brc20Index, txids: seq<Txid>, h: nat) => ProcessBlockFrom(ix, txids, 0, h, fetch, env)
  }

  /** Every block keeps the ledgers balanced, so the whole walk does. */
  lemma {:induction false} IndexWalkKeepsBalanced(
    ix: Brc20Index, height: nat, attempts: seq<Attempt>, fetch: Txid -> Result<RawTxInfo>, env: Env)
    requires Balanced(ix) && MintKeepsBalanced(env)
    ensures var o := Walk(ix, height, attempts, IndexStep(fetch, env));
      o.result.Ok? ==> Balanced(o.result.value)
    decreases |attempts|
  {
    if |attempts| > 0 {
      var step := IndexStep(fetch, env);
      var next := if attempts[0].Fetched? then step(ix, attempts[0].txids, height) else Ok(ix);
      var h := if attempts[0].Fetched? then height + 1 else height;
      if attempts[0].Fetched? {
        ProcessBlockFromKeepsBalanced(ix, attempts[0].txids, 0, height, fetch, env);
      }
      if next.Ok? && h <= LastBlockHeight {
        IndexWalkKeepsBalanced(next.value, h, attempts[1..], fetch, env);
      }
    }
  }

  /**
    `index_brc20`: walks the blocks from `start` with an empty index.
    Every ticker's overall balances add up to its minted amount at the
    end, given a mint validation that credits what it mints.
   */
  method IndexBrc20(start: nat, attempts: seq<Attempt>, fetch: Txid -> Result<RawTxInfo>, env: Env)
    returns (o: Outcome<Brc20Index>)
    ensures o == Walk(NewIndex(), start, attempts, IndexStep(fetch, env))
    ensures o.result.Ok? && MintKeepsBalanced(env) ==> Balanced(o.result.value)
    ensures o.result.Ok? && start <= LastBlockHeight ==> o.height <= LastBlockHeight + 1
  {
    o := ScanBlocks(NewIndex(), start, attempts, IndexStep(fetch, env));
    if MintKeepsBalanced(env) {
      IndexWalkKeepsBalanced(NewIndex(), start, attempts, fetch, env);
    }
    if start <= LastBlockHeight {
      WalkStopsAfterLastBlock(NewIndex(), start, attempts, IndexStep(fetch, env));
    }
  }

  /** A value whose `p` field is the string `brc-20`. */
  predicate IsBrc20Value(v: Json) {
    Field(v, "p") == JString(Protocol)
  }

  predicate AllBrc20(vs: seq<Json>) {
    forall j :: 0 <= j < |vs| ==> IsBrc20Value(vs[j])
  }

  lemma AllBrc20Append(a: seq<Json>, b: seq<Json>)
    ensures AllBrc20(a) && AllBrc20(b) ==> AllBrc20(a + b)
  {
    forall j | 0 <= j < |a + b| && AllBrc20(a) && AllBrc20(b) ensures IsBrc20Value((a + b)[j]) {
      if j >= |a| {
        assert (a + b)[j] == b[j - |a|];
      }
    }
  }

  /** The present values of a sequence of options, in order. */
  function Present<T>(xs: seq<Option<T>>): (r: seq<T>)
    ensures |r| <= |xs|
    decreases |xs|
  {
    if |xs| == 0 then [] else (if xs[0].Some? then [xs[0].value] else []) + Present(xs[1..])
  }

  /** No present value is dropped. */
  lemma {:induction false} PresentCovers<T>(xs: seq<Option<T>>, i: nat)
    requires i < |xs|
    ensures xs[i].Some? ==> xs[i].value in Present(xs)
    decreases |xs|
  {
    if i > 0 {
      assert xs[i] == xs[1..][i - 1];
      PresentCovers(xs[1..], i - 1);
    }
  }

  /** Present values that are all brc-20 values stay so. */
  lemma {:induction false} PresentAllBrc20(xs: seq<Option<Json>>)
    requires forall i :: 0 <= i < |xs| && xs[i].Some? ==> IsBrc20Value(xs[i].value)
    ensures AllBrc20(Present(xs))
    decreases |xs|
  {
    if |xs| > 0 {
      assert forall i :: 1 <= i < |xs| ==> xs[1..][i - 1] == xs[i];
      PresentAllBrc20(xs[1..]);
      AllBrc20Append(if xs[0].Some? then [xs[0].value] else [], Present(xs[1..]));
    }
  }

  /** What extraction gives for each witness item. */
  function Extractions(ws: seq<string>, parse: string -> Option<Json>): (r: seq<Option<Json>>)
    ensures |r| == |ws|
    ensures forall i :: 0 <= i < |ws| ==> r[i] == ExtractAndProcessWitnessValue(ws[i], parse)
  {
    seq(|ws|, i requires 0 <= i < |ws| => ExtractAndProcessWitnessValue(ws[i], parse))
  }

  /** The brc-20 values found in a list of witness items, in order. */
  function FoundValues(ws: seq<string>, parse: string -> Option<Json>): (r: seq<Json>)
    ensures |r| <= |ws|
    ensures AllBrc20(r)
  {
    var xs := Extractions(ws, parse);
    assert forall i :: 0 <= i < |xs| && xs[i].Some? ==> IsBrc20Value(xs[i].value);
    PresentAllBrc20(xs);
    Present(xs)
  }

  /** Nothing is missed: every brc-20 value among the items is collected. */
  lemma FoundValuesCovers(ws: seq<string>, parse: string -> Option<Json>, i: nat)
    requires i < |ws|
    ensures ExtractAndProcessWitnessValue(ws[i], parse).Some? ==>
      ExtractAndProcessWitnessValue(ws[i], parse).value in FoundValues(ws, parse)
  {
    PresentCovers(Extractions(ws, parse), i);
  }

  /**
    The body of `iterate_transactions` for one block: the witness items
    of each transaction's first input, fetched by txid, and the brc-20
    values found in them, appended to what was found before (the source
    logs them).
   */
  function LogBlockFrom(
    found: seq<Json>, txids: seq<Txid>, i: nat, fetch: Txid -> Result<RawTxInfo>, lossy: seq<byte> -> string,
    parse: string -> Option<Json>)
    : (r: Result<seq<Json>>)
    requires i <= |txids|
    ensures r.Ok? ==> |r.value| >= |found| && r.value[..|found|] == found
    ensures r.Ok? && AllBrc20(found) ==> AllBrc20(r.value)
    decreases |txids| - i
  {
    if i == |txids| then Ok(found)
    else
      match GetWitnessDataForTxid(FormatTxid(txids[i]), fetch, lossy)
      case Err(e) => Err(e)
      case Ok(ws) =>
        var more := found + FoundValues(ws, parse);
        AllBrc20Append(found, FoundValues(ws, parse));
        var r := LogBlockFrom(more, txids, i + 1, fetch, lossy, parse);
        assert r.Ok? ==> r.value[..|found|] == more[..|found|];
        r
  }

  function LogStep(fetch: Txid -> Result<RawTxInfo>, lossy: seq<byte> -> string, parse: string -> Option<Json>)
    : (seq<Json>, seq<Txid>, nat) -> Result<seq<Json>>
  {
    (found: seq<Json>, txids: seq<Txid>, h: nat) => LogBlockFrom(found, txids, 0, fetch, lossy, parse)
  }

  /** Every value the walk collects is a brc-20 value. */
  lemma {:induction false} LogWalkOnlyBrc20(
    found: seq<Json>, height: nat, attempts: seq<Attempt>, fetch: Txid -> Result<RawTxInfo>, lossy: seq<byte> -> string,
    parse: string -> Option<Json>)
    requires AllBrc20(found)
    ensures var o := Walk(found, height, attempts, LogStep(fetch, lossy, parse));
      o.result.Ok? ==> AllBrc20(o.result.value)
    decreases |attempts|
  {
    if |attempts| > 0 {
      var step := LogStep(fetch, lossy, parse);
      var next := if attempts[0].Fetched? then step(found, attempts[0].txids, height) else Ok(found);
      var h := if attempts[0].Fetched? then height + 1 else height;
      if next.Ok? && h <= LastBlockHeight {
        LogWalkOnlyBrc20(next.value, h, attempts[1..], fetch, lossy, parse);
      }
    }
  }

  /** `iterate_transactions`: walks the blocks from `start`, collecting every brc-20 value found. */
  method IterateTransactions(
    start: nat, attempts: seq<Attempt>, fetch: Txid -> Result<RawTxInfo>, lossy: seq<byte> -> string,
    parse: string -> Option<Json>)
    returns (o: Outcome<seq<Json>>)
    ensures o == Walk([], start, attempts, LogStep(fetch, lossy, parse))
    ensures o.result.Ok? ==> forall j :: 0 <= j < |o.result.value| ==> Field(o.result.value[j], "p") == JString(Protocol)
  {
    o := ScanBlocks([], start, attempts, LogStep(fetch, lossy, parse));
    LogWalkOnlyBrc20([], start, attempts, fetch, lossy, parse);
  }

  /** `main`: the scan from the first BRC-20 block; the node connection and logging are outside the model. */
  method RunFromStart(attempts: seq<Attempt>, fetch: Txid -> Result<RawTxInfo>, lossy: seq<byte> -> string, parse: string -> Option<Json>)
    returns (o: Outcome<seq<Json>>)
    ensures o == Walk([], StartBlockHeight, attempts, LogStep(fetch, lossy, parse))
    ensures o.result.Ok? ==> o.height <= LastBlockHeight + 1
  {
    o := IterateTransactions(StartBlockHeight, attempts, fetch, lossy, parse);
    WalkStopsAfterLastBlock([], StartBlockHeight, attempts, LogStep(fetch, lossy, parse));
  }
}

=== FILE: store.dfy ===
/**
  The document store the indexer keeps its state in
  (src/brc20_index/mongo.rs), with each collection as an in-memory value:
  tickers keyed by symbol, one balance document per (address, tick), and
  the append-only collections of balance entries, mints, invalid
  inscriptions and completed blocks.
 */
module Store {
  import opened Base
  import opened Chain
  import opened Witness

  /** A balance document: the three balances of one address for one tick. */
  datatype BalanceDoc = BalanceDoc(available: real, transferable: real, overall: real)

  /** The key of a balance document: the address and the tick. */
  datatype BalanceKey = BalanceKey(address: Address, tick: string)

  datatype EntryType = Receive | Send | Inscription

  /** One entry of the balance ledger, from which balances can be rebuilt. */
  datatype BalanceEntry = BalanceEntry(address: Address, tick: string, blockHeight: nat, amt: real, entryType: EntryType)

  datatype TickerDoc = TickerDoc(tick: string, limit: real, maxSupply: real, totalMinted: real, decimals: int)

  /** A stored mint, as `Brc20Mint::to_document` writes it. */
  datatype MintDoc = MintDoc(
    amt: real, blockHeight: nat, txHeight: nat, to: Address, txId: Txid, inscription: Inscription, isValid: bool)

  /** A stored rejected inscription. */
  datatype InvalidDoc = InvalidDoc(txId: Txid, inscription: Inscription, reason: string, blockHeight: nat)

  datatype Store = Store(
    tickers: map<string, TickerDoc>,
    balances: map<BalanceKey, BalanceDoc>,
    entries: seq<BalanceEntry>,
    mints: seq<MintDoc>,
    invalids: seq<InvalidDoc>,
    blocksCompleted: seq<int>)

  /** A balance document is consistent when what is available and what is locked add up to the overall balance. */
  predicate ConsistentDoc(d: BalanceDoc) {
    d.available + d.transferable == d.overall
  }

  ghost predicate Consistent(balances: map<BalanceKey, BalanceDoc>) {
    forall k :: k in balances ==> ConsistentDoc(balances[k])
  }

  /**
    Every ticker document is filed under its own tick. Lookups by key and
    the recalculation, which reads the document's `tick`, then agree on
    which document a tick names, as the single `tick` field does in the
    database.
   */
  ghost predicate TickersKeyed(tickers: map<string, TickerDoc>) {
    forall k :: k in tickers ==> tickers[k].tick == k
  }

  /**
    `update_receiver_balance_document`: an existing document gains the
    amount in its overall and available balances; without one, a document
    holding the amount as overall and available balance is created.
   */
  function UpdateReceiverBalance(s: Store, receiver: Address, amount: real, tick: string): (r: Store)
    ensures var k := BalanceKey(receiver, tick);
      && k in r.balances
      && (k in s.balances ==>
           r.balances[k] == s.balances[k].(overall := s.balances[k].overall + amount, available := s.balances[k].available + amount))
      && (k !in s.balances ==> r.balances[k] == BalanceDoc(amount, 0.0, amount))
      && r.balances.Keys == s.balances.Keys + {k}
      && (forall k' :: k' in s.balances && k' != k ==> r.balances[k'] == s.balances[k'])
    ensures Consistent(s.balances) ==> Consistent(r.balances)
    ensures r == s.(balances := r.balances)
  {
    var k := BalanceKey(receiver, tick);
    var d := if k in s.balances then s.balances[k] else BalanceDoc(0.0, 0.0, 0.0);
    var nd := if k in s.balances then d.(overall := d.overall + amount, available := d.available + amount)
              else BalanceDoc(amount, 0.0, amount);
    s.(balances := s.balances[k := nd])
  }

  /**
    `update_sender_user_balance_document`: the sender's document loses the
    amount from its overall and transferable balances; without a document
    nothing changes.
   */
  function UpdateSenderBalance(s: Store, sender: Address, amount: real, tick: string): (r: Store)
    ensures var k := BalanceKey(sender, tick);
      && (k !in s.balances ==> r == s)
      && (k in s.balances ==>
           r.balances == s.balances[k := s.balances[k].(overall := s.balances[k].overall - amount, transferable := s.balances[k].transferable - amount)])
    ensures Consistent(s.balances) ==> Consistent(r.balances)
    ensures r == s.(balances := r.balances)
  {
    var k := BalanceKey(sender, tick);
    if k !in s.balances then s
    else
      var d := s.balances[k];
      s.(balances := s.balances[k := d.(overall := d.overall - amount, transferable := d.transferable - amount)])
  }

  /**
    `update_transfer_inscriber_user_balance_document`: from the document
    the caller read, the amount moves from available to transferable and
    both are written to the stored document, which keeps its overall
    balance; without a stored document nothing changes (no upsert).
   */
  function UpdateTransferInscriberBalance(s: Store, from: Address, amount: real, tick: string, read: BalanceDoc)
    : (r: Store)
    ensures var k := BalanceKey(from, tick);
      && (k !in s.balances ==> r == s)
      && (k in s.balances ==>
           r.balances == s.balances[k := BalanceDoc(read.available - amount, read.transferable + amount, s.balances[k].overall)])
    ensures var k := BalanceKey(from, tick);
      Consistent(s.balances) && k in s.balances && read == s.balances[k] ==> Consistent(r.balances)
    ensures r == s.(balances := r.balances)
  {
    var k := BalanceKey(from, tick);
    if k !in s.balances then s
    else s.(balances := s.balances[k := BalanceDoc(read.available - amount, read.transferable + amount, s.balances[k].overall)])
  }

  /** `update_brc20_ticker_total_minted`: adds to the ticker's total; an unknown tick changes nothing. */
  function UpdateTickerTotalMinted(s: Store, tick: string, amount: real): (r: Store)
    ensures tick !in s.tickers ==> r == s
    ensures tick in s.tickers ==> r.tickers == s.tickers[tick := s.tickers[tick].(totalMinted := s.tickers[tick].totalMinted + amount)]
    ensures r == s.(tickers := r.tickers)
  {
    if tick !in s.tickers then s
    else s.(tickers := s.tickers[tick := s.tickers[tick].(totalMinted := s.tickers[tick].totalMinted + amount)])
  }

  /** Adding to a ticker's total changes no tick, so every ticker document stays filed under its own tick. */
  lemma UpdateTickerTotalMintedKeepsKeyed(s: Store, tick: string, amount: real)
    requires TickersKeyed(s.tickers)
    ensures TickersKeyed(UpdateTickerTotalMinted(s, tick, amount).tickers)
  {
    var r := UpdateTickerTotalMinted(s, tick, amount);
    forall k | k in r.tickers
      ensures r.tickers[k].tick == k
    {
      assert k in s.tickers;
    }
  }

  /** `insert_user_balance_entry`: appends one entry to the ledger. */
  function InsertUserBalanceEntry(s: Store, address: Address, amount: real, tick: string, height: nat, t: EntryType)
    : (r: Store)
    ensures r.entries == s.entries + [BalanceEntry(address, tick, height, amount, t)]
    ensures r == s.(entries := r.entries)
  {
    s.(entries := s.entries + [BalanceEntry(address, tick, height, amount, t)])
  }

  /** `store_completed_block`: records a completed height. */
  function StoreCompletedBlock(s: Store, height: int): (r: Store)
    ensures r.blocksCompleted == s.blocksCompleted + [height]
    ensures r == s.(blocksCompleted := r.blocksCompleted)
  {
    s.(blocksCompleted := s.blocksCompleted + [height])
  }

  /**
    `get_last_completed_block_height`: the largest completed height, found
    by a descending sort on the height; None when no block was completed.
   */
  method GetLastCompletedBlockHeight(s: Store) returns (r: Option<int>)
    ensures r.None? <==> |s.blocksCompleted| == 0
    ensures r.Some? ==> r.value in s.blocksCompleted
    ensures r.Some? ==> forall i :: 0 <= i < |s.blocksCompleted| ==> s.blocksCompleted[i] <= r.value
  {
    var hs := s.blocksCompleted;
    if |hs| == 0 {
      return None;
    }
    var best := hs[0];
    var i := 1;
    while i < |hs|
      invariant 1 <= i <= |hs|
      invariant best in hs[..i]
      invariant forall j :: 0 <= j < i ==> hs[j] <= best
    {
      if hs[i] > best {
        best := hs[i];
      }
      i := i + 1;
    }
    assert hs[..i] == hs;
    return Some(best);
  }

  /**
    `delete_from_collection`: removes every document whose block height is
    at least `start` and keeps the others, in their order.
   */
  function DeleteFromCollection<T>(docs: seq<T>, heightOf: T -> int, start: int): (r: seq<T>)
    ensures forall i :: 0 <= i < |r| ==> heightOf(r[i]) < start
    ensures forall i :: 0 <= i < |r| ==> r[i] in docs
    ensures forall i :: 0 <= i < |docs| && heightOf(docs[i]) < start ==> docs[i] in r
    ensures |r| <= |docs|
    decreases |docs|
  {
    if |docs| == 0 then []
    else
      var rest := DeleteFromCollection(docs[..|docs| - 1], heightOf, start);
      var last := docs[|docs| - 1];
      assert forall i :: 0 <= i < |docs| - 1 ==> docs[..|docs| - 1][i] == docs[i];
      if heightOf(last) < start then rest + [last] else rest
  }

  /**
    Deleting keeps every copy of a kept document: each document below
    `start` occurs as often afterwards as before, and every other one not
    at all.
   */
  lemma {:induction false} DeleteFromCollectionCounts<T>(docs: seq<T>, heightOf: T -> int, start: int)
    ensures var r := DeleteFromCollection(docs, heightOf, start);
      forall x :: multiset(r)[x] == if heightOf(x) < start then multiset(docs)[x] else 0
    decreases |docs|
  {
    if |docs| > 0 {
      var init := docs[..|docs| - 1];
      var last := docs[|docs| - 1];
      DeleteFromCollectionCounts(init, heightOf, start);
      assert docs == init + [last];
    }
  }

  /**
    Deleting works document by document and keeps the order: the kept part
    of a concatenation is the kept part of each half, one after the other.
   */
  lemma {:induction false} DeleteFromCollectionAppend<T>(a: seq<T>, b: seq<T>, heightOf: T -> int, start: int)
    ensures DeleteFromCollection(a + b, heightOf, start)
      == DeleteFromCollection(a, heightOf, start) + DeleteFromCollection(b, heightOf, start)
    decreases |b|
  {
    if |b| == 0 {
      assert a + b == a;
    } else {
      var b' := b[..|b| - 1];
      var y := b[|b| - 1];
      assert (a + b)[..|a + b| - 1] == a + b';
      assert (a + b)[|a + b| - 1] == y;
      DeleteFromCollectionAppend(a, b', heightOf, start);
    }
  }

  /** A single document is kept exactly when it lies below `start`. */
  lemma DeleteFromCollectionSingle<T>(x: T, heightOf: T -> int, start: int)
    ensures DeleteFromCollection([x], heightOf, start) == if heightOf(x) < start then [x] else []
  {
    assert [x][..0] == [];
  }

  /** Deleting from a height on and then from a later height deletes nothing more. */
  lemma {:induction false} DeleteFromCollectionIdempotent<T>(docs: seq<T>, heightOf: T -> int, start: int, later: int)
    requires start <= later
    ensures DeleteFromCollection(DeleteFromCollection(docs, heightOf, start), heightOf, later)
      == DeleteFromCollection(docs, heightOf, start)
    decreases |docs|
  {
    if |docs| > 0 {
      var init := docs[..|docs| - 1];
      var last := docs[|docs| - 1];
      var rest := DeleteFromCollection(init, heightOf, start);
      DeleteFromCollectionIdempotent(init, heightOf, start, later);
      if heightOf(last) < start {
        assert (rest + [last])[..|rest|] == rest;
      }
    }
  }

  /** `reset_tickers_total_minted`: every ticker's total goes back to 0. */
  function ResetTickersTotalMinted(s: Store): (r: Store)
    ensures r.tickers.Keys == s.tickers.Keys
    ensures forall t :: t in r.tickers ==> r.tickers[t] == s.tickers[t].(totalMinted := 0.0)
    ensures r == s.(tickers := r.tickers)
    ensures TickersKeyed(s.tickers) ==> TickersKeyed(r.tickers)
  {
    s.(tickers := map t | t in s.tickers :: s.tickers[t].(totalMinted := 0.0))
  }

  /** The sum of the amounts of the stored mints whose inscription names `tick`. */
  function MintedFor(mints: seq<MintDoc>, tick: string): real
    decreases |mints|
  {
    if |mints| == 0 then 0.0
    else MintedFor(mints[..|mints| - 1], tick) + (if mints[|mints| - 1].inscription.tick == tick then mints[|mints| - 1].amt else 0.0)
  }

  /**
    `calculate_and_update_total_minted`: every ticker's total becomes the
    sum of the stored mints whose inscription's tick equals the ticker's.
   */
  function CalculateAndUpdateTotalMinted(s: Store): (r: Store)
    ensures r.tickers.Keys == s.tickers.Keys
    ensures forall t :: t in r.tickers ==>
      r.tickers[t] == s.tickers[t].(totalMinted := MintedFor(s.mints, s.tickers[t].tick))
    ensures r == s.(tickers := r.tickers)
    ensures TickersKeyed(s.tickers) ==> TickersKeyed(r.tickers)
    ensures TickersKeyed(s.tickers) ==> forall t :: t in r.tickers ==> r.tickers[t].totalMinted == MintedFor(s.mints, t)
  {
    s.(tickers := map t | t in s.tickers :: s.tickers[t].(totalMinted := MintedFor(s.mints, s.tickers[t].tick)))
  }

  /** Recalculating the totals after more mints of one tick raises that ticker's total by their amount. */
  lemma {:induction false} MintedForAppend(mints: seq<MintDoc>, m: MintDoc, tick: string)
    ensures MintedFor(mints + [m], tick) == MintedFor(mints, tick) + (if m.inscription.tick == tick then m.amt else 0.0)
  {
    assert (mints + [m])[..|mints|] == mints;
  }

  /** The empty balance document an entry starts from. */
  const ZeroDoc: BalanceDoc := BalanceDoc(0.0, 0.0, 0.0)

  /** The effect of one ledger entry on its balance document, as the rebuild applies it. */
  function ApplyEntry(d: BalanceDoc, t: EntryType, amt: real): (r: BalanceDoc)
    ensures ConsistentDoc(d) ==> ConsistentDoc(r)
    ensures t == Receive ==> r.available == d.available + amt && r.overall == d.overall + amt && r.transferable == d.transferable
    ensures t == Send ==> r.transferable == d.transferable - amt && r.overall == d.overall - amt && r.available == d.available
    ensures t == EntryType.Inscription ==> r.available == d.available - amt && r.transferable == d.transferable + amt && r.overall == d.overall
  {
    match t
    case Receive => d.(available := d.available + amt, overall := d.overall + amt)
    case Send => d.(transferable := d.transferable - amt, overall := d.overall - amt)
    case Inscription => d.(available := d.available - amt, transferable := d.transferable + amt)
  }

  /** The balance documents the ledger `es` rebuilds to: every entry applied in order, each key starting from zero. */
  function Rebuild(es: seq<BalanceEntry>): map<BalanceKey, BalanceDoc>
    decreases |es|
  {
    if |es| == 0 then map[]
    else
      var m := Rebuild(es[..|es| - 1]);
      var e := es[|es| - 1];
      var k := BalanceKey(e.address, e.tick);
      m[k := ApplyEntry(if k in m then m[k] else ZeroDoc, e.entryType, e.amt)]
  }

  /** Every rebuilt document is consistent. */
  lemma {:induction false} RebuildConsistent(es: seq<BalanceEntry>)
    ensures Consistent(Rebuild(es))
    decreases |es|
  {
    if |es| > 0 {
      RebuildConsistent(es[..|es| - 1]);
    }
  }

  /**
    `rebuild_user_balances`: folds the ledger into one document per
    (address, tick), starting each from zero. Every document it produces
    keeps available + transferable == overall.
   */
  method RebuildUserBalances(es: seq<BalanceEntry>) returns (balances: map<BalanceKey, BalanceDoc>)
    ensures balances == Rebuild(es)
    ensures Consistent(balances)
    ensures forall k :: k in balances <==> exists i :: 0 <= i < |es| && k == BalanceKey(es[i].address, es[i].tick)
  {
    balances := map[];
    var i := 0;
    while i < |es|
      invariant 0 <= i <= |es|
      invariant balances == Rebuild(es[..i])
      invariant Consistent(balances)
      invariant forall k :: k in balances <==> exists j :: 0 <= j < i && k == BalanceKey(es[j].address, es[j].tick)
    {
      var e := es[i];
      var k := BalanceKey(e.address, e.tick);
      var d := if k in balances then balances[k] else ZeroDoc;
      assert es[..i + 1][..i] == es[..i];
      balances := balances[k := ApplyEntry(d, e.entryType, e.amt)];
      i := i + 1;
    }
    assert es[..i] == es;
  }

  /** The ledger and the balance documents agree: the documents are what the ledger rebuilds to. */
  ghost predicate Synced(s: Store) {
    s.balances == Rebuild(s.entries)
  }

  /**
    Recording a Receive entry and updating the receiver's document
    incrementally gives the documents a rebuild of the longer ledger gives.
   */
  lemma ReceiveAgreesWithRebuild(s: Store, receiver: Address, amount: real, tick: string, height: nat)
    requires Synced(s)
    ensures Synced(UpdateReceiverBalance(InsertUserBalanceEntry(s, receiver, amount, tick, height, Receive), receiver, amount, tick))
  {
    var es := s.entries + [BalanceEntry(receiver, tick, height, amount, Receive)];
    assert es[..|es| - 1] == s.entries;
  }

  /**
    Recording a Send entry for a sender that has a document, and updating
    that document incrementally, gives what the rebuild of the longer
    ledger gives.
   */
  lemma SendAgreesWithRebuild(s: Store, sender: Address, amount: real, tick: string, height: nat)
    requires Synced(s) && BalanceKey(sender, tick) in s.balances
    ensures Synced(UpdateSenderBalance(InsertUserBalanceEntry(s, sender, amount, tick, height, Send), sender, amount, tick))
  {
    var es := s.entries + [BalanceEntry(sender, tick, height, amount, Send)];
    assert es[..|es| - 1] == s.entries;
  }

  /**
    Recording an Inscription entry and moving the amount with the
    inscriber update, from the stored document, gives what the rebuild of
    the longer ledger gives.
   */
  lemma InscriptionAgreesWithRebuild(s: Store, from: Address, amount: real, tick: string, height: nat)
    requires Synced(s) && BalanceKey(from, tick) in s.balances
    ensures var s1 := InsertUserBalanceEntry(s, from, amount, tick, height, EntryType.Inscription);
      Synced(UpdateTransferInscriberBalance(s1, from, amount, tick, s.balances[BalanceKey(from, tick)]))
  {
    var es := s.entries + [BalanceEntry(from, tick, height, amount, EntryType.Inscription)];
    assert es[..|es| - 1] == s.entries;
  }
}

=== FILE: text.dfy ===
/**
  String operations of Rust's `str` that the indexer relies on: substring
  search (`find`, `rfind`), `split`, `join`, `len` (a UTF-8 byte count) and
  lower-casing. Strings are sequences of Unicode scalar values; every index
  here is a character index. The patterns the indexer searches for are
  ASCII, so character positions and Rust's byte positions delimit the same
  substrings.
 */
module Text {
  import opened Base

  /** `pat` occurs in `s` starting at position `i`. */
  predicate MatchesAt(s: string, pat: string, i: nat) {
    i + |pat| <= |s| && s[i..i + |pat|] == pat
  }

  /** Rust's `str::contains`. */
  predicate Contains(s: string, pat: string) {
    exists i: nat | i <= |s| :: MatchesAt(s, pat, i)
  }

  function FindFrom(s: string, pat: string, k: nat): (r: Option<nat>)
    requires k <= |s|
    ensures r.Some? ==> k <= r.value && MatchesAt(s, pat, r.value)
    ensures r.Some? ==> forall j: nat :: k <= j < r.value ==> !MatchesAt(s, pat, j)
    ensures r.None? ==> forall j: nat :: k <= j ==> !MatchesAt(s, pat, j)
    decreases |s| - k
  {
    if MatchesAt(s, pat, k) then Some(k)
    else if k == |s| then None
    else FindFrom(s, pat, k + 1)
  }

  /** Rust's `str::find` with a string pattern: the first occurrence. */
  function Find(s: string, pat: string): (r: Option<nat>)
    ensures r.None? <==> !Contains(s, pat)
    ensures r.Some? ==> MatchesAt(s, pat, r.value)
    ensures r.Some? ==> forall j: nat :: j < r.value ==> !MatchesAt(s, pat, j)
  {
    FindFrom(s, pat, 0)
  }

  /** Rust's `str::find` with a `char` pattern: the first position holding `c`. */
  function FindChar(s: string, c: char): (r: Option<nat>)
    ensures r.Some? ==> r.value < |s| && s[r.value] == c
    ensures r.Some? ==> forall j :: 0 <= j < r.value ==> s[j] != c
    ensures r.None? <==> c !in s
  {
    if |s| == 0 then None
    else if s[0] == c then Some(0)
    else
      match FindChar(s[1..], c)
      case None => None
      case Some(i) => Some(i + 1)
  }

  /** Rust's `str::rfind` with a `char` pattern: the last position holding `c`. */
  function RFindChar(s: string, c: char): (r: Option<nat>)
    ensures r.Some? ==> r.value < |s| && s[r.value] == c
    ensures r.Some? ==> forall j :: r.value < j < |s| ==> s[j] != c
    ensures r.None? <==> c !in s
  {
    if |s| == 0 then None
    else if s[|s| - 1] == c then Some(|s| - 1)
    else
      assert s == s[..|s| - 1] + [s[|s| - 1]];
      RFindChar(s[..|s| - 1], c)
  }

  /** Number of occurrences of `c` in `s`. */
  function Count(s: string, c: char): nat {
    if |s| == 0 then 0
    else (if s[0] == c then 1 else 0) + Count(s[1..], c)
  }

  lemma {:induction false} CountZero(s: string, c: char)
    ensures Count(s, c) == 0 <==> c !in s
    decreases |s|
  {
    if |s| > 0 {
      CountZero(s[1..], c);
      assert s == [s[0]] + s[1..];
    }
  }

  /** Rust's `str::split` with a `char` separator: `n` separators give `n + 1` parts. */
  function Split(s: string, sep: char): (parts: seq<string>)
    ensures |parts| == Count(s, sep) + 1
    ensures forall i :: 0 <= i < |parts| ==> sep !in parts[i]
    decreases |s|
  {
    if |s| == 0 then [""]
    else
      var rest := Split(s[1..], sep);
      if s[0] == sep then [""] + rest
      else [[s[0]] + rest[0]] + rest[1..]
  }

  /** Rust's `[String]::join`. */
  function Join(parts: seq<string>, sep: string): string
    decreases |parts|
  {
    if |parts| == 0 then ""
    else if |parts| == 1 then parts[0]
    else parts[0] + sep + Join(parts[1..], sep)
  }

  /** Joining the parts of a split with the separator gives back the original string. */
  lemma {:induction false} JoinSplit(s: string, sep: char)
    ensures Join(Split(s, sep), [sep]) == s
    decreases |s|
  {
    if |s| > 0 {
      var rest := Split(s[1..], sep);
      JoinSplit(s[1..], sep);
      if s[0] == sep {
        assert Split(s, sep) == [""] + rest;
        assert ([""] + rest)[1..] == rest;
      } else {
        var parts := Split(s, sep);
        assert parts == [[s[0]] + rest[0]] + rest[1..];
        if |rest| == 1 {
          assert s == [s[0]] + s[1..];
        } else {
          assert parts[1..] == rest[1..];
          assert Join(rest, [sep]) == rest[0] + [sep] + Join(rest[1..], [sep]);
          assert s == [s[0]] + s[1..];
        }
      }
    }
  }

  /** With exactly one separator, `split` yields the text before it and the text after it. */
  lemma {:induction false} SplitAtOnlySeparator(s: string, sep: char, i: nat)
    requires i < |s| && s[i] == sep && Count(s, sep) == 1
    ensures Split(s, sep) == [s[..i], s[i + 1..]]
    decreases |s|
  {
    if i == 0 {
      assert s[1..] == s[i + 1..];
      CountZero(s[1..], sep);
      SplitWithoutSeparator(s[1..], sep);
    } else {
      assert s[0] != sep by {
        assert s[1..][i - 1] == sep;
        CountZero(s[1..], sep);
      }
      SplitAtOnlySeparator(s[1..], sep, i - 1);
      assert s[1..][..i - 1] == s[1..i];
      assert s[1..][i..] == s[i + 1..];
      assert [s[0]] + s[1..i] == s[..i];
    }
  }

  lemma {:induction false} SplitWithoutSeparator(s: string, sep: char)
    requires sep !in s
    ensures Split(s, sep) == [s]
    decreases |s|
  {
    if |s| > 0 {
      assert sep !in s[1..] by {
        forall j | 0 <= j < |s[1..]| ensures s[1..][j] != sep {
          assert s[1..][j] == s[j + 1];
        }
      }
      SplitWithoutSeparator(s[1..], sep);
      assert s == [s[0]] + s[1..];
    }
  }

  /** ASCII lower-casing of one character; other characters are unchanged. */
  function LowerChar(c: char): char {
    if 'A' <= c <= 'Z' then (c as int + 32) as char else c
  }

  /** `str::to_lowercase`, restricted to ASCII letters. */
  function ToLower(s: string): (r: string)
    ensures |r| == |s|
    ensures forall i :: 0 <= i < |s| ==> r[i] == LowerChar(s[i])
  {
    seq(|s|, i requires 0 <= i < |s| => LowerChar(s[i]))
  }

  /** Lower-casing twice is lower-casing once. */
  lemma ToLowerIdempotent(s: string)
    ensures ToLower(ToLower(s)) == ToLower(s)
  {
  }

  /** Number of bytes the UTF-8 encoding of `c` takes. */
  function Utf8Width(c: char): nat {
    if c as int < 0x80 then 1
    else if c as int < 0x800 then 2
    else if c as int < 0x1_0000 then 3
    else 4
  }

  /** `str::len`: the length in bytes of the UTF-8 encoding of `s`. */
  function Utf8Len(s: string): nat
    decreases |s|
  {
    if |s| == 0 then 0 else Utf8Width(s[0]) + Utf8Len(s[1..])
  }

  /** A string never takes fewer bytes than characters, and ASCII text takes exactly one byte per character. */
  lemma {:induction false} Utf8LenBounds(s: string)
    ensures |s| <= Utf8Len(s) <= 4 * |s|
    ensures (forall i :: 0 <= i < |s| ==> s[i] as int < 0x80) ==> Utf8Len(s) == |s|
    decreases |s|
  {
    if |s| > 0 {
      Utf8LenBounds(s[1..]);
      assert forall i :: 0 <= i < |s[1..]| ==> s[1..][i] == s[i + 1];
    }
  }
}

=== FILE: ticker.dfy ===
/**
  A deployed BRC-20 token and its per-address balances
  (src/brc20_index/brc20_ticker.rs).
 */
module Tickers {
  import opened Base
  import opened Text
  import opened Chain
  import opened Assoc
  import opened TransferTxs
  import opened UserBalances
  import opened Deploys

  datatype Ticker = Ticker(
    ticker: string,
    limit: real,
    maxSupply: real,
    totalMinted: real,
    decimals: nat,
    deployTx: DeployTx,
    mints: seq<MintTx>,
    transfers: seq<TransferTx>,
    balances: Entries<Address, UserBalance>)

  /** Balances form a map from address to balance, and each balance is well formed. */
  ghost predicate Valid(t: Ticker) {
    && UniqueKeys(t.balances)
    && forall i :: 0 <= i < |t.balances| ==> UserBalances.Valid(t.balances[i].1)
  }

  /**
    `Brc20Ticker::new`: the symbol as inscribed and the limit, max supply
    and decimals the deploy settled on; nothing minted, no balances.
   */
  function NewTicker(d: DeployTx): (t: Ticker)
    ensures t.ticker == d.script.tick && t.limit == d.limit && t.maxSupply == d.maxSupply
    ensures t.decimals == d.decimals && t.deployTx == d
    ensures t.totalMinted == 0.0 && t.mints == [] && t.transfers == [] && t.balances == []
    ensures Valid(t)
  {
    Ticker(d.script.tick, d.limit, d.maxSupply, 0.0, d.decimals, d, [], [], [])
  }

  /** `get_ticker`: the symbol in lower case, the key tickers are filed under. */
  function GetTicker(t: Ticker): (s: string)
    ensures |s| == |t.ticker|
    ensures forall i :: 0 <= i < |s| ==> !('A' <= s[i] <= 'Z')
    ensures forall i :: 0 <= i < |s| ==> s[i] == t.ticker[i] || s[i] as int == t.ticker[i] as int + 32
  {
    ToLower(t.ticker)
  }

  /** A symbol that differs only in letter case is filed under the same key. */
  lemma GetTickerIgnoresCase(t: Ticker, u: Ticker)
    requires ToLower(t.ticker) == ToLower(u.ticker)
    ensures GetTicker(t) == GetTicker(u)
    ensures ToLower(GetTicker(t)) == GetTicker(t)
  {
    ToLowerIdempotent(t.ticker);
  }

  /** `get_total_minted_from_mint_txs`: the sum of the recorded mint amounts. */
  function GetTotalMintedFromMintTxs(t: Ticker): (r: real)
    ensures |t.mints| == 0 ==> r == 0.0
    ensures forall m :: SumMints(t.mints + [m]) == r + m.amount
  {
    forall m ensures SumMints(t.mints + [m]) == SumMints(t.mints) + m.amount {
      SumMintsAppend(t.mints, m);
    }
    SumMints(t.mints)
  }

  /** Whether the balance at position `i` holds an inscription at `op`. */
  predicate HoldsAt(bs: Entries<Address, UserBalance>, i: int, op: OutPoint)
    requires 0 <= i < |bs|
  {
    IsActiveInscription(bs[i].1, op)
  }

  /** Some balance of `bs` holds an inscription at `op`. */
  predicate AnyHolds(bs: Entries<Address, UserBalance>, op: OutPoint) {
    exists i :: 0 <= i < |bs| && HoldsAt(bs, i, op)
  }

  /** `has_active_transfer_inscription`: some balance holds an inscription at `op`. */
  function HasActiveTransferInscription(t: Ticker, op: OutPoint): (r: bool)
    ensures r <==> exists i :: 0 <= i < |t.balances| && HasKey(t.balances[i].1.active, op)
  {
    assert forall i :: 0 <= i < |t.balances| ==> (HoldsAt(t.balances, i, op) <==> HasKey(t.balances[i].1.active, op));
    AnyHolds(t.balances, op)
  }

  /** The position of the first balance of `bs` that holds an inscription at `op`. */
  function FirstHolder(bs: Entries<Address, UserBalance>, op: OutPoint): (r: Option<nat>)
    ensures r.None? <==> !AnyHolds(bs, op)
    ensures r.Some? ==> r.value < |bs| && HoldsAt(bs, r.value, op)
    ensures r.Some? ==> forall j :: 0 <= j < r.value ==> !HoldsAt(bs, j, op)
    decreases |bs|
  {
    if |bs| == 0 then None
    else if IsActiveInscription(bs[0].1, op) then
      assert HoldsAt(bs, 0, op);
      Some(0)
    else
      var r := FirstHolder(bs[1..], op);
      assert !HoldsAt(bs, 0, op);
      assert forall j :: 1 <= j < |bs| ==> (HoldsAt(bs, j, op) <==> HoldsAt(bs[1..], j - 1, op));
      if r.None? then None
      else
        assert HoldsAt(bs, r.value + 1, op);
        Some(r.value + 1)
  }

  /**
    The search of `get_and_remove_active_transfer_inscription`: the balances
    are visited in order and the first one that holds `op` gives up its
    inscription; the removals tried on earlier balances found nothing and
    changed nothing.
   */
  function RemoveFromFirstHolder(bs: Entries<Address, UserBalance>, op: OutPoint)
    : (r: (Entries<Address, UserBalance>, Option<TransferTx>))
    ensures r.1.None? <==> !AnyHolds(bs, op)
    ensures r.1.None? ==> r.0 == bs
    ensures r.1.Some? ==> exists i :: (
      && 0 <= i < |bs| && HoldsAt(bs, i, op)
      && (forall j :: 0 <= j < i ==> !HoldsAt(bs, j, op))
      && r.1 == Get(bs[i].1.active, op)
      && r.0 == bs[i := (bs[i].0, RemoveInscription(bs[i].1, op).0)])
  {
    match FirstHolder(bs, op)
    case None => (bs, None)
    case Some(i) =>
      var (b, got) := RemoveInscription(bs[i].1, op);
      (bs[i := (bs[i].0, b)], got)
  }

  /**
    `get_and_remove_active_transfer_inscription`: None exactly when no
    balance holds `op`; otherwise the entry of the first balance (in
    iteration order) that holds it, which no longer holds it afterwards.
   */
  function GetAndRemoveActiveTransferInscription(t: Ticker, op: OutPoint): (r: (Ticker, Option<TransferTx>))
    ensures r.1.None? <==> !HasActiveTransferInscription(t, op)
    ensures r.1.None? ==> r.0 == t
    ensures r.1.Some? ==> exists i :: (
      && 0 <= i < |t.balances|
      && r.1 == Get(t.balances[i].1.active, op)
      && r.0.balances == t.balances[i := (t.balances[i].0, RemoveInscription(t.balances[i].1, op).0)]
      && !IsActiveInscription(r.0.balances[i].1, op))
    ensures r.0 == t.(balances := r.0.balances)
  {
    var (bs, got) := RemoveFromFirstHolder(t.balances, op);
    (t.(balances := bs), got)
  }

  /** The balance of `a`, or a fresh one when `a` has none yet. */
  function BalanceOrNew(t: Ticker, a: Address): (b: UserBalance)
    ensures Get(t.balances, a).Some? ==> b == Get(t.balances, a).value
    ensures Get(t.balances, a).None? ==> b == NewUserBalance()
  {
    match Get(t.balances, a)
    case Some(b) => b
    case None => NewUserBalance()
  }

  /**
    Stores `b` as the balance of `a`; every other address keeps its
    balance, and the ticker's other fields do not change.
   */
  function SetBalance(t: Ticker, a: Address, b: UserBalance): (r: Ticker)
    ensures Get(r.balances, a) == Some(b)
    ensures forall a' :: a' != a ==> Get(r.balances, a') == Get(t.balances, a')
    ensures r == t.(balances := r.balances)
  {
    PutGetAll(t.balances, a, b);
    t.(balances := Put(t.balances, a, b))
  }

  /**
    `update_transfer_sends`: appends the transfer to the sends of `sender`,
    creating the balance when absent; other addresses are untouched.
   */
  function UpdateTransferSends(t: Ticker, sender: Address, tx: TransferTx): (r: Ticker)
    ensures Get(r.balances, sender) == Some(AddTransferSend(BalanceOrNew(t, sender), tx))
    ensures forall a :: a != sender ==> Get(r.balances, a) == Get(t.balances, a)
    ensures Overall(Get(r.balances, sender).value) == Overall(BalanceOrNew(t, sender)) - tx.amount
    ensures r == t.(balances := r.balances)
  {
    SetBalance(t, sender, AddTransferSend(BalanceOrNew(t, sender), tx))
  }

  /**
    `update_transfer_receives`: appends the transfer to the receives of
    `receiver`, creating the balance when absent; other addresses are
    untouched.
   */
  function UpdateTransferReceives(t: Ticker, receiver: Address, tx: TransferTx): (r: Ticker)
    ensures Get(r.balances, receiver) == Some(AddTransferReceive(BalanceOrNew(t, receiver), tx))
    ensures forall a :: a != receiver ==> Get(r.balances, a) == Get(t.balances, a)
    ensures Overall(Get(r.balances, receiver).value) == Overall(BalanceOrNew(t, receiver)) + tx.amount
    ensures r == t.(balances := r.balances)
  {
    SetBalance(t, receiver, AddTransferReceive(BalanceOrNew(t, receiver), tx))
  }

  /**
    `add_mint`: appends the mint to the ticker's mints and to the owner's
    balance, creating the balance when absent. The `total_minted` field is
    not touched.
   */
  function AddMint(t: Ticker, m: MintTx): (r: Ticker)
    ensures r.mints == t.mints + [m]
    ensures Get(r.balances, m.tx.owner) == Some(AddMintTx(BalanceOrNew(t, m.tx.owner), m))
    ensures forall a :: a != m.tx.owner ==> Get(r.balances, a) == Get(t.balances, a)
    ensures r.totalMinted == t.totalMinted
    ensures GetTotalMintedFromMintTxs(r) == GetTotalMintedFromMintTxs(t) + m.amount
    ensures r == t.(balances := r.balances, mints := r.mints)
  {
    SumMintsAppend(t.mints, m);
    var owner := m.tx.owner;
    SetBalance(t, owner, AddMintTx(BalanceOrNew(t, owner), m)).(mints := t.mints + [m])
  }

  /** The sum of the overall balances of all addresses. */
  function TotalOverall(bs: Entries<Address, UserBalance>): real {
    SumValues(bs, Overall)
  }

  /**
    The ledger balances: the overall balances of all addresses add up to the
    amount ever minted, so that transfers move tokens and never create them.
   */
  ghost predicate Ledger(t: Ticker) {
    UniqueKeys(t.balances) && TotalOverall(t.balances) == GetTotalMintedFromMintTxs(t)
  }

  /** Replacing one address's balance changes the total by the change of that balance's overall. */
  lemma SetBalanceTotal(t: Ticker, a: Address, b: UserBalance)
    requires UniqueKeys(t.balances)
    ensures UniqueKeys(SetBalance(t, a, b).balances)
    ensures TotalOverall(SetBalance(t, a, b).balances)
      == TotalOverall(t.balances) + Overall(b) - Overall(BalanceOrNew(t, a))
  {
    PutKeys(t.balances, a, b);
    SumValuesPut(t.balances, a, b, Overall);
  }

  /** A mint credits its owner and the mint total alike. */
  lemma AddMintKeepsLedger(t: Ticker, m: MintTx)
    requires Ledger(t)
    ensures Ledger(AddMint(t, m))
  {
    SetBalanceTotal(t, m.tx.owner, AddMintTx(BalanceOrNew(t, m.tx.owner), m));
  }

  /** A completed transfer credits the receiver and then debits the sender by the same amount. */
  lemma TransferKeepsLedger(t: Ticker, sender: Address, receiver: Address, tx: TransferTx)
    requires Ledger(t)
    ensures Ledger(UpdateTransferSends(UpdateTransferReceives(t, receiver, tx), sender, tx))
  {
    var t1 := UpdateTransferReceives(t, receiver, tx);
    SetBalanceTotal(t, receiver, AddTransferReceive(BalanceOrNew(t, receiver), tx));
    SetBalanceTotal(t1, sender, AddTransferSend(BalanceOrNew(t1, sender), tx));
  }

  /** Replacing the balance at position `i` changes the total by the change of its overall balance and keeps the keys. */
  lemma {:induction false} ReplaceAtTotal(bs: Entries<Address, UserBalance>, i: nat, b: UserBalance)
    requires i < |bs|
    ensures TotalOverall(bs[i := (bs[i].0, b)]) == TotalOverall(bs) + Overall(b) - Overall(bs[i].1)
    decreases i
  {
    if i > 0 {
      ReplaceAtTotal(bs[1..], i - 1, b);
      assert bs[i := (bs[i].0, b)][1..] == bs[1..][i - 1 := (bs[i].0, b)];
    } else {
      assert bs[0 := (bs[0].0, b)][1..] == bs[1..];
    }
  }

  /** Taking an inscription out of a balance does not change any overall balance. */
  lemma RemoveFromFirstHolderTotal(bs: Entries<Address, UserBalance>, op: OutPoint)
    ensures TotalOverall(RemoveFromFirstHolder(bs, op).0) == TotalOverall(bs)
    ensures UniqueKeys(bs) ==> UniqueKeys(RemoveFromFirstHolder(bs, op).0)
  {
    var h := FirstHolder(bs, op);
    if h.Some? {
      var i := h.value;
      var b := RemoveInscription(bs[i].1, op).0;
      ReplaceAtTotal(bs, i, b);
      var r := bs[i := (bs[i].0, b)];
      assert forall j :: 0 <= j < |r| ==> r[j].0 == bs[j].0;
    }
  }

  /** Removing an active inscription keeps the ledger balanced. */
  lemma RemoveKeepsLedger(t: Ticker, op: OutPoint)
    requires Ledger(t)
    ensures Ledger(GetAndRemoveActiveTransferInscription(t, op).0)
  {
    RemoveFromFirstHolderTotal(t.balances, op);
  }
}

=== FILE: transfer.dfy ===
/**
  A BRC-20 transfer inscription (src/brc20_index/transfer.rs): the inscribing
  transaction, its script, the amount it moves and, once it is spent, the
  spending transaction and the receiver.
 */
module TransferTxs {
  import opened Base
  import opened Chain
  import opened Witness
  import opened Brc20Txs

  datatype TransferTx = TransferTx(
    inscriptionTx: Brc20Tx,
    transferTx: Option<RawTxInfo>,
    script: Inscription,
    amount: real,
    receiver: Option<Address>,
    isValid: bool)

  /**
    The amount an inscription names: its `amt` parsed as a float, and 0 when
    `amt` is missing or does not parse.
   */
  function AmountOrZero(amt: Option<string>, parseF64: string -> Option<real>): (a: real)
    ensures amt.Some? && parseF64(amt.value).Some? ==> a == parseF64(amt.value).value
    ensures amt.None? || parseF64(amt.value).None? ==> a == 0.0
  {
    match amt
    case None => 0.0
    case Some(s) =>
      match parseF64(s)
      case Some(v) => v
      case None => 0.0
  }

  /**
    `Brc20TransferTx::new`: the amount is the parsed `amt` (0 when missing or
    unparseable); the transfer starts invalid, unspent and without receiver.
   */
  function NewTransferTx(tx: Brc20Tx, script: Inscription, parseF64: string -> Option<real>): (t: TransferTx)
    ensures t.inscriptionTx == tx && t.script == script
    ensures t.amount == AmountOrZero(script.amt, parseF64)
    ensures !t.isValid && t.receiver.None? && t.transferTx.None?
  {
    TransferTx(tx, None, script, AmountOrZero(script.amt, parseF64), None, false)
  }

  /** `set_transfer_tx`: records the spending transaction and nothing else. */
  function SetTransferTx(t: TransferTx, spend: RawTxInfo): (r: TransferTx)
    ensures r.transferTx == Some(spend)
    ensures r.inscriptionTx == t.inscriptionTx && r.script == t.script && r.amount == t.amount
    ensures r.receiver == t.receiver && r.isValid == t.isValid
  {
    t.(transferTx := Some(spend))
  }

  /** `set_validity`: changes the validity flag and nothing else. */
  function SetValidity(t: TransferTx, isValid: bool): (r: TransferTx)
    ensures r.isValid == isValid
    ensures r.inscriptionTx == t.inscriptionTx && r.script == t.script && r.amount == t.amount
    ensures r.receiver == t.receiver && r.transferTx == t.transferTx
  {
    t.(isValid := isValid)
  }

  /** `set_receiver`: records the receiver and nothing else. */
  function SetReceiver(t: TransferTx, receiver: Address): (r: TransferTx)
    ensures r.receiver == Some(receiver)
    ensures r.inscriptionTx == t.inscriptionTx && r.script == t.script && r.amount == t.amount
    ensures r.isValid == t.isValid && r.transferTx == t.transferTx
  {
    t.(receiver := Some(receiver))
  }

  /** `get_inscription_outpoint`: the output the inscription was written to. */
  function GetInscriptionOutpoint(t: TransferTx): (op: OutPoint)
    ensures op.txid == t.inscriptionTx.txId && op.vout == t.inscriptionTx.vout
  {
    GetOutpoint(t.inscriptionTx)
  }

  /** None of the setters moves the inscription: the outpoint a transfer is keyed by is fixed at creation. */
  lemma SettersKeepOutpoint(t: TransferTx, spend: RawTxInfo, receiver: Address, isValid: bool)
    ensures GetInscriptionOutpoint(SetTransferTx(t, spend)) == GetInscriptionOutpoint(t)
    ensures GetInscriptionOutpoint(SetReceiver(t, receiver)) == GetInscriptionOutpoint(t)
    ensures GetInscriptionOutpoint(SetValidity(t, isValid)) == GetInscriptionOutpoint(t)
  {
  }
}

=== FILE: transfers.dfy ===
/**
  Inscribing a transfer (`handle_inscribe_transfer_amount`,
  src/brc20_index/transfer.rs): the inscription locks part of its owner's
  available balance, or is rejected with a reason.
 */
module Transfers {
  import opened Base
  import opened Text
  import opened Chain
  import opened Assoc
  import opened Brc20Txs
  import opened TransferTxs
  import opened UserBalances
  import opened Tickers

  const TickerNotFound: string := "Ticker not found"
  const UserBalanceNotFound: string := "User balance not found"
  const ExceedsAvailable: string := "Transfer amount exceeds available balance"

  /** The transfer after the check, the ticker map and the invalid map. */
  datatype Inscribed = Inscribed(transfer: TransferTx, tickers: map<string, Ticker>, invalid: InvalidTxMap)

  /** Records the transfer as rejected for `reason`. */
  function Reject(t: TransferTx, invalid: InvalidTxMap, reason: string): InvalidTxMap {
    AddInvalidTx(invalid, InvalidTx(t.inscriptionTx.txId, t.script, reason))
  }

  /**
    The check itself, with the ticker found under `key`: the owner needs a
    balance whose available part covers the amount. Then the transfer,
    marked valid, is stored among the owner's active inscriptions;
    otherwise it is recorded as invalid and nothing else changes.
   */
  function InscribeUnder(
    t: TransferTx, key: string, tickers: map<string, Ticker>, invalid: InvalidTxMap, parseF64: string -> Option<real>)
    : (r: Inscribed)
    ensures key !in tickers ==> r == Inscribed(t, tickers, Reject(t, invalid, TickerNotFound))
    ensures key in tickers && Get(tickers[key].balances, t.inscriptionTx.owner).None? ==>
      r == Inscribed(t, tickers, Reject(t, invalid, UserBalanceNotFound))
    ensures (
      && key in tickers && Get(tickers[key].balances, t.inscriptionTx.owner).Some?
      && Available(Get(tickers[key].balances, t.inscriptionTx.owner).value) < AmountOrZero(t.script.amt, parseF64)) ==>
      r == Inscribed(t, tickers, Reject(t, invalid, ExceedsAvailable))
    ensures (
      && key in tickers && Get(tickers[key].balances, t.inscriptionTx.owner).Some?
      && Available(Get(tickers[key].balances, t.inscriptionTx.owner).value) >= AmountOrZero(t.script.amt, parseF64)) ==>
      && r.transfer == SetValidity(t, true)
      && r.invalid == invalid
      && r.tickers.Keys == tickers.Keys
      && (forall k :: k in tickers && k != key ==> r.tickers[k] == tickers[k])
      && r.tickers[key] == SetBalance(tickers[key], t.inscriptionTx.owner,
           AddTransferInscription(Get(tickers[key].balances, t.inscriptionTx.owner).value, SetValidity(t, true)))
  {
    if key !in tickers then Inscribed(t, tickers, Reject(t, invalid, TickerNotFound))
    else
      var ticker := tickers[key];
      var owner := t.inscriptionTx.owner;
      match Get(ticker.balances, owner)
      case None => Inscribed(t, tickers, Reject(t, invalid, UserBalanceNotFound))
      case Some(b) =>
        if Available(b) >= AmountOrZero(t.script.amt, parseF64) then
          var valid := SetValidity(t, true);
          Inscribed(valid, tickers[key := SetBalance(ticker, owner, AddTransferInscription(b, valid))], invalid)
        else Inscribed(t, tickers, Reject(t, invalid, ExceedsAvailable))
  }

  /**
    `handle_inscribe_transfer_amount` as written: the ticker is looked up
    under the tick exactly as inscribed, although tickers are filed under
    their lower-cased symbol.
   */
  function HandleInscribeTransferAmountAsWritten(
    t: TransferTx, tickers: map<string, Ticker>, invalid: InvalidTxMap, parseF64: string -> Option<real>)
    : (r: Inscribed)
    ensures t.script.tick !in tickers ==> r == Inscribed(t, tickers, Reject(t, invalid, TickerNotFound))
    ensures r.transfer.isValid && !t.isValid ==> t.script.tick in tickers
  {
    InscribeUnder(t, t.script.tick, tickers, invalid, parseF64)
  }

  /**
    `handle_inscribe_transfer_amount` with the ticker looked up under the
    lower-cased tick, the key deploys file tickers under.
   */
  function HandleInscribeTransferAmount(
    t: TransferTx, tickers: map<string, Ticker>, invalid: InvalidTxMap, parseF64: string -> Option<real>)
    : (r: Inscribed)
    ensures ToLower(t.script.tick) !in tickers ==> r == Inscribed(t, tickers, Reject(t, invalid, TickerNotFound))
    ensures r.transfer.isValid && !t.isValid ==> ToLower(t.script.tick) in tickers
    ensures r.tickers.Keys == tickers.Keys
  {
    InscribeUnder(t, ToLower(t.script.tick), tickers, invalid, parseF64)
  }

  /**
    A ticker deployed as "ordi" is filed under "ordi". A transfer inscribed
    with tick "ORDI" is rejected as "Ticker not found" by the code as
    written, and accepted by the lookup under the lower-cased tick when the
    owner's available balance covers the amount.
   */
  lemma UpperCaseTickRejectedAsWritten(
    t: TransferTx, ticker: Ticker, b: UserBalance, invalid: InvalidTxMap, parseF64: string -> Option<real>)
    requires t.script.tick == "ORDI" && !t.isValid
    requires ticker.balances == [(t.inscriptionTx.owner, b)]
    requires Available(b) >= AmountOrZero(t.script.amt, parseF64)
    ensures var tickers := map["ordi" := ticker];
      && HandleInscribeTransferAmountAsWritten(t, tickers, invalid, parseF64).invalid.entries[t.inscriptionTx.txId].reason
         == TickerNotFound
      && !HandleInscribeTransferAmountAsWritten(t, tickers, invalid, parseF64).transfer.isValid
      && HandleInscribeTransferAmount(t, tickers, invalid, parseF64).transfer.isValid
  {
    var tickers := map["ordi" := ticker];
    assert "ORDI" != "ordi" by { assert "ORDI"[0] != "ordi"[0]; }
    assert ToLower("ORDI") == "ordi";
    assert Get(ticker.balances, t.inscriptionTx.owner) == Some(b);
  }

  /**
    An accepted transfer never locks more than the owner has: when the
    owner's balance is well formed and the outpoint is not yet active, the
    available balance drops by exactly the amount and stays non-negative,
    while the overall balance does not move.
   */
  lemma AcceptedTransferLocksAmount(
    t: TransferTx, tickers: map<string, Ticker>, invalid: InvalidTxMap, parseF64: string -> Option<real>)
    requires ToLower(t.script.tick) in tickers
    requires var b := Get(tickers[ToLower(t.script.tick)].balances, t.inscriptionTx.owner);
      && b.Some? && UserBalances.Valid(b.value)
      && !HasKey(b.value.active, GetInscriptionOutpoint(t))
      && Available(b.value) >= AmountOrZero(t.script.amt, parseF64)
      && t.amount == AmountOrZero(t.script.amt, parseF64)
    ensures var r := HandleInscribeTransferAmount(t, tickers, invalid, parseF64);
      var key := ToLower(t.script.tick);
      var before := Get(tickers[key].balances, t.inscriptionTx.owner).value;
      && r.transfer.isValid
      && r.invalid == invalid
      && Get(r.tickers[key].balances, t.inscriptionTx.owner).Some?
      && var after := Get(r.tickers[key].balances, t.inscriptionTx.owner).value;
      && Available(after) == Available(before) - t.amount
      && Available(after) >= 0.0
      && Overall(after) == Overall(before)
      && IsActiveInscription(after, GetInscriptionOutpoint(t))
  {
  }
}

=== FILE: user_balance.dfy ===
/**
  One address's balance of one ticker (src/brc20_index/user_balance.rs).
  Nothing is stored as a number: the overall balance is the received
  transfers minus the sent ones plus the mints, the transferable balance is
  the amount locked in active transfer inscriptions, and the available
  balance is what remains.
 */
module UserBalances {
  import opened Base
  import opened Chain
  import opened Brc20Txs
  import opened TransferTxs
  import opened Assoc

  /**
    An accepted mint as the in-memory ledger records it: the inscribing
    transaction (whose owner receives the tokens) and the minted amount.
   */
  datatype MintTx = MintTx(tx: Brc20Tx, amount: real)

  datatype UserBalance = UserBalance(
    active: Entries<OutPoint, TransferTx>,
    sends: seq<TransferTx>,
    receives: seq<TransferTx>,
    mints: seq<MintTx>)

  /** The map of active inscriptions is a map: one entry per outpoint. */
  ghost predicate Valid(b: UserBalance) {
    UniqueKeys(b.active)
  }

  function TransferAmount(t: TransferTx): real {
    t.amount
  }

  /** The sum of transfer amounts, accumulated front to back as `Iterator::sum` does. */
  function SumTransfers(s: seq<TransferTx>): real
    decreases |s|
  {
    if |s| == 0 then 0.0 else SumTransfers(s[..|s| - 1]) + s[|s| - 1].amount
  }

  /** The sum of mint amounts, accumulated front to back. */
  function SumMints(s: seq<MintTx>): real
    decreases |s|
  {
    if |s| == 0 then 0.0 else SumMints(s[..|s| - 1]) + s[|s| - 1].amount
  }

  lemma SumTransfersAppend(s: seq<TransferTx>, t: TransferTx)
    ensures SumTransfers(s + [t]) == SumTransfers(s) + t.amount
  {
    assert (s + [t])[..|s|] == s;
  }

  lemma SumMintsAppend(s: seq<MintTx>, m: MintTx)
    ensures SumMints(s + [m]) == SumMints(s) + m.amount
  {
    assert (s + [m])[..|s|] == s;
  }

  /** `get_transferable_balance`: the amounts locked in active transfer inscriptions. */
  function Transferable(b: UserBalance): (r: real)
    ensures |b.active| == 0 ==> r == 0.0
    ensures (forall i :: 0 <= i < |b.active| ==> b.active[i].1.amount >= 0.0) ==> r >= 0.0
  {
    SumValuesNonNegative(b.active, TransferAmount);
    SumValues(b.active, TransferAmount)
  }

  /**
    `get_total_amount_from_mints`: the amounts of the balance's mints, each
    counted once; it is the overall balance of an address that only minted.
   */
  function TotalFromMints(b: UserBalance): (r: real)
    ensures |b.mints| == 0 ==> r == 0.0
    ensures forall m :: SumMints(b.mints + [m]) == r + m.amount
    ensures |b.receives| == 0 && |b.sends| == 0 ==> r == Overall(b)
  {
    forall m
      ensures SumMints(b.mints + [m]) == SumMints(b.mints) + m.amount
    {
      SumMintsAppend(b.mints, m);
    }
    SumMints(b.mints)
  }

  /** `get_overall_balance`: what was received and minted, less what was sent. */
  function Overall(b: UserBalance): (r: real)
    ensures r + SumTransfers(b.sends) == SumTransfers(b.receives) + SumMints(b.mints)
    ensures |b.receives| == 0 && |b.sends| == 0 ==> r == SumMints(b.mints)
  {
    SumTransfers(b.receives) - SumTransfers(b.sends) + SumMints(b.mints)
  }

  /** `get_available_balance`: the overall balance less what is locked in transfer inscriptions. */
  function Available(b: UserBalance): (r: real)
    ensures r + Transferable(b) == Overall(b)
    ensures |b.active| == 0 ==> r == Overall(b)
  {
    Overall(b) - Transferable(b)
  }

  /** `UserBalance::new`: no inscriptions, sends, receives or mints, so every balance is 0. */
  function NewUserBalance(): (b: UserBalance)
    ensures Valid(b)
    ensures |b.active| == 0 && |b.sends| == 0 && |b.receives| == 0 && |b.mints| == 0
    ensures Overall(b) == 0.0 && Available(b) == 0.0 && Transferable(b) == 0.0
  {
    UserBalance([], [], [], [])
  }

  /**
    `add_transfer_inscription`: keys the inscription by its outpoint. The
    overall balance does not move; a fresh outpoint moves the amount from
    available to transferable, and an outpoint already present has its
    entry replaced.
   */
  function AddTransferInscription(b: UserBalance, t: TransferTx): (r: UserBalance)
    ensures Get(r.active, GetInscriptionOutpoint(t)) == Some(t)
    ensures forall op :: op != GetInscriptionOutpoint(t) ==> Get(r.active, op) == Get(b.active, op)
    ensures r.sends == b.sends && r.receives == b.receives && r.mints == b.mints
    ensures Overall(r) == Overall(b)
    ensures Valid(b) ==> Valid(r)
    ensures Valid(b) && !HasKey(b.active, GetInscriptionOutpoint(t)) ==>
      Transferable(r) == Transferable(b) + t.amount && Available(r) == Available(b) - t.amount
    ensures Valid(b) && HasKey(b.active, GetInscriptionOutpoint(t)) ==>
      Transferable(r) == Transferable(b) - Get(b.active, GetInscriptionOutpoint(t)).value.amount + t.amount
  {
    var op := GetInscriptionOutpoint(t);
    PutGetAll(b.active, op, t);
    PutKeys(b.active, op, t);
    SumValuesPut(b.active, op, t, TransferAmount);
    b.(active := Put(b.active, op, t))
  }

  /**
    Locking a transfer at a fresh outpoint leaves a non-negative available
    balance exactly when the amount is at most what was available, the
    check transfer inscriptions must pass; the amount moves from available
    to transferable.
   */
  lemma InscribeKeepsAvailableNonNegative(b: UserBalance, t: TransferTx)
    requires Valid(b) && !HasKey(b.active, GetInscriptionOutpoint(t))
    ensures var r := AddTransferInscription(b, t);
      && (Available(r) >= 0.0 <==> t.amount <= Available(b))
      && Available(r) + Transferable(r) == Available(b) + Transferable(b)
  {
  }

  /** `is_active_inscription`: whether an inscription is held at `op`. */
  function IsActiveInscription(b: UserBalance, op: OutPoint): (r: bool)
    ensures r <==> HasKey(b.active, op)
  {
    Get(b.active, op).Some?
  }

  /**
    `remove_inscription`: takes the inscription held at `op` out of the
    active ones and returns it; for an outpoint not held, returns None and
    leaves the balance as it was. The overall balance never moves.
   */
  function RemoveInscription(b: UserBalance, op: OutPoint): (r: (UserBalance, Option<TransferTx>))
    ensures r.1 == Get(b.active, op)
    ensures !IsActiveInscription(r.0, op)
    ensures r.1.None? ==> r.0 == b
    ensures forall op' :: op' != op ==> Get(r.0.active, op') == Get(b.active, op')
    ensures r.0.sends == b.sends && r.0.receives == b.receives && r.0.mints == b.mints
    ensures Overall(r.0) == Overall(b)
    ensures Valid(b) ==> Valid(r.0)
    ensures Valid(b) && r.1.Some? ==> Transferable(r.0) == Transferable(b) - r.1.value.amount
  {
    RemoveGetAll(b.active, op);
    RemoveKeys(b.active, op);
    SumValuesRemove(b.active, op, TransferAmount);
    (b.(active := Remove(b.active, op)), Get(b.active, op))
  }

  /** `add_mint_tx`: the minted amount raises the overall and the available balance. */
  function AddMintTx(b: UserBalance, m: MintTx): (r: UserBalance)
    ensures r.mints == b.mints + [m]
    ensures r.active == b.active && r.sends == b.sends && r.receives == b.receives
    ensures TotalFromMints(r) == TotalFromMints(b) + m.amount
    ensures Overall(r) == Overall(b) + m.amount
    ensures Available(r) == Available(b) + m.amount
    ensures Transferable(r) == Transferable(b)
  {
    SumMintsAppend(b.mints, m);
    b.(mints := b.mints + [m])
  }

  /** `add_transfer_send`: a sent transfer lowers the overall balance by its amount. */
  function AddTransferSend(b: UserBalance, t: TransferTx): (r: UserBalance)
    ensures r.sends == b.sends + [t]
    ensures r.active == b.active && r.receives == b.receives && r.mints == b.mints
    ensures Overall(r) == Overall(b) - t.amount
    ensures Transferable(r) == Transferable(b)
  {
    SumTransfersAppend(b.sends, t);
    b.(sends := b.sends + [t])
  }

  /** `add_transfer_receive`: a received transfer raises the overall balance by its amount. */
  function AddTransferReceive(b: UserBalance, t: TransferTx): (r: UserBalance)
    ensures r.receives == b.receives + [t]
    ensures r.active == b.active && r.sends == b.sends && r.mints == b.mints
    ensures Overall(r) == Overall(b) + t.amount
    ensures Transferable(r) == Transferable(b)
  {
    SumTransfersAppend(b.receives, t);
    b.(receives := b.receives + [t])
  }

  /**
    The life of a transfer inscription within one balance: inscribing it at
    a fresh outpoint and then spending it (removal plus a send) lowers the
    overall balance by the amount and returns the transferable balance to
    where it was.
   */
  lemma InscribeThenSpend(b: UserBalance, t: TransferTx)
    requires Valid(b) && !HasKey(b.active, GetInscriptionOutpoint(t))
    ensures var (removed, got) := RemoveInscription(AddTransferInscription(b, t), GetInscriptionOutpoint(t));
      && got == Some(t)
      && Transferable(AddTransferSend(removed, t)) == Transferable(b)
      && Overall(AddTransferSend(removed, t)) == Overall(b) - t.amount
  {
  }
}

=== FILE: vout.dfy ===
/**
  Which output a spent inscription moves to (the `proper_vout` computation
  of `process_active_transfer`, src/brc20_index.rs). Satoshis pass from
  inputs to outputs first in, first out: the first satoshi of input k sits
  at offset S, the total value of inputs 0..k-1, and goes to the output
  whose value range covers S.
 */
module Vouts {
  import opened Base
  import opened Chain

  /** The total value of the first `n` outputs: output `i` covers the offsets from `ValueBefore(outs, i)` up to `ValueBefore(outs, i + 1)`. */
  function ValueBefore(outs: seq<TxOut>, n: nat): nat
    requires n <= |outs|
  {
    if n == 0 then 0 else ValueBefore(outs, n - 1) + outs[n - 1].value
  }

  /** The running sum `scan` yields at position `i`: the value of outputs 0..i. */
  function RunningSum(outs: seq<TxOut>, i: nat): nat
    requires i < |outs|
  {
    ValueBefore(outs, i + 1)
  }

  function TotalValue(outs: seq<TxOut>): nat {
    ValueBefore(outs, |outs|)
  }

  lemma {:induction false} ValueBeforeMonotone(outs: seq<TxOut>, i: nat, j: nat)
    requires i <= j <= |outs|
    ensures ValueBefore(outs, i) <= ValueBefore(outs, j)
    decreases j
  {
    if i < j {
      ValueBeforeMonotone(outs, i, j - 1);
    }
  }

  /** Whether a running sum `v` has reached `target`: passed it when `strict`, met or passed it otherwise. */
  predicate Reaches(v: nat, target: nat, strict: bool) {
    if strict then v > target else v >= target
  }

  /** The first position at or after `from` whose running sum reaches `target`. */
  function FirstReaching(outs: seq<TxOut>, target: nat, strict: bool, from: nat): (r: Option<nat>)
    requires from <= |outs|
    ensures r.Some? ==> from <= r.value < |outs| && Reaches(RunningSum(outs, r.value), target, strict)
    ensures r.Some? ==> forall j :: from <= j < r.value ==> !Reaches(RunningSum(outs, j), target, strict)
    ensures r.None? ==> forall j :: from <= j < |outs| ==> !Reaches(RunningSum(outs, j), target, strict)
    decreases |outs| - from
  {
    if from == |outs| then None
    else if Reaches(RunningSum(outs, from), target, strict) then Some(from)
    else FirstReaching(outs, target, strict, from + 1)
  }

  const NoOutputs: string := "Transaction has no outputs"

  /**
    `proper_vout` as written: input 0 always goes to output 0; a later
    input goes to the first output whose running sum is at least S, and to
    the last output when none is. With no outputs, the fallback index
    underflows; that is an error here.
   */
  function ProperVoutAsWritten(outs: seq<TxOut>, inputIndex: nat, precedingValue: nat): (r: Result<nat>)
    ensures inputIndex == 0 ==> r == Ok(0)
    ensures inputIndex > 0 ==> (r.Err? <==> |outs| == 0)
    ensures inputIndex > 0 && r.Ok? ==> r.value < |outs|
    ensures inputIndex > 0 && r.Ok? && precedingValue <= TotalValue(outs) ==>
      && RunningSum(outs, r.value) >= precedingValue
      && forall j :: 0 <= j < r.value ==> RunningSum(outs, j) < precedingValue
    ensures inputIndex > 0 && r.Ok? && precedingValue > TotalValue(outs) ==> r.value == |outs| - 1
  {
    if inputIndex == 0 then Ok(0)
    else
      match FirstReaching(outs, precedingValue, false, 0)
      case Some(i) =>
        ValueBeforeMonotone(outs, i + 1, |outs|);
        Ok(i)
      case None => if |outs| == 0 then Err(NoOutputs) else Ok(|outs| - 1)
  }

  /**
    The output that receives the satoshi at offset S: the first one whose
    running sum passes S. When S is beyond the outputs (the satoshi would
    go to the fee), the last output, as in the source.
   */
  function ProperVout(outs: seq<TxOut>, precedingValue: nat): (r: Result<nat>)
    ensures r.Err? <==> |outs| == 0
    ensures r.Err? ==> r.error == NoOutputs
    ensures r.Ok? ==> r.value < |outs|
    ensures r.Ok? && precedingValue < TotalValue(outs) ==>
      ValueBefore(outs, r.value) <= precedingValue < ValueBefore(outs, r.value + 1)
    ensures r.Ok? && precedingValue >= TotalValue(outs) ==> r.value == |outs| - 1
  {
    match FirstReaching(outs, precedingValue, true, 0)
    case Some(i) =>
      assert i > 0 ==> !Reaches(RunningSum(outs, i - 1), precedingValue, true);
      ValueBeforeMonotone(outs, i + 1, |outs|);
      Ok(i)
    case None =>
      if |outs| == 0 then Err(NoOutputs)
      else
        assert !Reaches(RunningSum(outs, |outs| - 1), precedingValue, true);
        Ok(|outs| - 1)
  }

  /** The output `ProperVout` picks is the only one whose range covers S. */
  lemma ProperVoutIsTheCoveringOutput(outs: seq<TxOut>, s: nat, i: nat)
    requires s < TotalValue(outs) && i < |outs|
    ensures ProperVout(outs, s) == Ok(i) <==> ValueBefore(outs, i) <= s < ValueBefore(outs, i + 1)
  {
    if ValueBefore(outs, i) <= s < ValueBefore(outs, i + 1) {
      assert Reaches(RunningSum(outs, i), s, true);
      var f := FirstReaching(outs, s, true, 0);
      var k := f.value;
      if k < i {
        ValueBeforeMonotone(outs, k + 1, i);
      }
    }
  }

  /** Where no running sum equals S exactly, both computations pick the same output for every input but the first. */
  lemma {:induction false} AsWrittenAgreesOffBoundaries(outs: seq<TxOut>, inputIndex: nat, s: nat)
    requires inputIndex > 0
    requires forall j :: 0 <= j < |outs| ==> RunningSum(outs, j) != s
    ensures ProperVoutAsWritten(outs, inputIndex, s) == ProperVout(outs, s)
  {
    FirstReachingOffBoundaries(outs, s, 0);
  }

  lemma {:induction false} FirstReachingOffBoundaries(outs: seq<TxOut>, s: nat, from: nat)
    requires from <= |outs|
    requires forall j :: from <= j < |outs| ==> RunningSum(outs, j) != s
    ensures FirstReaching(outs, s, false, from) == FirstReaching(outs, s, true, from)
    decreases |outs| - from
  {
    if from < |outs| {
      FirstReachingOffBoundaries(outs, s, from + 1);
    }
  }

  /**
    A transfer whose second input follows an input of 1000 sats, paying
    outputs of 1000 and 500 sats: the satoshi at offset 1000 is the first
    of output 1, but the code as written picks output 0. And a first input
    paying a zero-value output 0 and 546 sats to output 1: the satoshi goes
    to output 1, the code as written picks output 0.
   */
  lemma AsWrittenMissesTheCoveringOutput()
    ensures var outs := [TxOut(1000), TxOut(500)];
      && ProperVoutAsWritten(outs, 1, 1000) == Ok(0)
      && !(ValueBefore(outs, 0) <= 1000 < ValueBefore(outs, 1))
      && ProperVout(outs, 1000) == Ok(1)
    ensures var outs := [TxOut(0), TxOut(546)];
      && ProperVoutAsWritten(outs, 0, 0) == Ok(0)
      && !(ValueBefore(outs, 0) <= 0 < ValueBefore(outs, 1))
      && ProperVout(outs, 0) == Ok(1)
  {
    var outs := [TxOut(1000), TxOut(500)];
    assert ValueBefore(outs, 1) == 1000 && ValueBefore(outs, 2) == 1500;
    var outs2 := [TxOut(0), TxOut(546)];
    assert ValueBefore(outs2, 1) == 0 && ValueBefore(outs2, 2) == 546;
  }

  /** For the first input, the corrected computation keeps output 0 whenever output 0 carries value. */
  lemma FirstInputKeepsOutputZero(outs: seq<TxOut>)
    requires |outs| > 0 && outs[0].value > 0
    ensures ProperVout(outs, 0) == ProperVoutAsWritten(outs, 0, 0)
  {
    assert ValueBefore(outs, 1) == outs[0].value;
  }
}

=== FILE: witness.dfy ===
/**
  Finding BRC-20 inscriptions in witness data (src/brc20_index.rs and
  src/main.rs). A witness item is searched for a MIME marker; the JSON
  candidate runs from the first `{` after the marker to the last `}` of the
  text; the candidate is handed to a JSON parser (foreign code, passed in
  as a function) and kept only when its protocol field reads "brc-20".
 */
module Witness {
  import opened Base
  import opened Text
  import opened Chain

  /** The fields of a BRC-20 inscription, as the JSON decoder produces them. */
  datatype Inscription = Inscription(
    p: string,
    op: string,
    tick: string,
    amt: Option<string>,
    max: Option<string>,
    lim: Option<string>,
    dec: Option<string>)

  /** A generic JSON value, as `serde_json::Value`. */
  datatype Json =
    | JNull
    | JBool(b: bool)
    | JNumber(n: real)
    | JString(s: string)
    | JArray(items: seq<Json>)
    | JObject(fields: map<string, Json>)

  /** `value[key]` on a `serde_json::Value`: Null unless `value` is an object holding `key`. */
  function Field(value: Json, key: string): (r: Json)
    ensures r != JNull ==> value.JObject? && key in value.fields && value.fields[key] == r
  {
    if value.JObject? && key in value.fields then value.fields[key] else JNull
  }

  const TextPlain: string := "text/plain"
  const ApplicationJson: string := "application/json"
  const Protocol: string := "brc-20"

  /**
    The position just after the MIME marker: the first "text/plain" when the
    witness contains one, otherwise the first "application/json".
   */
  function MimeEnd(w: string): (r: Option<nat>)
    ensures r.None? <==> !Contains(w, TextPlain) && !Contains(w, ApplicationJson)
    ensures Contains(w, TextPlain) ==>
      && r.Some? && r.value >= |TextPlain|
      && MatchesAt(w, TextPlain, r.value - |TextPlain|)
      && forall j: nat :: j < r.value - |TextPlain| ==> !MatchesAt(w, TextPlain, j)
    ensures !Contains(w, TextPlain) && Contains(w, ApplicationJson) ==>
      && r.Some? && r.value >= |ApplicationJson|
      && MatchesAt(w, ApplicationJson, r.value - |ApplicationJson|)
      && forall j: nat :: j < r.value - |ApplicationJson| ==> !MatchesAt(w, ApplicationJson, j)
    ensures r.Some? ==> r.value <= |w|
  {
    if Contains(w, TextPlain) then Some(Find(w, TextPlain).value + |TextPlain|)
    else if Contains(w, ApplicationJson) then Some(Find(w, ApplicationJson).value + |ApplicationJson|)
    else None
  }

  /**
    The span `[start, end)` of the JSON candidate in `w` when the search
    begins at `m`: `start` is the first `{` at or after `m`, `end - 1` the
    last `}` from `start` on.
   */
  function SpanFrom(w: string, m: nat): (r: Option<(nat, nat)>)
    requires m <= |w|
    ensures r.Some? ==>
      && m <= r.value.0 < r.value.1 <= |w|
      && w[r.value.0] == '{'
      && (forall j :: m <= j < r.value.0 ==> w[j] != '{')
      && w[r.value.1 - 1] == '}'
      && (forall j :: r.value.1 <= j < |w| ==> w[j] != '}')
    ensures r.None? <==> '{' !in w[m..] || '}' !in w[m + FindChar(w[m..], '{').value..]
  {
    var rest := w[m..];
    match FindChar(rest, '{')
    case None => None
    case Some(j) =>
      var start := m + j;
      match RFindChar(w[start..], '}')
      case None => None
      case Some(k) => Some((start, start + k + 1))
  }

  /** The span of the JSON candidate: searched from the end of the MIME marker. */
  function JsonSpan(w: string): (r: Option<(nat, nat)>)
    ensures r.Some? ==> MimeEnd(w).Some? && r == SpanFrom(w, MimeEnd(w).value)
    ensures r.None? <==> MimeEnd(w).None? || SpanFrom(w, MimeEnd(w).value).None?
  {
    match MimeEnd(w)
    case None => None
    case Some(m) => SpanFrom(w, m)
  }

  /** The JSON candidate text; it starts with `{` and ends with `}`. */
  function JsonCandidate(w: string): (r: Option<string>)
    ensures r.Some? <==> JsonSpan(w).Some?
    ensures r.Some? ==> |r.value| >= 1 && r.value[0] == '{' && r.value[|r.value| - 1] == '}'
    ensures r.Some? ==> r.value == w[JsonSpan(w).value.0..JsonSpan(w).value.1]
  {
    match JsonSpan(w)
    case None => None
    case Some((a, b)) => Some(w[a..b])
  }

  /**
    The shared shape of both extractors: parse the candidate and keep the
    value when `accept` holds of it.
   */
  function ExtractWith<T>(w: string, parse: string -> Option<T>, accept: T -> bool): (r: Option<T>)
    ensures r.Some? <==>
      JsonCandidate(w).Some? && parse(JsonCandidate(w).value).Some? && accept(parse(JsonCandidate(w).value).value)
    ensures r.Some? ==> r == parse(JsonCandidate(w).value) && accept(r.value)
  {
    match JsonCandidate(w)
    case None => None
    case Some(json) =>
      match parse(json)
      case None => None
      case Some(v) => if accept(v) then Some(v) else None
  }

  /** `extract_and_process_witness_data` of src/brc20_index.rs: decodes into an `Inscription`. */
  function ExtractAndProcessWitnessData(w: string, parse: string -> Option<Inscription>): (r: Option<Inscription>)
    ensures r.Some? ==> r.value.p == Protocol
    ensures r.Some? <==>
      JsonCandidate(w).Some? && parse(JsonCandidate(w).value).Some? && parse(JsonCandidate(w).value).value.p == Protocol
    ensures r.Some? ==> r == parse(JsonCandidate(w).value)
    ensures !Contains(w, TextPlain) && !Contains(w, ApplicationJson) ==> r.None?
  {
    ExtractWith(w, parse, (i: Inscription) => i.p == Protocol)
  }

  /** `extract_and_process_witness_data` of src/main.rs: decodes into a generic JSON value. */
  function ExtractAndProcessWitnessValue(w: string, parse: string -> Option<Json>): (r: Option<Json>)
    ensures r.Some? ==> Field(r.value, "p") == JString(Protocol)
    ensures r.Some? <==>
      JsonCandidate(w).Some? && parse(JsonCandidate(w).value).Some?
      && Field(parse(JsonCandidate(w).value).value, "p") == JString(Protocol)
    ensures r.Some? ==> r == parse(JsonCandidate(w).value)
    ensures !Contains(w, TextPlain) && !Contains(w, ApplicationJson) ==> r.None?
  {
    ExtractWith(w, parse, (v: Json) => Field(v, "p") == JString(Protocol))
  }

  /** Decodes every witness item of a list, in order. */
  function DecodeItems(items: seq<seq<byte>>, lossy: seq<byte> -> string): (r: seq<string>)
    ensures |r| == |items|
    ensures forall i :: 0 <= i < |items| ==> r[i] == lossy(items[i])
  {
    seq(|items|, i requires 0 <= i < |items| => lossy(items[i]))
  }

  /**
    `get_witness_data_from_raw_tx`: the witness items of the first input,
    decoded with `lossy` (`String::from_utf8_lossy`); an empty list when the
    transaction has no inputs; an error when the raw hex does not decode.
   */
  function GetWitnessDataFromRawTx(raw: RawTxInfo, lossy: seq<byte> -> string): (r: Result<seq<string>>)
    ensures r.Err? <==> raw.transaction.None?
    ensures r.Ok? && |raw.transaction.value.input| == 0 ==> r.value == []
    ensures r.Ok? && |raw.transaction.value.input| > 0 ==>
      var items := raw.transaction.value.input[0].witnessItems;
      |r.value| == |items| && forall i :: 0 <= i < |items| ==> r.value[i] == lossy(items[i])
  {
    match raw.transaction
    case None => Err(DecodeFailed)
    case Some(tx) =>
      if |tx.input| == 0 then Ok([]) else Ok(DecodeItems(tx.input[0].witnessItems, lossy))
  }

  const InvalidTransactionId: string := "Invalid transaction ID"

  /**
    `get_witness_data_for_txid` of src/main.rs: parses the txid text, fetches
    the transaction through `fetch` (the node's `getrawtransaction`) and
    returns its first input's witness items.
   */
  function GetWitnessDataForTxid(
    txid: string, fetch: Txid -> Result<RawTxInfo>, lossy: seq<byte> -> string): (r: Result<seq<string>>)
    ensures ParseTxid(txid).None? ==> r == Err(InvalidTransactionId)
    ensures ParseTxid(txid).Some? && fetch(ParseTxid(txid).value).Err? ==> r == Err(fetch(ParseTxid(txid).value).error)
    ensures ParseTxid(txid).Some? && fetch(ParseTxid(txid).value).Ok? ==>
      r == GetWitnessDataFromRawTx(fetch(ParseTxid(txid).value).value, lossy)
  {
    match ParseTxid(txid)
    case None => Err(InvalidTransactionId)
    case Some(id) =>
      match fetch(id)
      case Err(e) => Err(e)
      case Ok(raw) => GetWitnessDataFromRawTx(raw, lossy)
  }

  /**
    The scan loop of src/main.rs passes `txid.to_string()`, which always
    parses: the "Invalid transaction ID" branch is never taken there, and
    the transaction fetched is the one named.
   */
  lemma FormattedTxidAlwaysParses(t: Txid, fetch: Txid -> Result<RawTxInfo>, lossy: seq<byte> -> string)
    ensures GetWitnessDataForTxid(FormatTxid(t), fetch, lossy) ==
      (match fetch(t) case Err(e) => Err(e) case Ok(raw) => GetWitnessDataFromRawTx(raw, lossy))
  {
    ParseFormatTxid(t);
  }
}
